=== FILE: README.md ===
# football-info in Dafny

A model of the core of football-info, a React front end for the
football-data.org API. It covers:

- the API client (`football_data.service.ts`): request URLs, the rate-limit
  snapshot it publishes, and the order of its error checks;
- the serverless proxy (`api/football-data.ts`) that forwards the client's
  requests;
- the TanStack Query keys of the hooks and the cache writes of the route
  loaders;
- the rate-limit event bus and its monitor;
- the mock data helpers and the mock player service;
- the squad collection of `football_data_players.service.ts`;
- the theme and settings providers;
- the view logic of the home pages, the competition sections, the today
  accordion, the league and match drawers, the player card and the
  results and fixtures tabs.

Rendering is modelled as a function from the component's props and query
state to a datatype that records what is shown: which blocks appear, which
badge, colour or label is chosen, and what text a number becomes. Layout and
styling are not modelled.

Calls into code outside the model are function parameters. These are
`fetch`, `getTeam`, `getCompetitionTeams` and the player service. The same
holds for the current date and time, the OS dark-mode preference, whether
`window` exists, whether local storage accepts a theme write, and whether
reading or writing the stored settings succeeds.
`Promise`s are modelled by their settled value.

The modules follow the source files:

| module | models |
|---|---|
| `Basics`, `Seqs`, `LexOrder`, `Grouping`, `Uri` | shared semantics: JavaScript `split`, `slice`, `parseInt`-free decimal text, `filter`, `find`, the stable `sort`, the default string `sort`, the `reduce`-into-a-record grouping, UTF-8 and percent encoding |
| `Domain` | the API records (competitions, teams, persons, matches, standings) |
| `FootballDataService`, `FootballDataProxy` | the client and the proxy |
| `QueryKeys`, `QueryCache`, `TeamLoader`, `PlayerLoader` | hooks, query keys, loaders |
| `RateLimitBus`, `RateLimitMonitor` | the event bus and the monitor |
| `CompetitionsMock`, `TeamsMock`, `PlayersMock`, `PlayerService` | mock data helpers |
| `PlayersService` | `getCompetitionPlayers`, `getTopPlayers`, `getTeamSquad` |
| `Theme`, `Settings` | the two context providers |
| `HomePage`, `LeaguesHomeCompact`, `CompetitionSections`, `TodayMatches`, `LeagueDrawer`, `MatchDrawer`, `MatchCards`, `PlayerCard`, `ResultsTab`, `FixturesTab` | the views |

## Model

| member | source | states |
|---|---|---|
| Basics.IntToStringRoundTrip | src/components/league_drawer/league_drawer.tsx:257-258 | Every integer the views render as text reads back as the same integer, so a rendered number identifies its value. |
| Basics.JoinSplit | src/components/player_card/player_card.tsx:96 | Joining the pieces of `split(sep)` with the separator gives back the original string. |
| Seqs.SortDesc | src/mocks/players.mock.ts:22-26 | The descending sort used by the top-N helpers is a permutation of its input and is ordered by the key, largest first. |
| Seqs.SortDescStable | src/mocks/players.mock.ts:22-26 | Like JavaScript's `Array.prototype.sort`, the sort is stable: the elements that share one key keep their input order. |
| Seqs.TopBy | src/services/player/player.service.ts:82-86 | `[...xs].sort(byKeyDesc).slice(0, limit)` has exactly `slice`'s length, is ordered by the key and takes only input elements. |
| Seqs.TopByExcludedRankLower | src/services/player/player.service.ts:85 | An element left out of the top `limit` ranks no higher than any element kept. |
| LexOrder.SortNums | src/services/football_data/football_data.hooks.ts:88 | `teamIds.sort()` without a comparator orders numbers by their decimal text; the result is a permutation, sorted in that order. |
| LexOrder.SortNumsPermutationInvariant | src/services/football_data/football_data.hooks.ts:88 | The sorted ids depend only on which ids are given, not on their order. |
| Grouping.GroupByPartition | src/routes/league/components/results_tab.tsx:17-24 | The `reduce` into a record keyed by group puts every element into exactly one group: the groups together are a permutation of the input. |
| Grouping.GroupByFirstAppearance | src/routes/leagues_home_compact.tsx:25-32 | The groups come in order of their key's first appearance in the input. |
| Grouping.MembersIsFilter | src/routes/leagues_home_compact.tsx:25-32 | A group holds exactly the input elements with its key, in input order. |
| Uri.Utf8RoundTrip | src/services/football_data/football_data.service.ts:83-85 | Decoding the UTF-8 encoding of any string gives the string back. |
| Uri.EncodeRoundTrip | src/services/football_data/football_data.service.ts:83-85 | `encodeURIComponent` and the `URLSearchParams` encoding are undone by form decoding, for every string. |
| Uri.EncodeAvoidsDelimiters | src/services/football_data/football_data.service.ts:204-211 | An encoded value contains no `&`, `=` or `#`, and the component encoding contains no `+`, so it cannot break the query structure. |
| Uri.QueryRoundTrip | src/services/football_data/football_data.service.ts:204-215 | Parsing a serialized parameter list gives back the same names and values, in order. |
| FootballDataService.OrElse | src/services/football_data/football_data.service.ts:49 | `header \|\| fallback`: a missing or empty header falls back, and any other value is used as it is. |
| FootballDataService.ParseIntJs | src/services/football_data/football_data.service.ts:48 | `parseInt(h, 10)`: NaN exactly when no digit follows the leading white space and the optional sign; otherwise the value of the longest run of digits there, negated after a minus sign. |
| FootballDataService.ParseIntRendered | src/services/football_data/football_data.service.ts:48 | `parseInt` reads every rendered integer back as that integer. |
| FootballDataService.ParseIntIgnoresSuffix | src/services/football_data/football_data.service.ts:48 | Text after the digits does not change what `parseInt` returns. |
| FootballDataService.RateLimitSnapshot | src/services/football_data/football_data.service.ts:43-74 | A snapshot is published exactly when `window` exists and the remaining-requests header is present and non-empty. It carries the parsed count, a total of 10 and the reset header, or "60" without one. |
| FootballDataService.UnknownMessage | src/services/football_data/football_data.service.ts:122-127 | The message for a thrown non-Error value is "Unbekannter Fehler: " followed by the value's text. |
| FootballDataService.RequestUrl | src/services/football_data/football_data.service.ts:83-85 | The URL starts with the base URL. In development the endpoint follows directly; in production it follows as the percent-encoded `?path=` value. |
| FootballDataService.FetchData | src/services/football_data/football_data.service.ts:79-128 | The snapshot is published for a response only in a browser (where `window` exists), and never for a network failure. The result is success only for a 2xx non-HTML response, carrying its JSON. 429 gives the rate-limit error, an HTML body the configuration error, and a rejection is rethrown, wrapped for a non-Error value. |
| FootballDataService.PublishedBeforeChecks | src/services/football_data/football_data.service.ts:90-93 | Two responses that differ only in status and content type publish the same snapshot, because it is taken before any check; in a browser a response with the header always publishes. |
| FootballDataService.TooManyRequestsWins | src/services/football_data/football_data.service.ts:93-100 | A 429 is the rate-limit error whatever its body, with the reset header or "60". |
| FootballDataService.HtmlWinsOverSuccess | src/services/football_data/football_data.service.ts:103-112 | An HTML body is the misconfiguration error even with a 2xx status. |
| FootballDataService.OtherStatusIsHttpError | src/services/football_data/football_data.service.ts:114-119 | Any other non-2xx status is an HTTP error carrying status, status text and body. |
| FootballDataService.ParsePathQuery | src/services/football_data/football_data.service.ts:83-85 | The production query string parses as exactly one `path` parameter whose value is the endpoint. |
| FootballDataService.ProdUrlCarriesEndpoint | api/football-data.ts:32-39 | The path the proxy reads from a production URL is exactly the endpoint the client asked for. |
| FootballDataService.MatchParams | src/services/football_data/football_data.service.ts:204-211 | `dateFrom` and `dateTo` are appended only when truthy, in that order, with their values. |
| FootballDataService.SerializeQueryEmpty | src/services/football_data/football_data.service.ts:213-215 | The serialized parameters are empty exactly when there are none. This is the condition under which `?` is omitted. |
| FootballDataService.MatchesEndpointShape | src/services/football_data/football_data.service.ts:198-218 | The matches endpoint is the matches path alone when no date is given. Otherwise a `?` follows, and the query parses back to the date parameters. |
| FootballDataService.TeamEndpointInjective | src/services/football_data/football_data.service.ts:139-143 | Distinct team ids request distinct paths. |
| FootballDataService.TestConnection | src/services/football_data/football_data.service.ts:223-231 | `testConnection` is true exactly when fetching the competitions list succeeds. |
| FootballDataProxy.CorsHeaders | api/football-data.ts:18-20 | The three CORS headers, and no others. |
| FootballDataProxy.PathParamOf | api/football-data.ts:32-39 | `req.query.path` is missing exactly when no `path` parameter was sent, and a single value is one that was sent. |
| FootballDataProxy.ErrorField | api/football-data.ts:28-94 | Every error body the proxy itself writes has an `error` field; relayed and empty bodies have none. |
| FootballDataProxy.RelayHeaders | api/football-data.ts:63-74 | Relaying adds at most the two rate-limit headers and keeps every CORS header. |
| FootballDataProxy.Forward | api/football-data.ts:77-94 | A failed upstream request becomes a 500 carrying only the CORS headers and the error's message, or "Unknown error" for a thrown value that is not an Error. A response relays its rate-limit headers; a non-2xx status is relayed with the status text and body, a 2xx is 200 with the JSON, or 500 when the body does not parse. |
| FootballDataProxy.Handle | api/football-data.ts:17-95 | OPTIONS gets 200, other verbs except GET get 405, a missing path 400 and a missing key 500. The upstream request is made exactly for a GET with a path and a key, to the football-data.org URL of that path with the key as `X-Auth-Token`. |
| FootballDataProxy.EveryReplyHasCors | api/football-data.ts:18-20 | Every reply carries the CORS headers, whichever branch produced it. |
| FootballDataProxy.StatusRelay | api/football-data.ts:77-87 | The upstream status decides the reply: a non-2xx status is relayed as it is and a 2xx becomes 200. |
| FootballDataProxy.RateLimitHeadersRelayed | api/football-data.ts:63-74 | A rate-limit header reaches the browser exactly when upstream sent it, with the same value. |
| FootballDataProxy.ClientEndpointReachesUpstream | api/football-data.ts:53-60 | A production request from the client reaches football-data.org at the endpoint it asked for. |
| FootballDataProxy.TooManyRequestsSurvivesProxy | api/football-data.ts:77-84 | An upstream 429 reaches the client as a 429 with the reset header, so the client reports it as the rate-limit error. |
| QueryKeys.OptText | src/services/football_data/football_data.hooks.ts:141 | A missing date is the `undefined` key element, and a given date is its text. |
| QueryKeys.UseTeam | src/services/football_data/football_data.hooks.ts:28-33 | The team query is enabled exactly for a non-zero id. |
| QueryKeys.UsePerson | src/services/football_data/football_data.hooks.ts:42-47 | The person query is enabled exactly for a non-zero id. |
| QueryKeys.UseCompetitionTeams | src/services/football_data/football_data.hooks.ts:57-62 | The teams query is enabled exactly for a non-empty code. |
| QueryKeys.UseApiConnection | src/services/football_data/football_data.hooks.ts:72-76 | The connection check is always enabled. |
| QueryKeys.UseAllCompetitions | src/services/football_data/football_data.hooks.ts:104-108 | The competitions query is always enabled. |
| QueryKeys.UseCompetitionStandings | src/services/football_data/football_data.hooks.ts:118-123 | The standings query is enabled exactly for a non-empty code. |
| QueryKeys.UseCompetitionMatches | src/services/football_data/football_data.hooks.ts:134-145 | An explicit `enabled` option wins; without one the query is enabled exactly for a non-empty code. |
| QueryKeys.UseMultipleTeams | src/services/football_data/football_data.hooks.ts:86-95 | Enabled exactly for a non-empty id list. The key's ids are a permutation of the input, sorted by their text as `sort()` does. |
| QueryKeys.MultipleTeamsKeyPermutationInvariant | src/services/football_data/football_data.hooks.ts:88 | The same ids in any order give the same key. |
| QueryKeys.MultipleTeamsKeyInjective | src/services/football_data/football_data.hooks.ts:88 | Equal keys mean the same ids: the joined text can be split back at the commas. |
| QueryKeys.KeysCollideIffSameQuery | src/services/football_data/football_data.hooks.ts:28-145 | Two queries share a cache entry exactly when the hooks receive the same arguments, the order of multi-team ids aside. An absent date and an empty date are different arguments, and so get different entries, although both fetch the same data. |
| QueryCache.CachedData | src/services/football_data/football_data.loader.server.ts:57-58 | `getQueryData(key)` has a value exactly when data is stored under the key. |
| QueryCache.SetQueryData | src/services/football_data/football_data.loader.server.ts:20 | `setQueryData` stores the data under its key and changes no other entry. Setting `undefined` changes nothing. |
| TeamLoader.LoadTeam | src/services/football_data/football_data.loader.server.ts:17-26 | One fetch of the team. On success the team is cached under its key and returned, and nothing else changes; a failure is rethrown with the cache untouched. |
| TeamLoader.LoadTeamWithValidation | src/services/football_data/football_data.loader.server.ts:50-66 | A zero or negative id is rejected without a fetch. A cached team is returned without a fetch. On a miss the team is fetched once: the call succeeds exactly when the fetch does, returns the fetched team and caches it under its key, and otherwise rethrows the fetch error with the cache unchanged. |
| TeamLoader.SecondValidatedLoadHitsCache | src/services/football_data/football_data.loader.server.ts:57-61 | After a successful validated load, loading the same id again makes no fetch and returns the same team. |
| TeamLoader.LoadedTeamIsWhatHookReads | src/services/football_data/football_data.loader.server.ts:20 | The loader writes exactly the key `useTeam` reads. |
| TeamLoader.LoadMultipleTeams | src/services/football_data/football_data.loader.server.ts:31-45 | Fails exactly when some fetch fails, with the first failing id's error and the cache untouched. On success, team i is the i-th id's team and is cached under that id, and no other key changes. |
| TeamLoader.FetchAllTeams | src/services/football_data/football_data.loader.server.ts:33 | Rejects exactly when some id's fetch rejects, with the error of the first such id. Otherwise it returns one team per id, in id order. |
| TeamLoader.CacheTeams | src/services/football_data/football_data.loader.server.ts:36-38 | Every team is cached under its own id's key, and no key outside the ids' keys changes. |
| RateLimitBus.AddListener | src/components/rate_limit_monitor/rate_limit_monitor.utils.ts:16-24 | Adding a listener appends one registration under a fresh identity. |
| RateLimitBus.RemoveListener | src/components/rate_limit_monitor/rate_limit_monitor.utils.ts:26-28 | The cleanup removes exactly the listener's own registration and keeps all others. |
| RateLimitBus.EmitDeliversToAll | src/components/rate_limit_monitor/rate_limit_monitor.utils.ts:10-14 | Emitting calls every registered handler once, in registration order, with the very same snapshot, and calls nothing else. |
| RateLimitBus.AddedListenerMissesEarlierEmit | src/components/rate_limit_monitor/rate_limit_monitor.utils.ts:10-24 | A listener added after an emit was not among the handlers that emit called. |
| RateLimitBus.CleanupRemovesOnlyOwn | src/components/rate_limit_monitor/rate_limit_monitor.utils.ts:26-28 | After a cleanup every other listener still receives updates, and the removed one does not. |
| RateLimitBus.CleanupIdempotent | src/components/rate_limit_monitor/rate_limit_monitor.utils.ts:26-28 | Calling a cleanup twice is the same as calling it once. |
| RateLimitBus.AddTwiceDistinct | src/components/rate_limit_monitor/rate_limit_monitor.utils.ts:19-24 | Registering one handler twice gives two registrations, and the handler is called twice per emit. |
| RateLimitBus.AddThenCleanupRestores | src/components/rate_limit_monitor/rate_limit_monitor.utils.ts:16-28 | Adding a listener and running its cleanup gives back the registrations there were before. |
| RateLimitMonitor.SeverityOf | src/components/rate_limit_monitor/rate_limit_monitor.tsx:24-25 | Low exactly when remaining <= 3, warning exactly when 3 < remaining <= 5, and fine otherwise, including NaN. |
| RateLimitMonitor.LowImpliesWarning | src/components/rate_limit_monitor/rate_limit_monitor.tsx:24-25 | Every low count is also a warning count, so the low branch must be checked first. |
| RateLimitMonitor.View | src/components/rate_limit_monitor/rate_limit_monitor.tsx:19-73 | Nothing is rendered before the first snapshot. Afterwards the panel shows the counts, and the wait hint appears exactly when the count is low. |
| RateLimitMonitor.ViewFollowsSeverity | src/components/rate_limit_monitor/rate_limit_monitor.tsx:28-71 | Border, icon and bar colour all follow the one severity. |
| RateLimitMonitor.NaNIsFine | src/components/rate_limit_monitor/rate_limit_monitor.tsx:24-25 | A snapshot whose count is not a number renders as fine, because every comparison with NaN is false. |
| RateLimitMonitor.Mount | src/components/rate_limit_monitor/rate_limit_monitor.tsx:12-17 | Mounting subscribes the state setter under a fresh identity and starts without a snapshot. |
| RateLimitMonitor.Receive | src/components/rate_limit_monitor/rate_limit_monitor.tsx:15 | The monitor shows the last snapshot delivered to it, and a dispatch that does not reach it changes nothing. |
| RateLimitMonitor.Unmount | src/components/rate_limit_monitor/rate_limit_monitor.tsx:16 | After unmounting, the monitor is no longer subscribed. |
| RateLimitMonitor.MountedMonitorShowsNextSnapshot | src/components/rate_limit_monitor/rate_limit_monitor.tsx:12-17 | After mounting, the next emitted snapshot is the one the monitor shows. |
| RateLimitMonitor.UnmountRemovesExactlyOwnSubscription | src/components/rate_limit_monitor/rate_limit_monitor.tsx:14-17 | Unmounting gives back the bus as it was before mounting, and later emits no longer reach the monitor. |
| CompetitionsMock.GetCompetitionByCode | src/mocks/competitions.mock.ts:22-24 | `find`: nothing exactly when no competition has the code; otherwise the first one that has it. |
| CompetitionsMock.GetCompetitionById | src/mocks/competitions.mock.ts:29-31 | `find`: nothing exactly when no competition has the id; otherwise the first one that has it. |
| CompetitionsMock.GetCompetitionsByType | src/mocks/competitions.mock.ts:36-38 | Exactly the competitions of the type, each no more often than in the data. |
| CompetitionsMock.GetCompetitionsByArea | src/mocks/competitions.mock.ts:43-45 | The competitions of the area and only those, each no more often than in the data; their order is stated by ByAreaKeepsOrder. |
| CompetitionsMock.GetTopEuropeanLeagues | src/mocks/competitions.mock.ts:50-53 | Exactly the competitions coded PL, BL1, PD, SA or FL1. |
| CompetitionsMock.ByAreaKeepsOrder | src/mocks/competitions.mock.ts:43-45 | The area filter keeps input order. |
| CompetitionsMock.ByTypeKeepsOrder | src/mocks/competitions.mock.ts:36-38 | The type filter keeps input order. |
| CompetitionsMock.TopEuropeanKeepsOrder | src/mocks/competitions.mock.ts:50-53 | The top-five filter keeps input order. |
| TeamsMock.GetTeamById | src/mocks/teams.mock.ts:6-8 | `find`: nothing exactly when no team has the id; otherwise the first one that has it. |
| PlayersMock.GetPlayerById | src/mocks/players.mock.ts:6-8 | `find`: nothing exactly when no player has the id; otherwise the first one that has it. |
| PlayersMock.GetPlayersByTeam | src/mocks/players.mock.ts:10-12 | The team's players and only those, each no more often than in the data; their order is stated by ByTeamKeepsOrder. |
| PlayersMock.GetPlayersByPosition | src/mocks/players.mock.ts:14-16 | The players of the position and only those, each no more often than in the data; their order is stated by ByPositionKeepsOrder. |
| PlayersMock.GetPlayersByNationality | src/mocks/players.mock.ts:18-20 | The players of the nationality and only those, each no more often than in the data; their order is stated by ByNationalityKeepsOrder. |
| PlayersMock.ByTeamKeepsOrder | src/mocks/players.mock.ts:10-12 | The team filter keeps dataset order: filtering two concatenated lists concatenates the filtered lists. |
| PlayersMock.ByPositionKeepsOrder | src/mocks/players.mock.ts:14-16 | The position filter keeps dataset order. |
| PlayersMock.ByNationalityKeepsOrder | src/mocks/players.mock.ts:18-20 | The nationality filter keeps dataset order. |
| PlayersMock.LimitOrDefault | src/mocks/players.mock.ts:22 | The default limit is 10, and a given limit is used as it is. |
| PlayersMock.GetTopScorers | src/mocks/players.mock.ts:22-26 | At most `limit` players, ordered by goals with the most first, drawn from the data. |
| PlayersMock.GetTopAssisters | src/mocks/players.mock.ts:28-32 | At most `limit` players, ordered by assists with the most first, drawn from the data. |
| PlayersMock.TopScorersRanked | src/mocks/players.mock.ts:22-26 | No player left out has more goals than a player listed, and players with equal goals keep their data order. |
| PlayersMock.TopAssistersRanked | src/mocks/players.mock.ts:28-32 | No player left out has more assists than a player listed, and players with equal assists keep their data order. |
| PlayersMock.TeamFilterPartitions | src/mocks/players.mock.ts:10-12 | A team's players and everybody else together are exactly all players. |
| PlayerService.SearchPlayers | src/services/player/player.service.ts:53-63 | The players whose lower-cased name contains the lower-cased query and only those, each no more often than in the data; their order is stated by SearchKeepsOrder. |
| PlayerService.SearchKeepsOrder | src/services/player/player.service.ts:53-63 | The matches keep dataset order: searching two concatenated lists concatenates the results. |
| PlayerService.EmptySearchMatchesAll | src/services/player/player.service.ts:60-62 | The empty query finds every player, in order. |
| PlayerService.SearchIgnoresQueryCase | src/services/player/player.service.ts:60-62 | Upper- or lower-casing the query does not change the result. |
| PlayerService.GetTopPlayers | src/services/player/player.service.ts:82-86 | At most `limit` players, ordered by rating with the best first, drawn from the data. |
| PlayerService.TopPlayersRanked | src/services/player/player.service.ts:85 | No player left out has a higher rating than a player listed. |
| PlayerLoader.LoadPlayer | src/services/player/player.loader.server.ts:30-39 | One service call. A found player is cached under its key and nothing else changes. A missing player changes nothing, and a failure is rethrown with the cache untouched. |
| PlayerLoader.LoadPlayerWithValidation | src/services/player/player.loader.server.ts:44-59 | An empty id is rejected without a call. A cached player is returned without a call. On a miss the service is called once: its error is rethrown with the cache unchanged, or the player it returns is returned and cached under its key, changing no other key; an unknown player (`undefined`) leaves the cache as it was. |
| PlayerLoader.MockLoadCachesOnlyKnownPlayers | src/services/player/player.loader.server.ts:44-59 | With the mock service a known player is cached and the second load makes no call, while an unknown id is fetched again every time. |
| PlayerLoader.LoadPlayersAsWrittenNeverLoads | src/services/player/player.loader.server.ts:2-25 | As written, `loadPlayers` calls a function the service does not export, so it always fails and caches nothing. |
| PlayerLoader.LoadPlayers | src/services/player/player.loader.server.ts:16-25 | Corrected to call the exported `getAllPlayers`: it returns all players and caches them under the players key, changing nothing else. |
| PlayersService.SquadOf | src/services/football_data/football_data_players.service.ts:39-44 | A missing squad gives no players. Otherwise each squad member, in order, is tagged with the team's name, crest and id. |
| PlayersService.AllTeams | src/services/football_data/football_data_players.service.ts:29-33 | `Promise.all` of the team fetches fails exactly when one fetch fails, with the first failure. Otherwise it gives the teams in order. |
| PlayersService.Squads | src/services/football_data/football_data_players.service.ts:36-47 | `flatMap` over the teams: every player listed is in some fetched team's squad, and every such player is listed. |
| PlayersService.SquadsConcat | src/services/football_data/football_data_players.service.ts:36-47 | Flattening keeps team order: the squads of two concatenated team lists are the squads of the first followed by those of the second. |
| PlayersService.SquadsSingle | src/services/football_data/football_data_players.service.ts:38-46 | One team contributes its own squad, in squad order, tagged with the team. |
| PlayersService.GetCompetitionPlayers | src/services/football_data/football_data_players.service.ts:14-54 | A failure to list the teams is rethrown, and no teams means no players and no fetch. Otherwise the first five teams are fetched, a failing fetch fails the call with that fetch's error, and the players are the squads of the fetched teams flattened in team order (so SquadsConcat and SquadsSingle give team order, then squad order). |
| PlayersService.CeilHalf | src/services/football_data/football_data_players.service.ts:77 | `Math.ceil(n / 2)` for an integer n. |
| PlayersService.SquadSlice | src/services/football_data/football_data_players.service.ts:76-84 | The first `count` squad members with `slice`'s length, each tagged with the team and the competition code. |
| PlayersService.TeamsPlayers | src/services/football_data/football_data_players.service.ts:73-87 | The team loop fetches the teams in order and stops at the first failure. Every player collected carries the competition code. |
| PlayersService.TeamsPlayersKeepsLoaded | src/services/football_data/football_data_players.service.ts:73-87 | With the teams loaded before the first failing fetch (all of them when none fails), the players collected are exactly those teams' squad slices, in order: what was pushed before the failure is kept. |
| PlayersService.TeamsPlayersFetchesLoaded | src/services/football_data/football_data_players.service.ts:73-87 | The loop fetches the teams loaded before the first failure and then the failing one, and no team after it. |
| PlayersService.TeamsPlayersBound | src/services/football_data/football_data_players.service.ts:73-87 | Each fetched team contributes at most `count` players. |
| PlayersService.LeaguePlayers | src/services/football_data/football_data_players.service.ts:69-90 | At most the first two teams of a competition are visited, in order. A competition whose teams cannot be listed contributes nothing. |
| PlayersService.AllLeagues | src/services/football_data/football_data_players.service.ts:68-91 | Every player collected belongs to one of the requested competitions, and at most two teams per competition are fetched. |
| PlayersService.CollectTeams | src/services/football_data/football_data_players.service.ts:73-87 | The imperative loop with `push` computes the same players and fetches as the recursive definition. |
| PlayersService.GetTopPlayers | src/services/football_data/football_data_players.service.ts:61-98 | The imperative nested loop computes the same players and fetches as the recursive definition, with `ceil(n / 2)` players per team and a default n of 10. |
| PlayersService.AllLeaguesConcat | src/services/football_data/football_data_players.service.ts:68 | The competitions are processed independently and in order: the result for `a + b` is the result for `a` followed by that for `b`. |
| PlayersService.FailingLeagueSkipped | src/services/football_data/football_data_players.service.ts:88-90 | A competition whose teams cannot be listed is skipped without affecting the others. |
| PlayersService.PerLeagueBound | src/services/football_data/football_data_players.service.ts:71-77 | Each competition contributes at most `2 * ceil(n / 2)` players, which is n for an even n and n + 1 for an odd one. |
| PlayersService.GetTeamSquad | src/services/football_data/football_data_players.service.ts:104-129 | The team's summary fields and its whole squad tagged with the team, or no squad; a rejection is rethrown. |
| PlayersService.SingleTeamCompetitionIsSquad | src/services/football_data/football_data_players.service.ts:14-54 | For a competition of one team, its players are exactly that team's squad as `getTeamSquad` returns it. |
| MatchCards.TeamCards | src/routes/league/components/results_tab.tsx:50-62 | No bookings means no cards. Otherwise each count is the number of bookings of that team with that card. |
| MatchCards.CardsBounded | src/routes/league/components/results_tab.tsx:50-62 | The home and away counts together never exceed the bookings. |
| MatchCards.BadgeFor | src/routes/league/components/results_tab.tsx:139-149 | A badge is shown exactly for a positive count, and the number appears exactly when the count exceeds 1. |
| MatchCards.CardsBadges | src/routes/league/components/results_tab.tsx:133-152 | The block is hidden exactly when both counts are zero. |
| MatchCards.NoBookingsNoBadge | src/routes/league/components/results_tab.tsx:51-53 | A match without bookings shows no card block. |
| ResultsTab.SortGroupItems | src/routes/league/components/results_tab.tsx:31-34 | A group's matches are permuted to newest first. |
| ResultsTab.MatchesByMatchdayOrder | src/routes/league/components/results_tab.tsx:28-36 | Matchdays in strictly descending order, and each group newest first. |
| ResultsTab.MatchesByMatchdayContents | src/routes/league/components/results_tab.tsx:16-36 | Each group holds exactly the finished matches of its matchday. Matches with the same date keep their input order. |
| ResultsTab.MatchesByMatchdayPartition | src/routes/league/components/results_tab.tsx:16-24 | Every finished match appears exactly once over all groups, and no other match appears. |
| ResultsTab.MissingMatchdayGroupedUnderZero | src/routes/league/components/results_tab.tsx:18 | A finished match without a matchday is shown under matchday 0. |
| ResultsTab.Render | src/routes/league/components/results_tab.tsx:69-122 | The shimmer shows exactly while loading. The groups are the finished matches by matchday, shown even while loading. The empty message shows exactly when settled with no group. |
| ResultsTab.EmptyMessageIffNothingFinished | src/routes/league/components/results_tab.tsx:118-122 | The empty message shows exactly when settled and no match is finished. |
| FixturesTab.UpcomingMatches | src/routes/league/components/fixtures_tab.tsx:12 | Exactly the matches that are not finished. |
| FixturesTab.FixturesAndResultsPartition | src/routes/league/components/fixtures_tab.tsx:12 | Each match is shown on exactly one of the two tabs. |
| FixturesTab.UpcomingKeepsOrder | src/routes/league/components/fixtures_tab.tsx:12 | The upcoming list keeps input order. |
| FixturesTab.Render | src/routes/league/components/fixtures_tab.tsx:19-57 | The loading line shows exactly while loading, the list is the upcoming matches, and the empty message shows exactly when settled with every match finished. |
| MatchDrawer.ScoreText | src/components/match_drawer/match_drawer.tsx:182-188 | A known score is its canonical decimal text and reads back as its value. An unknown one is "-". |
| MatchDrawer.HalfTime | src/components/match_drawer/match_drawer.tsx:190-196 | The half-time line is shown exactly when both halves are known, with their values. |
| MatchDrawer.StatusLabelOf | src/components/match_drawer/match_drawer.tsx:198-206 | Each of FINISHED, IN_PLAY, PAUSED and TIMED has its own label, and any other status is shown raw. |
| MatchDrawer.SideOf | src/components/match_drawer/match_drawer.tsx:246-321 | An event is on the home side exactly when its team id is the home team's. |
| MatchDrawer.GoalRows | src/components/match_drawer/match_drawer.tsx:246-285 | One row per goal, in order, with the goal's fields and side. |
| MatchDrawer.BookingRows | src/components/match_drawer/match_drawer.tsx:287-321 | One row per booking, in order, with its side; yellow exactly for a yellow card. |
| MatchDrawer.CardBlockOf | src/components/match_drawer/match_drawer.tsx:161-176 | No block exactly when both counts are zero. Otherwise each colour is shown exactly when its count is positive, with the count. |
| MatchDrawer.MatchdayText | src/components/match_drawer/match_drawer.tsx:105 | `matchday \|\| '-'`: "-" for a missing or zero matchday, and otherwise the number's canonical decimal text. |
| MatchDrawer.Render | src/components/match_drawer/match_drawer.tsx:63-340 | Rendered exactly when open with a match. The cards are each team's booking counts and the scores are the full-time score's texts and read back as it. The goal and booking rows come from the match, and the referee is the first one, shown exactly when there is one. The matchday text, half-time score and status label are those of the match, and a crest is shown exactly when its URL is non-empty. |
| TodayMatches.TodayOf | src/components/today_matches_section/today_matches_section.tsx:23 | The date part of an ISO timestamp: the prefix before the first `T`. |
| TodayMatches.TodayOfTimestamp | src/components/today_matches_section/today_matches_section.tsx:23 | For a timestamp date + "T" + time, today is the date. |
| TodayMatches.Toggle | src/components/today_matches_section/today_matches_section.tsx:25-35 | Toggling flips the id's membership and no other. |
| TodayMatches.ToggleTwice | src/components/today_matches_section/today_matches_section.tsx:25-35 | Toggling twice restores the set. |
| TodayMatches.ToggleCommutes | src/components/today_matches_section/today_matches_section.tsx:25-35 | Toggles of two leagues commute. |
| TodayMatches.PanelQuery | src/components/today_matches_section/today_matches_section.tsx:86-91 | A league's matches query is enabled exactly when it is expanded, for today's date range. |
| TodayMatches.StatusTextOf | src/components/today_matches_section/today_matches_section.tsx:225-243 | SCHEDULED and TIMED share a label, each other known status has its own, and an unknown status is shown raw. |
| TodayMatches.StatusTextDetermines | src/components/today_matches_section/today_matches_section.tsx:225-243 | Two statuses with the same raw text are the same raw status. |
| TodayMatches.StatusColorOf | src/components/today_matches_section/today_matches_section.tsx:246-260 | The colour of each status as the switch assigns it. |
| TodayMatches.ColorFollowsText | src/components/today_matches_section/today_matches_section.tsx:225-260 | Statuses with the same label have the same colour. |
| TodayMatches.RowOf | src/components/today_matches_section/today_matches_section.tsx:284-314 | A score is shown exactly when both full-time values are known. Each team is labelled with its short name, or its name when the short name is empty. |
| TodayMatches.Rows | src/components/today_matches_section/today_matches_section.tsx:194-196 | One row per match, in order. |
| TodayMatches.Panel | src/components/today_matches_section/today_matches_section.tsx:93-200 | The body is rendered exactly when expanded. The no-matches line and the table show exactly when settled without error, for an empty and a non-empty list. |
| TodayMatches.SettledPanelShowsOne | src/components/today_matches_section/today_matches_section.tsx:164-171 | A settled expanded panel without error shows exactly one of the no-matches line and the table. |
| TodayMatches.Section | src/components/today_matches_section/today_matches_section.tsx:47-56 | One query per league, enabled exactly for the expanded ones, each for today. |
| TodayMatches.NothingFetchedInitially | src/components/today_matches_section/today_matches_section.tsx:20 | With nothing expanded, no query is enabled. |
| TodayMatches.ToggleAffectsOnlyThatLeague | src/components/today_matches_section/today_matches_section.tsx:25-53 | Toggling a league changes only that league's query. |
| LeagueDrawer.StandingsQuery | src/components/league_drawer/league_drawer.tsx:53 | Enabled exactly for a competition with a non-empty code. |
| LeagueDrawer.FirstTable | src/components/league_drawer/league_drawer.tsx:56-58 | The first standings group's table, or empty without one. |
| LeagueDrawer.BandOf | src/components/league_drawer/league_drawer.tsx:204-212 | The top four rows are blue, the last three below them red, and the rest plain. |
| LeagueDrawer.BandsOfFullTable | src/components/league_drawer/league_drawer.tsx:204-212 | In a table of at least seven rows, exactly four rows are top and three bottom. |
| LeagueDrawer.GoalDifferenceText | src/components/league_drawer/league_drawer.tsx:257-258 | A positive difference is "+" followed by its canonical decimal text. Any other difference is its own text. Both read back as the difference. |
| LeagueDrawer.GoalDifferenceTint | src/components/league_drawer/league_drawer.tsx:249-255 | Green for positive, red for negative and muted for zero. |
| LeagueDrawer.Rows | src/components/league_drawer/league_drawer.tsx:204-258 | One row per table entry, in order: its position, its team's short name (or name when that is empty), games played, games won, drawn and lost, goals for and against, points, band, and the goal difference as signed text with its tint. |
| LeagueDrawer.SeasonText | src/components/league_drawer/league_drawer.tsx:117-118 | The season reads back as the current year and the next, separated by "/". |
| LeagueDrawer.Render | src/components/league_drawer/league_drawer.tsx:79-169 | Rendered exactly when open with a competition. An Error shows its message and another thrown value the fixed text. The table shows exactly when settled without error and non-empty, and then it is the rows of the first standings table. The season reads "year/year+1". |
| CompetitionSections.Displayed | src/components/leagues_section/leagues_section.tsx:21-22 | All items when expanded, otherwise the first four; always a prefix. |
| CompetitionSections.ButtonFor | src/components/leagues_section/leagues_section.tsx:34-47 | The toggle button shows exactly for more than four items, reading "show less" exactly when expanded. |
| CompetitionSections.ShortListFullyShown | src/components/leagues_section/leagues_section.tsx:21-22 | Four or fewer items are all shown, collapsed or not. |
| CompetitionSections.ButtonRevealsAll | src/components/leagues_section/leagues_section.tsx:21-47 | Whenever the button shows, pressing it reveals every item. |
| CompetitionSections.LeaguesSection | src/components/leagues_section/leagues_section.tsx:21-47 | Four league cards when collapsed (fewer leagues: all of them), every league when expanded. Card `i` is league `i`, and it leads wherever the handler sends league `i`, or nowhere without a handler. A button exactly for more than four leagues, reading "show less" exactly when expanded. |
| CompetitionSections.GridAsWrittenOnePage | src/components/leagues_section/leagues_section.tsx:38 | With the home page's handler as written, every grid card leads to the same page, `/league/[object Object]`. |
| CompetitionSections.GridAsWrittenMissesLeague | src/routes/route.tsx:95 | As written, no league whose code is not `[object Object]` reaches its own page from the grid. |
| CompetitionSections.GridClick | src/routes/route.tsx:35-37 | The intended grid click leads where a featured card of the same league leads. |
| CompetitionSections.HomeLeaguesGrid | src/routes/route.tsx:95 | The home page's league grid with the intended handler: card `i` leads to the page of league `i`'s code. |
| CompetitionSections.GridPagesDistinct | src/routes/route.tsx:35-37 | With the intended handler, two grid cards lead to the same page exactly when their leagues have the same code. |
| CompetitionSections.CupsSection | src/components/cups_section/cups_section.tsx:20-46 | Nothing for no cups. Otherwise four cards when collapsed (fewer cups: all of them), every cup when expanded, all cup cards, and none leads anywhere. A button exactly for more than four cups, reading "show less" exactly when expanded. |
| HomePage.AllCompetitions | src/routes/route.tsx:29 | An API response wins even with an empty list. Without one, the bundled leagues are used. |
| HomePage.Leagues | src/routes/route.tsx:30 | Exactly the competitions of type LEAGUE. |
| HomePage.Cups | src/routes/route.tsx:31 | Exactly the competitions of type CUP. |
| HomePage.LeaguesCupsPartition | src/routes/route.tsx:30-31 | Leagues, cups and the rest together are exactly the competitions, and no competition is in both lists. |
| HomePage.SplitKeepsOrder | src/routes/route.tsx:30-31 | Both lists keep input order. |
| HomePage.FallbackHasNoCups | src/routes/route.tsx:29-31 | Without a response every bundled competition shown is a league, and there are no cups. |
| HomePage.CompetitionsCount | src/routes/route.tsx:60 | `data?.count \|\| 13`: a missing or zero count becomes 13. |
| HomePage.LeaguePath | src/routes/route.tsx:35-37 | "/league/" followed by the code. |
| HomePage.LeaguePathInjective | src/routes/route.tsx:35-37 | Distinct codes lead to distinct pages. |
| HomePage.FeaturedClick | src/components/top_leagues_section/top_leagues_section.tsx:35 | A featured card leads to "/league/" followed by its league's code. |
| HomePage.FeaturedPagesDistinct | src/components/top_leagues_section/top_leagues_section.tsx:35 | Two featured cards lead to the same page only for the same code. |
| HomePage.Render | src/routes/route.tsx:39-98 | The loading screen shows exactly while loading. The featured and today sections get the bundled top five whatever the API answered, and the league and cup lists are the LEAGUE and CUP filters, in order, of the API's competitions or of the bundled fallback. |
| LeaguesHomeCompact.AreaGroupsCorrect | src/routes/leagues_home_compact.tsx:25-32 | Every competition is in exactly one group, that of its area name. A group holds its area's competitions in input order, and groups follow the first appearance of their area. |
| LeaguesHomeCompact.AreaGroupsNonEmpty | src/routes/leagues_home_compact.tsx:25-32 | No group is empty. |
| LeaguesHomeCompact.HeaderOf | src/routes/leagues_home_compact.tsx:82-96 | The area name, the first competition's flag exactly when it is non-empty, and the number of competitions. |
| LeaguesHomeCompact.CardOf | src/routes/leagues_home_compact.tsx:139-150 | League styling exactly for type LEAGUE, and a matchday badge exactly for a positive matchday. |
| LeaguesHomeCompact.Render | src/routes/leagues_home_compact.tsx:13-106 | The loading line shows exactly while loading. Otherwise there is one section per area group, with its header and one card per competition. |
| LeaguesHomeCompact.CountsAddUp | src/routes/leagues_home_compact.tsx:78-96 | The group counts add up to the number of competitions. |
| PlayerCard.InitialsAsWritten | src/components/player_card/player_card.tsx:95-101 | With two or more parts whose first and last are non-empty, the initials are the first letters of the first and last parts. With one part they are its first two characters. |
| PlayerCard.InitialsAsWrittenTrailingSpace | src/components/player_card/player_card.tsx:95-101 | The name "Ab " gets ten characters of initials instead of at most two, because the empty last part contributes the text "undefined". |
| PlayerCard.WordThenSpace | src/components/player_card/player_card.tsx:95-101 | Any single word without spaces, followed by one space, gets the word's first letter and the text "undefined" upper-cased: ten characters instead of at most two. |
| PlayerCard.Initials | src/components/player_card/player_card.tsx:95-101 | The corrected initials never exceed two characters. |
| PlayerCard.InitialsAgreeWithoutEdgeSpaces | src/components/player_card/player_card.tsx:95-101 | For a name without a leading or trailing space, the corrected initials are what the card computes. |
| PlayerCard.Age | src/components/player_card/player_card.tsx:104-116 | The age is the number of birthdays passed: the age-th birthday is on or before today and the next one is after it. |
| PlayerCard.AgeOnBirthday | src/components/player_card/player_card.tsx:104-116 | On the k-th birthday the age is k. |
| PlayerCard.AgeMonotone | src/components/player_card/player_card.tsx:104-116 | The age never decreases as time passes. |
| PlayerCard.FlagOf | src/components/player_card/player_card.tsx:122 | A known nationality's flag, and the globe otherwise. |
| PlayerCard.GlobeOnlyForUnknown | src/components/player_card/player_card.tsx:122 | The globe marks exactly the unknown nationalities. |
| PlayerCard.ToneOf | src/components/player_card/player_card.tsx:123-126 | A known position's colour; grey exactly for unknown positions. |
| Settings.InitialSettings | src/contexts/settings_context.tsx:39-61 | The stored settings when in a browser and they parse. Every failure falls back to the defaults. |
| Settings.Merge | src/contexts/settings_context.tsx:68 | `{...prev, ...updates}`: each key given replaces the previous value, and the others stay. |
| Settings.MergeNothing | src/contexts/settings_context.tsx:68 | An empty update changes nothing. |
| Settings.MergeIdempotent | src/contexts/settings_context.tsx:68 | Applying an update twice is applying it once. |
| Settings.MergeThen | src/contexts/settings_context.tsx:68 | Two updates in a row are one combined update. |
| Settings.FullUpdateOverwrites | src/contexts/settings_context.tsx:68 | An update naming every key makes the result independent of the previous settings. |
| Settings.UpdateSettings | src/contexts/settings_context.tsx:66-79 | The merged settings become the state, and they are stored exactly when the write succeeds. |
| Settings.ReloadRestoresUpdate | src/contexts/settings_context.tsx:39-79 | After a successful update, a reload in a browser starts from the updated settings. |
| Settings.OpenSettings | src/contexts/settings_context.tsx:81 | Opens the modal and changes nothing else. |
| Settings.CloseSettings | src/contexts/settings_context.tsx:82 | Closes the modal and changes nothing else. |
| Theme.InitialTheme | src/contexts/theme_context.tsx:25-31 | "system" outside a browser or without a non-empty stored mode; otherwise the stored mode. |
| Theme.EffectiveTheme | src/contexts/theme_context.tsx:44-56 | Never "system": system mode follows the OS preference, and any other mode is itself. |
| Theme.ApplyTheme | src/contexts/theme_context.tsx:44-70 | The `dark` class is set exactly when the effective theme is dark, and the OS listener is registered exactly in system mode. |
| Theme.Mount | src/contexts/theme_context.tsx:25-56 | The mounted provider starts in the initial mode, with a class matching the effective theme. |
| Theme.SetTheme | src/contexts/theme_context.tsx:37-40 | The mode becomes the new mode and the effect re-runs; the stored value becomes the new mode when local storage accepts the write, and stays as it was otherwise. |
| Theme.OsPreferenceChanged | src/contexts/theme_context.tsx:72-83 | An OS change matters only to a registered listener. |
| Theme.ExplicitModeIgnoresOs | src/contexts/theme_context.tsx:72-83 | An explicit mode is unaffected by OS changes, while system mode follows them. |
| Theme.SetThemeSurvivesReload | src/contexts/theme_context.tsx:25-83 | A mode that was set and stored is the mode the next page load starts with; a refused write leaves the next load where it was. |

## Left out

- Network, timers, `console` output and the DOM are not modelled. This covers the ESC key listener, the body scroll lock, the `img` error handlers and the overlay click. Calls into other code are parameters.
- Local-storage JSON is represented by what it decodes to. A failing read and unparseable text are separate cases, and both fall back to the defaults.
- Translated texts (`t(...)`) are represented by a label per key. The German literals are kept where the model compares them.
- Locale date and time formatting (`toLocaleDateString`, `toLocaleTimeString`) is not modelled, and the progress bar percentage is left out because it is a floating-point value.
- Dates: match times are integers (the `getTime()` value). The player card receives the birth date and today's date already split into year, month and day, because `new Date` parsing and time zones are not modelled.
- `toUpperCase` and `toLowerCase` are modelled for ASCII letters only.
- FootballDataService.ParseIntJs: the white space skipped is the ASCII and Latin-1 subset, not every Unicode space `parseInt` skips.
- LeaguesHomeCompact.AreaGroupsCorrect: the groups follow first appearance. `Object.entries` would list integer-like area names first, in numeric order, and that case is not modelled because area names are country names.
- TeamLoader.LoadMultipleTeams: when several fetches fail, `Promise.all` rejects with the one that fails first in time. The model takes the first by position, because timing is not modelled. The same holds for TeamLoader.FetchAllTeams and PlayersService.AllTeams.
- PlayersMock.GetTopScorers: the length is stated for a non-negative limit only. A negative limit follows `slice`'s rule for negative ends, which Seqs.TopBy states.
- PlayersMock.GetTopAssisters: the length is stated for a non-negative limit only, as for GetTopScorers.
- PlayerService.GetTopPlayers: the length is stated for a non-negative limit only, as for GetTopScorers.
- PlayersService.PerLeagueBound: the bound is `2 * ceil(n / 2)`, one more than n for an odd n. This is the source's behaviour, not a weakening.
- Theme.InitialTheme: the stored mode is cast without validation in the source, so the model keeps it as an arbitrary string. A `getItem` that throws (storage disabled) makes the provider fail to render; that failure is not modelled.
- Identity functions `getAllTeams` and `getAllPlayers` return the mock arrays unchanged and have no model of their own.
- Record lookups (`countryFlags[x]`, `positionColors[x]`) ignore keys inherited from `Object.prototype`, such as "constructor".
- TanStack Query's fetching, retries, staleness and garbage collection are not modelled. The cache is a map from keys to data, read and written by the loaders and hooks.
- The UTF-8 decoder rejects no invalid input beyond what the round trip needs. Invalid byte sequences are not modelled.
- The body of a response whose `text()` fails is not modelled. The body is a given string.
- Stored settings JSON that parses to something other than a settings object (such as `null`) is not representable: a parse yields a settings value or fails.
- Strings are sequences of Unicode scalar values, so a lone UTF-16 surrogate, on which `encodeURIComponent` throws, cannot be written.

## Findings

| source | as written | input that shows it | evidently intended | confidence | as-written member | corrected member |
|---|---|---|---|---|---|---|
| src/services/player/player.loader.server.ts:2-25 | `loadPlayers` imports and calls `getPlayers`, which `player.service.ts` does not export | any call of `loadPlayers` | load all players with `getAllPlayers` and cache them under `['players']` | not executed | PlayerLoader.LoadPlayersAsWrittenNeverLoads | PlayerLoader.LoadPlayers |
| src/components/leagues_section/leagues_section.tsx:38 | the grid calls `onLeagueClick(league)` with the competition object, and the home page's handler (`route.tsx:95`) builds `/league/${leagueCode}` from it | any league card of the home page's grid, say one for the code "PL" | lead to `/league/PL`, as the featured cards do with `league.code` | not executed | CompetitionSections.GridAsWrittenOnePage | CompetitionSections.HomeLeaguesGrid |
| src/components/player_card/player_card.tsx:95-101 | a leading or trailing space makes the first or last part empty, and `part[0]` renders as "undefined" | the name "Ab " gives "Aundefined" upper-cased, ten letters | the first letters of the first and last words, at most two characters | not executed | PlayerCard.WordThenSpace | PlayerCard.Initials |

=== FILE: basics.dfy ===
/** Shared vocabulary: optional values, results, bytes, JavaScript numbers
    and the string operations the application's TypeScript relies on
    (split, join, substring search, ASCII case mapping, decimal rendering,
    `Array.prototype.slice(0, end)`). */
module Basics {

  datatype Option<+T> = None | Some(value: T)

  datatype Result<+T, +E> = Ok(value: T) | Err(error: E)

  type Byte = b: int | 0 <= b < 256

  /** A JavaScript number as far as the model needs one: an integer, or NaN
      (what `parseInt` yields when no digits are found). */
  datatype JsNumber = Num(n: int) | NaN

  /** `x <= k` on a JavaScript number: every comparison with NaN is false. */
  predicate AtMost(x: JsNumber, k: int) {
    x.Num? && x.n <= k
  }

  // ---------------------------------------------------------------------
  // Characters

  predicate IsDigit(c: char) { '0' <= c <= '9' }

  predicate IsAsciiUpper(c: char) { 'A' <= c <= 'Z' }

  predicate IsAsciiLower(c: char) { 'a' <= c <= 'z' }

  function UpperChar(c: char): char {
    if IsAsciiLower(c) then (c as int - 32) as char else c
  }

  function LowerChar(c: char): char {
    if IsAsciiUpper(c) then (c as int + 32) as char else c
  }

  /** `String.prototype.toUpperCase`, restricted to the ASCII letters. */
  function ToUpper(s: string): (r: string)
    ensures |r| == |s|
    ensures forall i :: 0 <= i < |s| ==> r[i] == UpperChar(s[i])
  {
    if |s| == 0 then "" else [UpperChar(s[0])] + ToUpper(s[1..])
  }

  /** `String.prototype.toLowerCase`, restricted to the ASCII letters. */
  function ToLower(s: string): (r: string)
    ensures |r| == |s|
    ensures forall i :: 0 <= i < |s| ==> r[i] == LowerChar(s[i])
  {
    if |s| == 0 then "" else [LowerChar(s[0])] + ToLower(s[1..])
  }

  // ---------------------------------------------------------------------
  // Substring search

  predicate IsPrefix<T(==)>(p: seq<T>, s: seq<T>) {
    |p| <= |s| && s[..|p|] == p
  }

  /** `s.includes(sub)`. */
  predicate Contains<T(==)>(s: seq<T>, sub: seq<T>)
    decreases |s|
  {
    IsPrefix(sub, s) || (|s| > 0 && Contains(s[1..], sub))
  }

  lemma {:induction false} EmptyIsContained<T>(s: seq<T>)
    ensures Contains(s, [])
  {
    assert IsPrefix([], s);
  }

  // ---------------------------------------------------------------------
  // split / join on a one-character separator

  /** `s.split(sep)`: always at least one part; empty parts are kept. */
  function Split(s: string, sep: char): (parts: seq<string>)
    ensures |parts| >= 1
    ensures forall i :: 0 <= i < |parts| ==> sep !in parts[i]
  {
    if |s| == 0 then [""]
    else if s[0] == sep then [""] + Split(s[1..], sep)
    else
      var rest := Split(s[1..], sep);
      [[s[0]] + rest[0]] + rest[1..]
  }

  /** `parts.join(sep)`. */
  function Join(parts: seq<string>, sep: string): string {
    if |parts| == 0 then ""
    else if |parts| == 1 then parts[0]
    else parts[0] + sep + Join(parts[1..], sep)
  }

  /** Joining what was split gives the original string back. */
  lemma {:induction false} JoinSplit(s: string, sep: char)
    ensures Join(Split(s, sep), [sep]) == s
  {
    if |s| == 0 {
    } else if s[0] == sep {
      JoinSplit(s[1..], sep);
      assert [sep] + s[1..] == s;
    } else {
      JoinSplit(s[1..], sep);
      var rest := Split(s[1..], sep);
      if |rest| == 1 {
        assert [s[0]] + rest[0] == s;
      } else {
        assert rest == [rest[0]] + rest[1..];
        assert ([s[0]] + rest[0]) + [sep] + Join(rest[1..], [sep])
            == [s[0]] + (rest[0] + [sep] + Join(rest[1..], [sep]));
        assert [s[0]] + s[1..] == s;
      }
    }
  }

  lemma {:induction false} SplitHeadFree(a: string, b: string, sep: char)
    requires sep !in a
    ensures Split(a + [sep] + b, sep) == [a] + Split(b, sep)
    decreases |a|
  {
    if |a| == 0 {
      assert a + [sep] + b == [sep] + b;
      assert ([sep] + b)[1..] == b;
    } else {
      var t := a + [sep] + b;
      assert t[0] == a[0];
      assert t[1..] == a[1..] + [sep] + b;
      SplitHeadFree(a[1..], b, sep);
      assert [a[0]] + a[1..] == a;
    }
  }

  lemma {:induction false} SplitNoSep(a: string, sep: char)
    requires sep !in a
    ensures Split(a, sep) == [a]
    decreases |a|
  {
    if |a| > 0 {
      SplitNoSep(a[1..], sep);
      assert [a[0]] + a[1..] == a;
    }
  }

  /** Splitting what was joined gives the parts back, provided no part
      contains the separator. */
  lemma {:induction false} SplitJoin(parts: seq<string>, sep: char)
    requires |parts| >= 1
    requires forall i :: 0 <= i < |parts| ==> sep !in parts[i]
    ensures Split(Join(parts, [sep]), sep) == parts
    decreases |parts|
  {
    if |parts| == 1 {
      SplitNoSep(parts[0], sep);
    } else {
      SplitJoin(parts[1..], sep);
      SplitHeadFree(parts[0], Join(parts[1..], [sep]), sep);
      assert [parts[0]] + parts[1..] == parts;
    }
  }

  // ---------------------------------------------------------------------
  // Decimal rendering of integers (`String(n)`, template interpolation)

  function DigitChar(d: int): (c: char)
    requires 0 <= d < 10
    ensures IsDigit(c)
  {
    ('0' as int + d) as char
  }

  function DigitValue(c: char): (d: nat)
    requires IsDigit(c)
    ensures d < 10
  {
    c as int - '0' as int
  }

  predicate AllDigits(s: string) {
    forall i :: 0 <= i < |s| ==> IsDigit(s[i])
  }

  function NatToString(n: nat): (s: string)
    ensures |s| >= 1 && AllDigits(s)
    decreases n
  {
    if n < 10 then [DigitChar(n)] else NatToString(n / 10) + [DigitChar(n % 10)]
  }

  function IntToString(i: int): (s: string)
    ensures |s| >= 1
    ensures i >= 0 ==> AllDigits(s)
    ensures i < 0 ==> s[0] == '-' && AllDigits(s[1..])
  {
    if i < 0 then "-" + NatToString(-i) else NatToString(i)
  }

  /** Value of a run of decimal digits (most significant first). */
  function DigitsValue(s: string): nat
    requires AllDigits(s)
    decreases |s|
  {
    if |s| == 0 then 0 else DigitsValue(s[..|s| - 1]) * 10 + DigitValue(s[|s| - 1])
  }

  lemma {:induction false} NatToStringValue(n: nat)
    ensures DigitsValue(NatToString(n)) == n
    decreases n
  {
    var s := NatToString(n);
    if n >= 10 {
      NatToStringValue(n / 10);
      assert s[..|s| - 1] == NatToString(n / 10);
    }
  }

  /** Strict decimal reading: an optional '-' followed by one or more digits. */
  function ReadInt(s: string): Option<int> {
    if |s| >= 2 && s[0] == '-' && AllDigits(s[1..]) then Some(-(DigitsValue(s[1..]) as int))
    else if |s| >= 1 && AllDigits(s) then Some(DigitsValue(s))
    else None
  }

  /** Reading back a rendered integer gives the integer. */
  lemma IntToStringRoundTrip(i: int)
    ensures ReadInt(IntToString(i)) == Some(i)
  {
    if i < 0 {
      NatToStringValue(-i);
      assert IntToString(i)[1..] == NatToString(-i);
    } else {
      NatToStringValue(i);
    }
  }

  /** Distinct integers render to distinct strings. */
  lemma IntToStringInjective(a: int, b: int)
    requires IntToString(a) == IntToString(b)
    ensures a == b
  {
    IntToStringRoundTrip(a);
    IntToStringRoundTrip(b);
  }

  // ---------------------------------------------------------------------
  // Array.prototype.slice(0, end)

  /** Number of elements `slice(0, end)` keeps from a sequence of length
      `len`: a negative `end` counts from the back. */
  function SliceEnd(len: nat, end: int): (k: nat)
    ensures k <= len
    ensures end >= 0 ==> k == (if end < len then end else len)
    ensures end < 0 ==> k == (if len + end < 0 then 0 else len + end)
  {
    if end < 0 then (if len + end < 0 then 0 else len + end)
    else if end < len then end
    else len
  }

  function Slice0<T>(s: seq<T>, end: int): (r: seq<T>)
    ensures IsPrefixOf(r, s)
    ensures |r| == SliceEnd(|s|, end)
  {
    s[..SliceEnd(|s|, end)]
  }

  ghost predicate IsPrefixOf<T>(p: seq<T>, s: seq<T>) {
    |p| <= |s| && forall i :: 0 <= i < |p| ==> p[i] == s[i]
  }
}

=== FILE: competition_sections.dfy ===
/** The league and cup grids of the home page (`leagues_section.tsx`,
    `cups_section.tsx`): the first four competitions, and a show-more
    button that reveals the rest when there are more than four. */
module CompetitionSections {
  import opened Basics
  import opened Domain
  import HomePage

  const InitialCount: nat := 4

  /** `showAll ? items : items.slice(0, 4)`. */
  function Displayed<T>(showAll: bool, items: seq<T>): (shown: seq<T>)
    ensures IsPrefix(shown, items)
    ensures showAll ==> shown == items
    ensures !showAll ==> |shown| == (if |items| < InitialCount then |items| else InitialCount)
  {
    if showAll then items else Slice0(items, InitialCount as int)
  }

  /** The show-more button: absent for four items or fewer; otherwise
      labelled "show less" exactly while everything is shown. */
  datatype Button = ShowMore | ShowLess

  function ButtonFor(showAll: bool, count: nat): (b: Option<Button>)
    ensures b.Some? <==> count > InitialCount
    ensures b.Some? ==> (b.value == ShowLess <==> showAll)
  {
    if count > InitialCount then Some(if showAll then ShowLess else ShowMore) else None
  }

  /** Without a button, the hidden state shows every item anyway: nothing
      is ever out of reach. */
  lemma ShortListFullyShown<T>(showAll: bool, items: seq<T>)
    requires ButtonFor(showAll, |items|).None?
    ensures Displayed(showAll, items) == items
  {
  }

  /** When the button is there, the collapsed grid hides some items and
      clicking the button (`setShowAll(!showAll)`) reveals all of them. */
  lemma ButtonRevealsAll<T>(items: seq<T>)
    requires ButtonFor(false, |items|).Some?
    ensures ButtonFor(false, |items|) == Some(ShowMore)
    ensures |Displayed(false, items)| == InitialCount < |items|
    ensures Displayed(true, items) == items
  {
  }

  /** One competition card; the cup flag is set on every card of the cup
      grid, and `target` is the page a click on it leads to: none when the
      section received no click handler. */
  datatype Card = Card(competitionId: int, isCup: bool, target: Option<string>)

  datatype Section = Section(cards: seq<Card>, button: Option<Button>)

  /** A click handler as the page a competition's card leads to; the grid
      calls it with the card's competition. */
  type ClickHandler = Competition -> string

  function Target(onClick: Option<ClickHandler>, c: Competition): Option<string>
  {
    if onClick.Some? then Some(onClick.value(c)) else None
  }

  function Cards(competitions: seq<Competition>, isCup: bool, onClick: Option<ClickHandler>): (cards: seq<Card>)
    ensures |cards| == |competitions|
    ensures forall i :: 0 <= i < |cards| ==>
      cards[i] == Card(competitions[i].id, isCup, Target(onClick, competitions[i]))
  {
    if |competitions| == 0 then []
    else [Card(competitions[0].id, isCup, Target(onClick, competitions[0]))] + Cards(competitions[1..], isCup, onClick)
  }

  /** `LeaguesSection`: always rendered, even for no leagues; card `i` is
      league `i`, never a cup card, and leads where the handler sends
      league `i` (nowhere without a handler). */
  function LeaguesSection(leagues: seq<Competition>, showAll: bool, onLeagueClick: Option<ClickHandler>): (s: Section)
    ensures |s.cards| == if showAll || |leagues| <= InitialCount then |leagues| else InitialCount
    ensures forall i :: 0 <= i < |s.cards| ==>
      s.cards[i].competitionId == leagues[i].id && !s.cards[i].isCup
    ensures forall i :: 0 <= i < |s.cards| ==>
      (s.cards[i].target.Some? <==> onLeagueClick.Some?) &&
      (onLeagueClick.Some? ==> s.cards[i].target.value == onLeagueClick.value(leagues[i]))
    ensures s.button.Some? <==> |leagues| > InitialCount
    ensures s.button.Some? ==> (s.button.value == ShowLess <==> showAll)
  {
    var shown := Displayed(showAll, leagues);
    assert forall i :: 0 <= i < |shown| ==> shown[i] == leagues[i];
    Section(Cards(Displayed(showAll, leagues), false, onLeagueClick), ButtonFor(showAll, |leagues|))
  }

  /** What a template literal makes of a plain object. */
  const ObjectText: string := "[object Object]"

  /** The home page's grid handler as written: `handleLeagueClick` expects
      a code, but the grid passes it the whole competition, which
      `/league/${leagueCode}` turns into the text of a plain object. */
  function GridClickAsWritten(league: Competition): (path: string)
  {
    HomePage.LeaguePath(ObjectText)
  }

  /** As written, every card of the home page's grid leads to the same
      page, `/league/[object Object]`, whichever league it shows. */
  lemma GridAsWrittenOnePage(leagues: seq<Competition>, showAll: bool, i: int, j: int)
    requires 0 <= i < |LeaguesSection(leagues, showAll, Some(GridClickAsWritten)).cards|
    requires 0 <= j < |LeaguesSection(leagues, showAll, Some(GridClickAsWritten)).cards|
    ensures LeaguesSection(leagues, showAll, Some(GridClickAsWritten)).cards[i].target
         == LeaguesSection(leagues, showAll, Some(GridClickAsWritten)).cards[j].target
         == Some(HomePage.LeaguePath(ObjectText))
  {
  }

  /** As written, no league whose code is a real code reaches its own page
      from the grid. */
  lemma GridAsWrittenMissesLeague(league: Competition)
    requires league.code != ObjectText
    ensures GridClickAsWritten(league) != HomePage.LeaguePath(league.code)
  {
  }

  /** The evidently intended grid handler: the card's code, as the
      featured cards pass it. */
  function GridClick(league: Competition): (path: string)
    ensures path == HomePage.FeaturedClick(league)
  {
    HomePage.LeaguePath(league.code)
  }

  /** The home page's league grid, with the intended handler: card `i`
      leads to the page of league `i`'s code. */
  function HomeLeaguesGrid(leagues: seq<Competition>, showAll: bool): (s: Section)
    ensures |s.cards| == if showAll || |leagues| <= InitialCount then |leagues| else InitialCount
    ensures forall i :: 0 <= i < |s.cards| ==>
      s.cards[i].competitionId == leagues[i].id && s.cards[i].target == Some(HomePage.LeaguePath(leagues[i].code))
  {
    LeaguesSection(leagues, showAll, Some(GridClick))
  }

  /** With the intended handler, two grid cards lead to the same page
      exactly when their leagues have the same code. */
  lemma GridPagesDistinct(leagues: seq<Competition>, showAll: bool, i: int, j: int)
    requires 0 <= i < |HomeLeaguesGrid(leagues, showAll).cards|
    requires 0 <= j < |HomeLeaguesGrid(leagues, showAll).cards|
    ensures HomeLeaguesGrid(leagues, showAll).cards[i].target == HomeLeaguesGrid(leagues, showAll).cards[j].target
        <==> leagues[i].code == leagues[j].code
  {
  }

  /** `CupsSection`: nothing at all for no cups; card `i` is cup `i`,
      every card is a cup card and none leads anywhere. */
  function CupsSection(cups: seq<Competition>, showAll: bool): (s: Option<Section>)
    ensures s.None? <==> |cups| == 0
    ensures s.Some? ==> (s.value.button.Some? <==> |cups| > InitialCount)
    ensures s.Some? && s.value.button.Some? ==> (s.value.button.value == ShowLess <==> showAll)
    ensures s.Some? ==> |s.value.cards| == if showAll || |cups| <= InitialCount then |cups| else InitialCount
    ensures s.Some? ==> forall i :: 0 <= i < |s.value.cards| ==>
      s.value.cards[i].competitionId == cups[i].id && s.value.cards[i].isCup && s.value.cards[i].target.None?
  {
    var shown := Displayed(showAll, cups);
    assert forall i :: 0 <= i < |shown| ==> shown[i] == cups[i];
    if |cups| == 0 then None
    else Some(Section(Cards(Displayed(showAll, cups), true, None), ButtonFor(showAll, |cups|)))
  }
}

=== FILE: competitions_mock.dfy ===
/** The competition lookups of `competitions.mock.ts`, over the bundled
    dataset given as an arbitrary sequence. */
module CompetitionsMock {
  import opened Basics
  import opened Seqs
  import opened Domain

  function HasCode(code: string): Competition -> bool { (c: Competition) => c.code == code }

  function HasId(id: int): Competition -> bool { (c: Competition) => c.id == id }

  function HasKind(kind: string): Competition -> bool { (c: Competition) => c.kind == kind }

  function InArea(areaCode: string): Competition -> bool { (c: Competition) => c.area.code == areaCode }

  /** `getCompetitionByCode(code)`: the first competition with that code. */
  function GetCompetitionByCode(cs: seq<Competition>, code: string): (r: Option<Competition>)
    ensures r.None? <==> forall i :: 0 <= i < |cs| ==> cs[i].code != code
    ensures r.Some? ==> r.value.code == code
    ensures r.Some? ==> exists i :: 0 <= i < |cs| && cs[i] == r.value && forall j :: 0 <= j < i ==> cs[j].code != code
  {
    var r := Find(HasCode(code), cs);
    assert r.Some? ==> HasCode(code)(r.value);
    r
  }

  /** `getCompetitionById(id)`: the first competition with that id. */
  function GetCompetitionById(cs: seq<Competition>, id: int): (r: Option<Competition>)
    ensures r.None? <==> forall i :: 0 <= i < |cs| ==> cs[i].id != id
    ensures r.Some? ==> r.value.id == id
    ensures r.Some? ==> exists i :: 0 <= i < |cs| && cs[i] == r.value && forall j :: 0 <= j < i ==> cs[j].id != id
  {
    var r := Find(HasId(id), cs);
    assert r.Some? ==> HasId(id)(r.value);
    r
  }

  /** `getCompetitionsByType(type)`: exactly the competitions of that type,
      in dataset order. */
  function GetCompetitionsByType(cs: seq<Competition>, kind: string): (r: seq<Competition>)
    ensures forall c :: c in r <==> c in cs && c.kind == kind
    ensures multiset(r) <= multiset(cs)
  {
    Filter(HasKind(kind), cs)
  }

  /** `getCompetitionsByArea(areaCode)`: filters on the area's code. */
  function GetCompetitionsByArea(cs: seq<Competition>, areaCode: string): (r: seq<Competition>)
    ensures forall c :: c in r <==> c in cs && c.area.code == areaCode
    ensures multiset(r) <= multiset(cs)
  {
    Filter(InArea(areaCode), cs)
  }

  /** The codes of `getTopEuropeanLeagues`. */
  const TopCodes: seq<string> := ["PL", "BL1", "PD", "SA", "FL1"]

  function IsTopEuropean(c: Competition): bool { c.code in TopCodes }

  /** `getTopEuropeanLeagues()`: the competitions whose code is one of the
      five, in dataset order (not in the order of the code list). */
  function GetTopEuropeanLeagues(cs: seq<Competition>): (r: seq<Competition>)
    ensures forall c :: c in r <==> c in cs && c.code in {"PL", "BL1", "PD", "SA", "FL1"}
    ensures multiset(r) <= multiset(cs)
  {
    assert forall c: Competition :: IsTopEuropean(c) <==> c.code in {"PL", "BL1", "PD", "SA", "FL1"};
    Filter(IsTopEuropean, cs)
  }

  /** The area list follows the dataset's order. */
  lemma ByAreaKeepsOrder(a: seq<Competition>, b: seq<Competition>, areaCode: string)
    ensures GetCompetitionsByArea(a + b, areaCode) == GetCompetitionsByArea(a, areaCode) + GetCompetitionsByArea(b, areaCode)
  {
    FilterConcat(InArea(areaCode), a, b);
  }

  /** Filtering by type keeps the dataset's order: the result for a dataset
      is the results for its parts, concatenated. */
  lemma ByTypeKeepsOrder(a: seq<Competition>, b: seq<Competition>, kind: string)
    ensures GetCompetitionsByType(a + b, kind) == GetCompetitionsByType(a, kind) + GetCompetitionsByType(b, kind)
  {
    FilterConcat(HasKind(kind), a, b);
  }

  /** The top-league list follows the dataset's order, whatever order the
      five codes are listed in. */
  lemma TopEuropeanKeepsOrder(a: seq<Competition>, b: seq<Competition>)
    ensures GetTopEuropeanLeagues(a + b) == GetTopEuropeanLeagues(a) + GetTopEuropeanLeagues(b)
  {
    FilterConcat(IsTopEuropean, a, b);
  }
}

=== FILE: domain.dfy ===
/** The records the application reads from the football-data.org API and
    from its bundled mock datasets, restricted to the fields the modelled
    code looks at. A JSON `null` or an absent optional field is `None`;
    timestamps are already-parsed integers (milliseconds since the epoch). */
module Domain {
  import opened Basics

  // ---------------------------------------------------------------------
  // Competitions

  datatype Area = Area(id: int, name: string, code: string, flag: Option<string>)

  /** `FootballDataCompetition`; `kind` is the API's `type` field ("LEAGUE",
      "CUP" or anything else) and `currentMatchday` comes from
      `currentSeason`. */
  datatype Competition = Competition(
    id: int,
    area: Area,
    name: string,
    code: string,
    kind: string,
    emblem: string,
    currentMatchday: int)

  /** `FootballDataCompetitionsResponse`. */
  datatype CompetitionsResponse = CompetitionsResponse(count: int, competitions: seq<Competition>)

  // ---------------------------------------------------------------------
  // Teams and people

  /** `FootballDataPerson`. */
  datatype Person = Person(id: int, name: string, position: string, dateOfBirth: string, nationality: string)

  /** `FootballDataTeamResponse`: the team summary and its squad, which the
      upstream may leave out. */
  datatype Team = Team(
    id: int,
    name: string,
    shortName: string,
    crest: string,
    founded: int,
    venue: string,
    squad: Option<seq<Person>>)

  /** `FootballDataPlayerWithTeam`: a person and the team it plays for. */
  datatype PlayerWithTeam = PlayerWithTeam(
    person: Person,
    teamName: string,
    teamCrest: string,
    teamId: int,
    competitionCode: Option<string>)

  // ---------------------------------------------------------------------
  // Matches

  /** The side of a match as the API describes it; the id may be null. */
  datatype TeamRef = TeamRef(id: Option<int>, name: string, shortName: string, crest: string)

  /** A score pair whose halves may each be null. */
  datatype Pair = Pair(home: Option<int>, away: Option<int>)

  datatype Score = Score(fullTime: Pair, halfTime: Pair)

  /** A card shown to a player; `card` is "YELLOW_CARD", "RED_CARD" or
      another API value. */
  datatype Booking = Booking(minute: int, teamId: Option<int>, card: string, playerName: string)

  datatype Goal = Goal(minute: int, teamId: Option<int>, scorer: string, assist: Option<string>)

  datatype Match = Match(
    id: int,
    utcDate: int,
    status: string,
    matchday: Option<int>,
    homeTeam: TeamRef,
    awayTeam: TeamRef,
    score: Score,
    bookings: Option<seq<Booking>>,
    goals: Option<seq<Goal>>,
    referees: Option<seq<string>>)

  // ---------------------------------------------------------------------
  // Standings

  datatype StandingEntry = StandingEntry(
    position: int,
    teamId: int,
    teamName: string,
    teamShortName: string,
    playedGames: int,
    won: int,
    draw: int,
    lost: int,
    points: int,
    goalsFor: int,
    goalsAgainst: int,
    goalDifference: int)

  datatype StandingsGroup = StandingsGroup(stage: string, kind: string, table: Option<seq<StandingEntry>>)

  // ---------------------------------------------------------------------
  // The bundled mock dataset

  datatype Position = Goalkeeper | Defender | Midfielder | Forward

  /** `Player` of the mock dataset (ids are strings there). */
  datatype MockPlayer = MockPlayer(
    id: string,
    name: string,
    position: Position,
    nationality: string,
    teamId: string,
    goals: int,
    assists: int,
    rating: int)

  datatype MockTeam = MockTeam(id: string, name: string)
}

=== FILE: fixtures_tab.dfy ===
/** The fixtures tab of a league page (`fixtures_tab.tsx`): every match
    that has not finished, in input order. */
module FixturesTab {
  import opened Seqs
  import opened Grouping
  import opened Domain
  import ResultsTab

  predicate IsUpcoming(m: Match) { m.status != ResultsTab.Finished }

  /** `matches.filter(m => m.status !== 'FINISHED')`. */
  function UpcomingMatches(matches: seq<Match>): (r: seq<Match>)
    ensures forall m :: m in r <==> m in matches && m.status != ResultsTab.Finished
    ensures multiset(r) <= multiset(matches)
  {
    Filter(IsUpcoming, matches)
  }

  /** The fixtures tab and the results tab split any list of matches: each
      match appears in exactly one of them, as often as in the input. */
  lemma FixturesAndResultsPartition(matches: seq<Match>)
    ensures multiset(UpcomingMatches(matches)) + multiset(Flatten(ResultsTab.MatchesByMatchday(matches))) == multiset(matches)
    ensures forall m :: !(m in UpcomingMatches(matches) && m in multiset(Flatten(ResultsTab.MatchesByMatchday(matches))))
  {
    FilterComplement(ResultsTab.IsFinished, IsUpcoming, matches);
    ResultsTab.MatchesByMatchdayPartition(matches);
  }

  /** Upcoming matches keep their input order: the upcoming matches of a
      concatenation are those of each part, one after the other. */
  lemma UpcomingKeepsOrder(a: seq<Match>, b: seq<Match>)
    ensures UpcomingMatches(a + b) == UpcomingMatches(a) + UpcomingMatches(b)
  {
    FilterConcat(IsUpcoming, a, b);
  }

  datatype View = View(loadingText: bool, list: seq<Match>, emptyMessage: bool)

  /** What the tab renders: the loading text whenever loading, the list, and
      the empty message once loading is over and nothing is upcoming. */
  function Render(isLoading: bool, matches: seq<Match>): (v: View)
    ensures v.loadingText == isLoading
    ensures v.list == UpcomingMatches(matches)
    ensures v.emptyMessage <==> !isLoading && forall m :: m in matches ==> m.status == ResultsTab.Finished
  {
    var upcoming := UpcomingMatches(matches);
    assert |upcoming| > 0 <==> exists m :: m in matches && m.status != ResultsTab.Finished by {
      if |upcoming| > 0 {
        assert upcoming[0] in upcoming;
      }
    }
    View(isLoading, upcoming, !isLoading && |upcoming| == 0)
  }
}

=== FILE: football_data_proxy.dfy ===
/** The serverless proxy of `api/football-data.ts`: it answers CORS
    preflights, admits only GET requests that carry one non-empty `path`
    query parameter, refuses to call upstream without an API key, forwards
    the request to football-data.org with the key in `X-Auth-Token`, and
    relays the upstream status, rate-limit headers and body.

    The upstream `fetch` is an input: `upstream` is what it would produce,
    consulted only when the handler actually makes the request. */
module FootballDataProxy {
  import opened Basics
  import opened Seqs
  import opened Uri
  import opened FootballDataService

  const UpstreamBase: string := "https://api.football-data.org/v4"

  const AllowOrigin: string := "access-control-allow-origin"
  const AllowMethods: string := "access-control-allow-methods"
  const AllowHeaders: string := "access-control-allow-headers"

  /** The three CORS headers every response carries. */
  function CorsHeaders(): (h: map<string, string>)
    ensures h.Keys == {AllowOrigin, AllowMethods, AllowHeaders}
  {
    map[AllowOrigin := "*", AllowMethods := "GET, OPTIONS", AllowHeaders := "Content-Type"]
  }

  /** `req.query.path`: absent, one value, or repeated (an array). */
  datatype PathParam = Missing | Single(value: string) | Repeated(values: seq<string>)

  function IsPath(p: Param): bool { p.name == "path" }

  function ValueOf(p: Param): string { p.value }

  /** The `path` entry of a parsed query string. */
  function PathParamOf(query: seq<Param>): (pp: PathParam)
    ensures pp.Missing? <==> forall i :: 0 <= i < |query| ==> query[i].name != "path"
    ensures pp.Single? ==> exists i :: 0 <= i < |query| && query[i] == Param("path", pp.value)
  {
    var f := Filter(IsPath, query);
    var vs := Map(ValueOf, f);
    if |vs| == 0 then
      assert forall i :: 0 <= i < |query| ==> query[i] in query;
      Missing
    else
      assert f[0] in f && f[0] in query && f[0].name == "path";
      if |vs| == 1 then Single(vs[0])
    else Repeated(vs)
  }

  /** The JSON bodies the handler answers with. */
  datatype Body<V> =
    | NoBody
    | MethodNotAllowed
    | MissingPath
    | KeyNotConfigured
    | UpstreamError(statusText: string, details: string)
    | Relayed(data: V)
    | ProxyFailed(message: string)

  /** The `error` field of an error body. */
  function ErrorField<V>(b: Body<V>): (e: Option<string>)
    ensures e.None? <==> b.NoBody? || b.Relayed?
  {
    match b
    case NoBody => None
    case MethodNotAllowed => Some("Method not allowed")
    case MissingPath => Some("Missing path parameter")
    case KeyNotConfigured => Some("API Key not configured")
    case UpstreamError(statusText, _) => Some("Football Data API Error: " + statusText)
    case Relayed(_) => None
    case ProxyFailed(_) => Some("Proxy request failed")
  }

  datatype Reply<V> = Reply(status: int, headers: map<string, string>, body: Body<V>)

  /** The request made upstream: its URL and `X-Auth-Token`. */
  datatype UpstreamRequest = UpstreamRequest(url: string, authToken: string)

  datatype Handled<V> = Handled(request: Option<UpstreamRequest>, reply: Reply<V>)

  /** A path the handler accepts: one value, and not the empty string. */
  predicate ValidPath(path: PathParam) { path.Single? && path.value != "" }

  predicate HasKey(apiKey: Option<string>) { apiKey.Some? && apiKey.value != "" }

  /** The rate-limit headers relayed from an upstream response: each one
      only when it is present and non-empty. */
  function RelayHeaders<V>(cors: map<string, string>, r: Response<V>): (h: map<string, string>)
    ensures forall k :: k in cors && k != RemainingHeader && k != ResetHeader ==> k in h && h[k] == cors[k]
    ensures forall k :: k in h ==> k in cors || k == RemainingHeader || k == ResetHeader
  {
    var a := OrElse(Header(r, RemainingHeader), "");
    var b := OrElse(Header(r, ResetHeader), "");
    var h1 := if a != "" then cors[RemainingHeader := a] else cors;
    if b != "" then h1[ResetHeader := b] else h1
  }

  /** What the handler does after the upstream request was made: a
      non-2xx status is relayed with the status text and body, a 2xx with
      valid JSON becomes 200 with the data, and a failed request or an
      unparseable body is 500. Only a response relays rate-limit headers. */
  function Forward<V>(cors: map<string, string>, upstream: Outcome<V>): (reply: Reply<V>)
    ensures upstream.Rejected? ==> reply.headers == cors
    ensures upstream.Rejected? ==> reply.status == 500 && reply.body.ProxyFailed?
    ensures upstream.Rejected? && upstream.thrown.ErrorValue? ==> reply.body == ProxyFailed(upstream.thrown.message)
    ensures upstream.Rejected? && upstream.thrown.OtherValue? ==> reply.body == ProxyFailed("Unknown error")
    ensures upstream.Responded? ==> reply.headers == RelayHeaders(cors, upstream.response)
    ensures upstream.Responded? && !IsOk(upstream.response.status) ==>
      reply.status == upstream.response.status
      && reply.body == UpstreamError(upstream.response.statusText, upstream.response.body)
    ensures upstream.Responded? && IsOk(upstream.response.status) ==>
      match upstream.response.json
      case Ok(data) => reply.status == 200 && reply.body == Relayed(data)
      case Err(m) => reply.status == 500 && reply.body == ProxyFailed(m)
  {
    match upstream
    case Rejected(t) =>
      Reply(500, cors, ProxyFailed(if t.ErrorValue? then t.message else "Unknown error"))
    case Responded(r) =>
      var h := RelayHeaders(cors, r);
      if !IsOk(r.status) then Reply(r.status, h, UpstreamError(r.statusText, r.body))
      else match r.json
        case Ok(data) => Reply(200, h, Relayed(data))
        case Err(m) => Reply(500, h, ProxyFailed(m))
  }

  /** `handler(req, res)`. */
  function Handle<V>(verb: string, path: PathParam, apiKey: Option<string>, upstream: Outcome<V>): (h: Handled<V>)
    ensures h.request.Some? <==> verb == "GET" && ValidPath(path) && HasKey(apiKey)
    ensures h.request.Some? ==> h.request.value == UpstreamRequest(UpstreamBase + path.value, apiKey.value)
    ensures verb == "OPTIONS" ==> h.reply == Reply(200, CorsHeaders(), NoBody)
    ensures verb != "OPTIONS" && verb != "GET" ==> h.reply == Reply(405, CorsHeaders(), MethodNotAllowed)
    ensures verb == "GET" && !ValidPath(path) ==> h.reply == Reply(400, CorsHeaders(), MissingPath)
    ensures verb == "GET" && ValidPath(path) && !HasKey(apiKey) ==> h.reply == Reply(500, CorsHeaders(), KeyNotConfigured)
  {
    var cors := CorsHeaders();
    if verb == "OPTIONS" then Handled(None, Reply(200, cors, NoBody))
    else if verb != "GET" then Handled(None, Reply(405, cors, MethodNotAllowed))
    else if !ValidPath(path) then Handled(None, Reply(400, cors, MissingPath))
    else if !HasKey(apiKey) then Handled(None, Reply(500, cors, KeyNotConfigured))
    else Handled(Some(UpstreamRequest(UpstreamBase + path.value, apiKey.value)), Forward(cors, upstream))
  }

  /** Every response, whichever branch produced it, carries the three CORS
      headers with their fixed values. */
  lemma EveryReplyHasCors<V>(verb: string, path: PathParam, apiKey: Option<string>, upstream: Outcome<V>)
    ensures var hs := Handle(verb, path, apiKey, upstream).reply.headers;
      && AllowOrigin in hs && hs[AllowOrigin] == "*"
      && AllowMethods in hs && hs[AllowMethods] == "GET, OPTIONS"
      && AllowHeaders in hs && hs[AllowHeaders] == "Content-Type"
  {
    assert AllowOrigin != RemainingHeader && AllowOrigin != ResetHeader;
    assert AllowMethods != RemainingHeader && AllowMethods != ResetHeader;
    assert AllowHeaders != RemainingHeader && AllowHeaders != ResetHeader;
  }

  /** The upstream status decides the reply: a non-2xx status is relayed
      with the status text and body, a 2xx with valid JSON is 200 with the
      data, and a failed request or unparseable body is 500. */
  lemma StatusRelay<V>(path: string, key: string, upstream: Outcome<V>)
    requires path != "" && key != ""
    ensures var reply := Handle("GET", Single(path), Some(key), upstream).reply;
      && (upstream.Responded? && !IsOk(upstream.response.status) ==>
            reply.status == upstream.response.status
            && reply.body == UpstreamError(upstream.response.statusText, upstream.response.body))
      && (upstream.Responded? && IsOk(upstream.response.status) && upstream.response.json.Ok? ==>
            reply.status == 200 && reply.body == Relayed(upstream.response.json.value))
      && (upstream.Rejected? ==> reply.status == 500 && reply.body.ProxyFailed?)
  {
  }

  /** A rate-limit header reaches the browser exactly when upstream sent it
      non-empty, with its value unchanged. */
  lemma RateLimitHeadersRelayed<V>(path: string, key: string, r: Response<V>, name: string)
    requires path != "" && key != ""
    requires name == RemainingHeader || name == ResetHeader
    ensures var hs := Handle("GET", Single(path), Some(key), Responded(r)).reply.headers;
      && (name in hs <==> Header(r, name).Some? && Header(r, name).value != "")
      && (name in hs ==> hs[name] == Header(r, name).value)
  {
    assert name !in CorsHeaders();
  }

  // ---------------------------------------------------------------------
  // The client and the proxy together

  /** A production request from the client reaches football-data.org with
      exactly the endpoint the client asked for: the percent-encoded `path`
      parameter decodes back to the endpoint, and the proxy appends it to
      the upstream base verbatim. */
  lemma ClientEndpointReachesUpstream<V>(endpoint: string, key: string, upstream: Outcome<V>)
    requires endpoint != "" && key != ""
    ensures var url := RequestUrl(false, endpoint);
      var query := ParseQuery(url[|BaseUrl| + 1..]);
      && query.Some?
      && PathParamOf(query.value) == Single(endpoint)
      && Handle("GET", PathParamOf(query.value), Some(key), upstream).request
         == Some(UpstreamRequest(UpstreamBase + endpoint, key))
  {
    ProdUrlCarriesEndpoint(endpoint);
    var query := [Param("path", endpoint)];
    assert Filter(IsPath, query) == query by {
      FilterAll(IsPath, query);
    }
  }

  /** An upstream 429 is relayed as a 429 with its reset header, so the
      client still reports the rate-limit error with the same wait hint. */
  lemma TooManyRequestsSurvivesProxy<V>(path: string, key: string, r: Response<V>, dev: bool, hasWindow: bool, endpoint: string)
    requires path != "" && key != ""
    requires r.status == 429
    ensures var reply := Handle("GET", Single(path), Some(key), Responded(r)).reply;
      var seen: Response<V> := Response(reply.status, "", reply.headers, "", Err(""));
      && reply.status == 429
      && FetchData(dev, hasWindow, endpoint, Responded(seen)).result == Err(RateLimited(OrElse(Header(r, ResetHeader), "60")))
  {
    var reply := Handle("GET", Single(path), Some(key), Responded(r)).reply;
    var seen: Response<V> := Response(reply.status, "", reply.headers, "", Err(""));
    RateLimitHeadersRelayed(path, key, r, ResetHeader);
    assert OrElse(Header(seen, ResetHeader), "60") == OrElse(Header(r, ResetHeader), "60");
  }
}

=== FILE: football_data_service.dfy ===
/** The football-data.org client of `football_data.service.ts`: request URL
    construction, the rate-limit snapshot taken from every response, the
    order in which a response is classified, and the endpoint builders.

    `fetch` is an input: the model receives what the network returned for
    the computed URL (a response, or a rejection) and computes what
    `fetchData` resolves or rejects with, together with the snapshot it
    publishes on the rate-limit bus. */
module FootballDataService {
  import opened Basics
  import opened Seqs
  import opened Uri
  import opened RateLimitBus

  /** The client's base URL, the same in both build modes. */
  const BaseUrl: string := "/api/football-data"

  // ---------------------------------------------------------------------
  // Responses

  /** A fetched response. Header names are stored lower-case, as `Headers`
      compares them case-insensitively; `json` is what `response.json()`
      resolves to, or the message of the error it rejects with. */
  datatype Response<V> = Response(
    status: int,
    statusText: string,
    headers: map<string, string>,
    body: string,
    json: Result<V, string>)

  /** What the network did with the request. A rejection carries the thrown
      value: an `Error` with its message, or any other value with its
      string conversion. */
  datatype Thrown = ErrorValue(message: string) | OtherValue(text: string)

  datatype Outcome<V> = Responded(response: Response<V>) | Rejected(thrown: Thrown)

  /** `headers.get(name)`: `null` when absent. */
  function Header<V>(r: Response<V>, name: string): Option<string> {
    if name in r.headers then Some(r.headers[name]) else None
  }

  /** `h || fallback` on a header value: `null` and "" are falsy. */
  function OrElse(h: Option<string>, fallback: string): (s: string)
    ensures h.Some? && h.value != "" ==> s == h.value
    ensures h.None? || h.value == "" ==> s == fallback
  {
    if h.Some? && h.value != "" then h.value else fallback
  }

  const RemainingHeader: string := "x-requests-available-minute"
  const ResetHeader: string := "x-requestcounter-reset"
  const ContentTypeHeader: string := "content-type"

  // ---------------------------------------------------------------------
  // parseInt(s, 10)

  /** The white space `parseInt` skips, restricted to the ASCII and Latin-1
      members of that class plus the byte order mark. */
  predicate IsJsSpace(c: char) {
    c == ' ' || c == '\t' || c == '\n' || c == '\r' || c == '\U{000B}' || c == '\U{000C}' || c == '\U{00A0}' || c == '\U{FEFF}'
  }

  /** Number of leading characters satisfying `IsJsSpace`. */
  function LeadingSpace(s: string): (k: nat)
    ensures k <= |s|
    ensures forall i :: 0 <= i < k ==> IsJsSpace(s[i])
    ensures k < |s| ==> !IsJsSpace(s[k])
  {
    if |s| == 0 || !IsJsSpace(s[0]) then 0 else 1 + LeadingSpace(s[1..])
  }

  /** Number of leading decimal digits. */
  function LeadingDigits(s: string): (k: nat)
    ensures k <= |s|
    ensures AllDigits(s[..k])
    ensures k < |s| ==> !IsDigit(s[k])
  {
    if |s| == 0 || !IsDigit(s[0]) then 0
    else
      var k := LeadingDigits(s[1..]);
      assert s[..k + 1] == [s[0]] + s[1..][..k];
      k + 1
  }

  /** `parseInt(s, 10)`: skip leading white space, read an optional sign and
      the longest run of digits after it; no digits gives NaN. */
  function ParseIntJs(s: string): (r: JsNumber)
    ensures r.NaN? <==> (var t := s[LeadingSpace(s)..];
      var u := if |t| > 0 && (t[0] == '-' || t[0] == '+') then t[1..] else t;
      |u| == 0 || !IsDigit(u[0]))
    ensures r.Num? ==> (var t := s[LeadingSpace(s)..];
      var u := if |t| > 0 && (t[0] == '-' || t[0] == '+') then t[1..] else t;
      var magnitude := DigitsValue(u[..LeadingDigits(u)]) as int;
      r.n == if t[0] == '-' then -magnitude else magnitude)
  {
    var t := s[LeadingSpace(s)..];
    var negative := |t| > 0 && t[0] == '-';
    var u := if |t| > 0 && (t[0] == '-' || t[0] == '+') then t[1..] else t;
    var k := LeadingDigits(u);
    if k == 0 then NaN
    else
      var v := DigitsValue(u[..k]) as int;
      Num(if negative then -v else v)
  }

  /** `parseInt` reads back every rendered integer. */
  lemma ParseIntRendered(i: int)
    ensures ParseIntJs(IntToString(i)) == Num(i)
  {
    var s := IntToString(i);
    assert LeadingSpace(s) == 0;
    assert s[0..] == s;
    IntToStringRoundTrip(i);
    if i < 0 {
      var u := s[1..];
      assert LeadingDigits(u) == |u|;
      assert u[..|u|] == u;
    } else {
      assert LeadingDigits(s) == |s|;
      assert s[..|s|] == s;
    }
  }

  /** Trailing text after the digits is ignored. */
  lemma ParseIntIgnoresSuffix(n: nat, suffix: string)
    requires |suffix| == 0 || !IsDigit(suffix[0])
    ensures ParseIntJs(NatToString(n) + suffix) == Num(n)
  {
    var d := NatToString(n);
    var s := d + suffix;
    assert s[0] == d[0];
    assert LeadingSpace(s) == 0;
    assert s[0..] == s;
    LeadingDigitsThenOther(d, suffix);
    assert s[..|d|] == d;
    NatToStringValue(n);
  }

  /** The digits of a run followed by a non-digit are exactly the run. */
  lemma {:induction false} LeadingDigitsThenOther(d: string, suffix: string)
    requires AllDigits(d)
    requires |suffix| == 0 || !IsDigit(suffix[0])
    ensures LeadingDigits(d + suffix) == |d|
    decreases |d|
  {
    if |d| == 0 {
      assert d + suffix == suffix;
    } else {
      assert IsDigit(d[0]);
      assert AllDigits(d[1..]) by {
        assert forall i :: 0 <= i < |d[1..]| ==> d[1..][i] == d[i + 1];
      }
      LeadingDigitsThenOther(d[1..], suffix);
      assert (d + suffix)[1..] == d[1..] + suffix;
    }
  }

  // ---------------------------------------------------------------------
  // logRateLimit

  /** The snapshot `logRateLimit` publishes for a response, if any: only
      in a browser (where `window` exists) and only when the
      remaining-requests header is present and non-empty. On the server
      the snapshot is only logged. */
  function RateLimitSnapshot<V>(hasWindow: bool, r: Response<V>): (info: Option<RateLimitInfo>)
    ensures info.Some? <==> hasWindow && Header(r, RemainingHeader).Some? && Header(r, RemainingHeader).value != ""
    ensures info.Some? ==> info.value.remaining == ParseIntJs(Header(r, RemainingHeader).value)
    ensures info.Some? ==> info.value.total == 10
    ensures info.Some? ==> info.value.resetIn == OrElse(Header(r, ResetHeader), "60")
  {
    match Header(r, RemainingHeader)
    case None => None
    case Some(v) =>
      if v == "" || !hasWindow then None else Some(RateLimitInfo(ParseIntJs(v), 10, OrElse(Header(r, ResetHeader), "60")))
  }

  // ---------------------------------------------------------------------
  // fetchData

  /** What `fetchData` rejects with. */
  datatype FetchError =
    | RateLimited(waitSeconds: string)
    | HtmlInsteadOfJson(status: int)
    | HttpError(status: int, statusText: string, body: string)
    | InvalidJson(message: string)
    | Rethrown(message: string)
    | Unknown(text: string)

  /** The message of the `Error` built for a thrown non-`Error` value. */
  function UnknownMessage(text: string): (m: string)
    ensures IsPrefix("Unbekannter Fehler: ", m) && m[20..] == text
  {
    "Unbekannter Fehler: " + text
  }

  /** The URL requested for an endpoint: appended to the base in
      development, percent-encoded into `?path=` otherwise. */
  function RequestUrl(dev: bool, endpoint: string): (url: string)
    ensures IsPrefix(BaseUrl, url)
    ensures !dev ==> url[|BaseUrl|..] == "?path=" + Encode(Component, endpoint)
    ensures dev ==> url[|BaseUrl|..] == endpoint
  {
    if dev then BaseUrl + endpoint else BaseUrl + "?path=" + Encode(Component, endpoint)
  }

  predicate IsHtml<V>(r: Response<V>) {
    var ct := Header(r, ContentTypeHeader);
    ct.Some? && Contains(ct.value, "text/html")
  }

  /** `response.ok`. */
  predicate IsOk(status: int) { 200 <= status <= 299 }

  datatype Fetched<V> = Fetched(url: string, published: Option<RateLimitInfo>, result: Result<V, FetchError>)

  /** `fetchData(endpoint)`: publish the snapshot, then check 429, then an
      HTML content type, then any other non-2xx status, then parse. */
  function FetchData<V>(dev: bool, hasWindow: bool, endpoint: string, outcome: Outcome<V>): (f: Fetched<V>)
    ensures f.url == RequestUrl(dev, endpoint)
    ensures outcome.Rejected? || !hasWindow ==> f.published.None?
    ensures outcome.Rejected? && outcome.thrown.ErrorValue? ==> f.result == Err(Rethrown(outcome.thrown.message))
    ensures outcome.Rejected? && outcome.thrown.OtherValue? ==> f.result == Err(Unknown(outcome.thrown.text))
    ensures outcome.Responded? ==> f.published == RateLimitSnapshot(hasWindow, outcome.response)
    ensures f.result.Ok? <==>
      outcome.Responded? && outcome.response.status != 429 && !IsHtml(outcome.response) && IsOk(outcome.response.status) && outcome.response.json.Ok?
    ensures f.result.Ok? ==> f.result.value == outcome.response.json.value
    ensures (f.result.Err? && f.result.error.RateLimited?) <==> outcome.Responded? && outcome.response.status == 429
    ensures (f.result.Err? && f.result.error.HtmlInsteadOfJson?) <==>
      outcome.Responded? && outcome.response.status != 429 && IsHtml(outcome.response)
  {
    var url := RequestUrl(dev, endpoint);
    match outcome
    case Rejected(ErrorValue(m)) => Fetched(url, None, Err(Rethrown(m)))
    case Rejected(OtherValue(t)) => Fetched(url, None, Err(Unknown(t)))
    case Responded(r) =>
      var published := RateLimitSnapshot(hasWindow, r);
      var result :=
        if r.status == 429 then Err(RateLimited(OrElse(Header(r, ResetHeader), "60")))
        else if IsHtml(r) then Err(HtmlInsteadOfJson(r.status))
        else if !IsOk(r.status) then Err(HttpError(r.status, r.statusText, r.body))
        else match r.json
          case Ok(v) => Ok(v)
          case Err(m) => Err(InvalidJson(m));
      Fetched(url, published, result)
  }

  /** The snapshot is taken before any check: in a browser a response that
      carries the remaining-requests header publishes even when it is a 429
      or an HTML page, and what it publishes does not depend on status,
      content type or body. */
  lemma PublishedBeforeChecks<V>(dev: bool, hasWindow: bool, endpoint: string, r: Response<V>, r': Response<V>)
    requires r.headers[ContentTypeHeader := ""] == r'.headers[ContentTypeHeader := ""]
    requires Header(r, RemainingHeader).Some? && Header(r, RemainingHeader).value != ""
    ensures hasWindow ==> FetchData(dev, hasWindow, endpoint, Responded(r)).published.Some?
    ensures FetchData(dev, hasWindow, endpoint, Responded(r)).published == FetchData(dev, hasWindow, endpoint, Responded(r')).published
  {
    assert RemainingHeader != ContentTypeHeader && ResetHeader != ContentTypeHeader;
    assert RemainingHeader in r.headers <==> RemainingHeader in r.headers[ContentTypeHeader := ""];
    assert ResetHeader in r.headers <==> ResetHeader in r.headers[ContentTypeHeader := ""];
    assert Header(r, RemainingHeader) == Header(r', RemainingHeader) by {
      assert RemainingHeader in r.headers ==> r.headers[RemainingHeader] == r.headers[ContentTypeHeader := ""][RemainingHeader];
      assert RemainingHeader in r'.headers ==> r'.headers[RemainingHeader] == r'.headers[ContentTypeHeader := ""][RemainingHeader];
    }
    assert Header(r, ResetHeader) == Header(r', ResetHeader) by {
      assert ResetHeader in r.headers ==> r.headers[ResetHeader] == r.headers[ContentTypeHeader := ""][ResetHeader];
      assert ResetHeader in r'.headers ==> r'.headers[ResetHeader] == r'.headers[ContentTypeHeader := ""][ResetHeader];
    }
  }

  /** A 429 is the rate-limit error whatever its content type, with the
      reset header (or "60") as the wait hint. */
  lemma TooManyRequestsWins<V>(dev: bool, hasWindow: bool, endpoint: string, r: Response<V>)
    requires r.status == 429
    ensures FetchData(dev, hasWindow, endpoint, Responded(r)).result == Err(RateLimited(OrElse(Header(r, ResetHeader), "60")))
  {
  }

  /** An HTML body is the misconfiguration error even with a 2xx status. */
  lemma HtmlWinsOverSuccess<V>(dev: bool, hasWindow: bool, endpoint: string, r: Response<V>)
    requires r.status != 429 && IsHtml(r)
    ensures FetchData(dev, hasWindow, endpoint, Responded(r)).result == Err(HtmlInsteadOfJson(r.status))
  {
  }

  /** Any other non-2xx status carries status, status text and body. */
  lemma OtherStatusIsHttpError<V>(dev: bool, hasWindow: bool, endpoint: string, r: Response<V>)
    requires r.status != 429 && !IsHtml(r) && !IsOk(r.status)
    ensures FetchData(dev, hasWindow, endpoint, Responded(r)).result == Err(HttpError(r.status, r.statusText, r.body))
  {
  }

  // ---------------------------------------------------------------------
  // The path parameter round trip

  /** The parameter name `path` is left alone by the form decoder. */
  lemma FormDecodePath()
    ensures FormDecode("path") == Some("path")
  {
    var name := "path";
    assert forall i :: 0 <= i < |name| ==> Unreserved(Form, name[i] as int);
    FormDecodeUnreserved(name);
  }

  /** `path=` followed by a percent-encoded value parses as that one
      parameter. */
  lemma ParsePathQuery(endpoint: string)
    ensures ParseQuery("path=" + Encode(Component, endpoint)) == Some([Param("path", endpoint)])
  {
    var e := Encode(Component, endpoint);
    var q := "path=" + e;
    EncodeAvoidsDelimiters(Component, endpoint);
    assert q == "path" + ['='] + e;
    assert '&' !in q by {
      assert forall i :: 5 <= i < |q| ==> q[i] == e[i - 5];
    }
    IndexOfCharAfter("path", '=', e);
    assert q[..4] == "path" && q[5..] == e;
    FormDecodePath();
    EncodeRoundTrip(Component, endpoint);
    assert ParseParam(q) == Some(Param("path", endpoint));
    SingleParam(q, Param("path", endpoint));
  }

  /** A query without `&` is a single piece. */
  lemma SingleParam(q: string, p: Param)
    requires q != "" && '&' !in q
    requires ParseParam(q) == Some(p)
    ensures ParseQuery(q) == Some([p])
  {
    SplitNoSep(q, '&');
    assert [q][1..] == [];
    assert ParseParams([q][1..]) == Some([]);
    assert [p] + [] == [p];
  }

  /** The query string of a production URL (after `?`) parses as exactly one
      parameter `path` whose value is the endpoint. */
  lemma ProdUrlCarriesEndpoint(endpoint: string)
    ensures var url := RequestUrl(false, endpoint);
      && url[..|BaseUrl| + 1] == BaseUrl + "?"
      && ParseQuery(url[|BaseUrl| + 1..]) == Some([Param("path", endpoint)])
  {
    var url := RequestUrl(false, endpoint);
    var q := "path=" + Encode(Component, endpoint);
    assert url == BaseUrl + "?" + q;
    assert url[|BaseUrl| + 1..] == q;
    ParsePathQuery(endpoint);
  }

  // ---------------------------------------------------------------------
  // Endpoints

  function TeamEndpoint(teamId: int): string { "/teams/" + IntToString(teamId) }

  function PersonEndpoint(personId: int): string { "/persons/" + IntToString(personId) }

  function CompetitionTeamsEndpoint(code: string): string { "/competitions/" + code + "/teams" }

  const CompetitionsEndpoint: string := "/competitions"

  function StandingsEndpoint(code: string): string { "/competitions/" + code + "/standings" }

  /** An optional argument is used only when truthy (present and non-empty). */
  predicate Truthy(s: Option<string>) { s.Some? && s.value != "" }

  /** The parameters `getCompetitionMatches` appends, in order. */
  function MatchParams(dateFrom: Option<string>, dateTo: Option<string>): (ps: seq<Param>)
    ensures |ps| == (if Truthy(dateFrom) then 1 else 0) + (if Truthy(dateTo) then 1 else 0)
    ensures Truthy(dateFrom) ==> ps[0] == Param("dateFrom", dateFrom.value)
    ensures Truthy(dateTo) ==> ps[|ps| - 1] == Param("dateTo", dateTo.value)
  {
    (if Truthy(dateFrom) then [Param("dateFrom", dateFrom.value)] else [])
    + (if Truthy(dateTo) then [Param("dateTo", dateTo.value)] else [])
  }

  /** `getCompetitionMatches`: the matches path, then `?` and the
      serialized parameters when there are any. */
  function MatchesEndpoint(code: string, dateFrom: Option<string>, dateTo: Option<string>): string {
    var path := "/competitions/" + code + "/matches";
    var q := SerializeQuery(MatchParams(dateFrom, dateTo));
    if q != "" then path + "?" + q else path
  }

  /** A serialized parameter list is empty exactly when there are no
      parameters, since every pair is written with its `=`. */
  lemma SerializeQueryEmpty(ps: seq<Param>)
    ensures SerializeQuery(ps) == "" <==> |ps| == 0
  {
    if |ps| > 0 {
      var parts := Map(SerializeParam, ps);
      assert parts[0] == SerializeParam(ps[0]);
      assert |SerializeParam(ps[0])| > 0 by {
        assert SerializeParam(ps[0]) == Encode(Form, ps[0].name) + "=" + Encode(Form, ps[0].value);
      }
      assert |parts| == 1 || Join(parts, "&") == parts[0] + "&" + Join(parts[1..], "&");
    }
  }

  /** The matches endpoint is the matches path, followed by `?` only when a
      date was given; its query then parses back to `dateFrom` before
      `dateTo`, each present exactly when truthy. */
  lemma MatchesEndpointShape(code: string, dateFrom: Option<string>, dateTo: Option<string>)
    ensures var ep := MatchesEndpoint(code, dateFrom, dateTo);
      var path := "/competitions/" + code + "/matches";
      && IsPrefix(path, ep)
      && (!Truthy(dateFrom) && !Truthy(dateTo) ==> ep == path)
      && (Truthy(dateFrom) || Truthy(dateTo) ==>
            |ep| > |path| && ep[|path|] == '?' && ParseQuery(ep[|path| + 1..]) == Some(MatchParams(dateFrom, dateTo)))
  {
    var ps := MatchParams(dateFrom, dateTo);
    var path := "/competitions/" + code + "/matches";
    var q := SerializeQuery(ps);
    var ep := MatchesEndpoint(code, dateFrom, dateTo);
    SerializeQueryEmpty(ps);
    if q != "" {
      QueryAfterPath(path, q);
      QueryRoundTrip(ps);
    }
  }

  lemma QueryAfterPath(path: string, q: string)
    ensures var ep := path + "?" + q;
      IsPrefix(path, ep) && |ep| > |path| && ep[|path|] == '?' && ep[|path| + 1..] == q
  {
    var ep := path + "?" + q;
    assert ep[..|path|] == path;
    assert ep[|path| + 1..] == q;
  }

  /** Distinct team ids request distinct paths. */
  lemma TeamEndpointInjective(a: int, b: int)
    requires TeamEndpoint(a) == TeamEndpoint(b)
    ensures a == b
  {
    assert IntToString(a) == TeamEndpoint(a)[7..];
    assert IntToString(b) == TeamEndpoint(b)[7..];
    IntToStringInjective(a, b);
  }

  // ---------------------------------------------------------------------
  // testConnection

  /** `testConnection()`: true iff fetching the competitions list resolves. */
  function TestConnection<V>(dev: bool, hasWindow: bool, outcome: Outcome<V>): (ok: bool)
    ensures ok <==>
      outcome.Responded? && IsOk(outcome.response.status) && outcome.response.status != 429 && !IsHtml(outcome.response) && outcome.response.json.Ok?
  {
    FetchData(dev, hasWindow, CompetitionsEndpoint, outcome).result.Ok?
  }
}

=== FILE: grouping.dfy ===
/** Grouping a sequence by a key, the way the views do it with
    `reduce((acc, x) => { (acc[key(x)] ||= []).push(x); return acc }, {})`
    followed by `Object.entries`: one group per distinct key, in order of
    first appearance, each holding its elements in input order. */
module Grouping {
  import opened Basics
  import opened Seqs

  datatype Group<K, T> = Group(key: K, items: seq<T>)

  /** The test "has key `k`" as a function value, so that `Filter` can use it. */
  function Having<T, K(==)>(key: T -> K, k: K): T -> bool {
    x => key(x) == k
  }

  ghost predicate KeysDistinct<K, T>(gs: seq<Group<K, T>>) {
    forall i, j :: 0 <= i < j < |gs| ==> gs[i].key != gs[j].key
  }

  /** Position of the group with key `k`, if there is one. */
  function IndexOfKey<K(==), T>(gs: seq<Group<K, T>>, k: K): (r: Option<nat>)
    ensures r.Some? ==> r.value < |gs| && gs[r.value].key == k
    ensures r.None? ==> forall i :: 0 <= i < |gs| ==> gs[i].key != k
  {
    if |gs| == 0 then None
    else if gs[0].key == k then Some(0)
    else match IndexOfKey(gs[1..], k)
      case None => None
      case Some(i) => Some(i + 1)
  }

  /** All elements of all groups, group after group. */
  function Flatten<K, T>(gs: seq<Group<K, T>>): seq<T> {
    if |gs| == 0 then [] else gs[0].items + Flatten(gs[1..])
  }

  /** The elements of `s` whose key is `k`, in input order. */
  ghost function Members<T, K>(key: T -> K, k: K, s: seq<T>): seq<T>
    decreases |s|
  {
    if |s| == 0 then []
    else Members(key, k, s[..|s| - 1]) + (if key(s[|s| - 1]) == k then [s[|s| - 1]] else [])
  }

  lemma MembersSnoc<T, K>(key: T -> K, k: K, s: seq<T>, x: T)
    ensures Members(key, k, s + [x]) == Members(key, k, s) + (if key(x) == k then [x] else [])
  {
    assert (s + [x])[..|s|] == s;
  }

  /** `Members` is what `s.filter(x => key(x) === k)` computes. */
  lemma {:induction false} MembersIsFilter<T, K>(key: T -> K, k: K, s: seq<T>)
    ensures Members(key, k, s) == Filter(Having(key, k), s)
    decreases |s|
  {
    if |s| > 0 {
      var init, last := s[..|s| - 1], s[|s| - 1];
      var p := Having(key, k);
      var h: seq<T> := if key(last) == k then [last] else [];
      assert Members(key, k, s) == Members(key, k, init) + h;
      MembersIsFilter(key, k, init);
      assert init + [last] == s;
      FilterSnoc(p, init, last);
      assert Filter(p, s) == Filter(p, init) + h;
    }
  }

  /** Reference description of a grouping of `s`: distinct keys, every
      element's key has a group, and each group holds exactly the elements
      of its key, in input order (so it is never empty). */
  ghost predicate Grouped<T, K>(key: T -> K, s: seq<T>, gs: seq<Group<K, T>>) {
    && KeysDistinct(gs)
    && (forall i :: 0 <= i < |gs| ==> gs[i].items == Members(key, gs[i].key, s))
    && (forall i :: 0 <= i < |gs| ==> |gs[i].items| > 0)
    && (forall x :: x in s ==> exists i :: 0 <= i < |gs| && gs[i].key == key(x))
  }

  /** One reduce step: push `x` onto the group of key `k`, opening a new
      group at the end when there is none yet. */
  function AddTo<K(==), T>(gs: seq<Group<K, T>>, k: K, x: T): (r: seq<Group<K, T>>)
    ensures IndexOfKey(gs, k).Some? ==>
      var i := IndexOfKey(gs, k).value; r == gs[i := Group(k, gs[i].items + [x])]
    ensures IndexOfKey(gs, k).None? ==> r == gs + [Group(k, [x])]
  {
    if |gs| == 0 then [Group(k, [x])]
    else if gs[0].key == k then [Group(k, gs[0].items + [x])] + gs[1..]
    else [gs[0]] + AddTo(gs[1..], k, x)
  }

  lemma FilterSnoc<T>(p: T -> bool, s: seq<T>, x: T)
    ensures Filter(p, s + [x]) == Filter(p, s) + (if p(x) then [x] else [])
  {
    FilterConcat(p, s, [x]);
    FilterSingleton(p, x);
  }

  lemma {:induction false} MembersAbsent<T, K>(key: T -> K, k: K, s: seq<T>)
    requires forall x :: x in s ==> key(x) != k
    ensures Members(key, k, s) == []
    decreases |s|
  {
    if |s| > 0 {
      assert s[|s| - 1] in s;
      assert forall x :: x in s[..|s| - 1] ==> x in s;
      MembersAbsent(key, k, s[..|s| - 1]);
    }
  }

  lemma AddToGrouped<T, K>(key: T -> K, s: seq<T>, gs: seq<Group<K, T>>, x: T)
    requires Grouped(key, s, gs)
    ensures Grouped(key, s + [x], AddTo(gs, key(x), x))
  {
    if IndexOfKey(gs, key(x)).Some? {
      AddToExistingGrouped(key, s, gs, x);
    } else {
      AddToNewGrouped(key, s, gs, x);
    }
  }

  /** `AddToGrouped` when `x`'s key already has a group. */
  lemma AddToExistingGrouped<T, K>(key: T -> K, s: seq<T>, gs: seq<Group<K, T>>, x: T)
    requires Grouped(key, s, gs)
    requires IndexOfKey(gs, key(x)).Some?
    ensures Grouped(key, s + [x], AddTo(gs, key(x), x))
  {
    var k := key(x);
    var r := AddTo(gs, k, x);
    var s' := s + [x];
    var i := IndexOfKey(gs, k).value;
    assert r == gs[i := Group(k, gs[i].items + [x])];
    forall j | 0 <= j < |r|
      ensures r[j].items == Members(key, r[j].key, s')
    {
      MembersSnoc(key, gs[j].key, s, x);
      if j != i {
        assert gs[j].key != k;
      }
    }
    assert KeysDistinct(r) by {
      forall j, l | 0 <= j < l < |r|
        ensures r[j].key != r[l].key
      {
        assert gs[j].key != gs[l].key;
      }
    }
    forall y | y in s'
      ensures exists j :: 0 <= j < |r| && r[j].key == key(y)
    {
      if y in s {
        var j :| 0 <= j < |gs| && gs[j].key == key(y);
        assert r[j].key == key(y);
      } else {
        assert r[i].key == key(y);
      }
    }
  }

  /** `AddToGrouped` when `x` opens a new group. */
  lemma AddToNewGrouped<T, K>(key: T -> K, s: seq<T>, gs: seq<Group<K, T>>, x: T)
    requires Grouped(key, s, gs)
    requires IndexOfKey(gs, key(x)).None?
    ensures Grouped(key, s + [x], AddTo(gs, key(x), x))
  {
    var r := AddTo(gs, key(x), x);
    assert r == gs + [Group(key(x), [x])];
    NewGroupMembers(key, s, gs, x);
    NewGroupKeysDistinct(gs, key(x), x);
    NewGroupCovers(key, s, gs, x);
  }

  /** Appending the group of a new key keeps every group's items exactly
      its key's members, and the new group holds just `x`. */
  lemma NewGroupMembers<T, K>(key: T -> K, s: seq<T>, gs: seq<Group<K, T>>, x: T)
    requires Grouped(key, s, gs)
    requires forall i :: 0 <= i < |gs| ==> gs[i].key != key(x)
    ensures var r := gs + [Group(key(x), [x])];
      forall j :: 0 <= j < |r| ==> r[j].items == Members(key, r[j].key, s + [x])
  {
    var k := key(x);
    var r := gs + [Group(k, [x])];
    forall j | 0 <= j < |gs|
      ensures r[j].items == Members(key, r[j].key, s + [x])
    {
      assert r[j] == gs[j];
      MembersSnoc(key, gs[j].key, s, x);
    }
    forall y | y in s
      ensures key(y) != k
    {
      var l :| 0 <= l < |gs| && gs[l].key == key(y);
    }
    MembersAbsent(key, k, s);
    MembersSnoc(key, k, s, x);
    assert r[|gs|] == Group(k, [x]);
  }

  lemma NewGroupKeysDistinct<K, T>(gs: seq<Group<K, T>>, k: K, x: T)
    requires KeysDistinct(gs) && forall i :: 0 <= i < |gs| ==> |gs[i].items| > 0
    requires forall i :: 0 <= i < |gs| ==> gs[i].key != k
    ensures KeysDistinct(gs + [Group(k, [x])])
    ensures var r := gs + [Group(k, [x])]; forall i :: 0 <= i < |r| ==> |r[i].items| > 0
  {
    var r := gs + [Group(k, [x])];
    forall i | 0 <= i < |gs|
      ensures |r[i].items| > 0
    {
      assert r[i] == gs[i];
    }
    forall j, l | 0 <= j < l < |r|
      ensures r[j].key != r[l].key
    {
      assert r[j] == gs[j];
      if l < |gs| {
        assert r[l] == gs[l];
      }
    }
  }

  lemma NewGroupCovers<T, K>(key: T -> K, s: seq<T>, gs: seq<Group<K, T>>, x: T)
    requires forall y :: y in s ==> exists i :: 0 <= i < |gs| && gs[i].key == key(y)
    ensures var r := gs + [Group(key(x), [x])];
      forall y :: y in s + [x] ==> exists j :: 0 <= j < |r| && r[j].key == key(y)
  {
    var r := gs + [Group(key(x), [x])];
    forall y | y in s + [x]
      ensures exists j :: 0 <= j < |r| && r[j].key == key(y)
    {
      if y in s {
        var j :| 0 <= j < |gs| && gs[j].key == key(y);
        assert r[j] == gs[j];
      } else {
        assert r[|gs|].key == key(y);
      }
    }
  }

  /** The reduce over `s`: a left fold of `AddTo`. */
  function GroupBy<T, K(==)>(key: T -> K, s: seq<T>): seq<Group<K, T>>
    decreases |s|
  {
    if |s| == 0 then [] else AddTo(GroupBy(key, s[..|s| - 1]), key(s[|s| - 1]), s[|s| - 1])
  }

  /** Every element of `s` has a group in the reduce, the one of its key. */
  lemma GroupOf<T, K>(key: T -> K, s: seq<T>, x: T) returns (i: nat)
    requires x in s
    ensures i < |GroupBy(key, s)| && GroupBy(key, s)[i].key == key(x)
  {
    GroupByGrouped(key, s);
    var gs := GroupBy(key, s);
    i :| 0 <= i < |gs| && gs[i].key == key(x);
  }

  /** The reduce meets the reference description. */
  lemma {:induction false} GroupByGrouped<T, K>(key: T -> K, s: seq<T>)
    ensures Grouped(key, s, GroupBy(key, s))
    decreases |s|
  {
    if |s| > 0 {
      var init, x := s[..|s| - 1], s[|s| - 1];
      LastSplit(s);
      GroupByGrouped(key, init);
      AddToGrouped(key, init, GroupBy(key, init), x);
      assert GroupBy(key, s) == AddTo(GroupBy(key, init), key(x), x);
    }
  }

  lemma {:induction false} FlattenAddTo<K, T>(gs: seq<Group<K, T>>, k: K, x: T)
    ensures multiset(Flatten(AddTo(gs, k, x))) == multiset(Flatten(gs)) + multiset{x}
  {
    if |gs| > 0 && gs[0].key != k {
      FlattenAddTo(gs[1..], k, x);
      assert ([gs[0]] + AddTo(gs[1..], k, x))[1..] == AddTo(gs[1..], k, x);
    } else if |gs| > 0 {
      assert ([Group(k, gs[0].items + [x])] + gs[1..])[1..] == gs[1..];
    }
  }

  /** Every element lands in exactly one group: the groups together hold
      the input's elements with their multiplicities. */
  lemma {:induction false} GroupByPartition<T, K>(key: T -> K, s: seq<T>)
    ensures multiset(Flatten(GroupBy(key, s))) == multiset(s)
    decreases |s|
  {
    if |s| > 0 {
      var init, last := s[..|s| - 1], s[|s| - 1];
      var g := GroupBy(key, init);
      assert GroupBy(key, s) == AddTo(g, key(last), last);
      GroupByPartition(key, init);
      FlattenAddTo(g, key(last), last);
      LastSplit(s);
    }
  }

  lemma {:induction false} FlattenConcat<K, T>(a: seq<Group<K, T>>, b: seq<Group<K, T>>)
    ensures Flatten(a + b) == Flatten(a) + Flatten(b)
  {
    if |a| == 0 {
      assert a + b == b;
    } else {
      assert (a + b)[1..] == a[1..] + b;
      FlattenConcat(a[1..], b);
    }
  }

  /** Reordering the groups does not change which elements they hold. */
  lemma {:induction false} FlattenPermutation<K, T>(a: seq<Group<K, T>>, b: seq<Group<K, T>>)
    requires multiset(a) == multiset(b)
    ensures multiset(Flatten(a)) == multiset(Flatten(b))
    decreases |a|
  {
    if |a| > 0 {
      assert a[0] in multiset(b);
      var k :| 0 <= k < |b| && b[k] == a[0];
      var b' := RemoveAt(b, k);
      FlattenRemoveAt(b, k);
      assert a == [a[0]] + a[1..];
      assert multiset(a[1..]) == multiset(a) - multiset{a[0]};
      FlattenPermutation(a[1..], b');
      assert Flatten(a) == a[0].items + Flatten(a[1..]);
    }
  }

  /** Taking one group out takes exactly its items out of the flattening. */
  lemma FlattenRemoveAt<K, T>(b: seq<Group<K, T>>, k: nat)
    requires k < |b|
    ensures multiset(Flatten(b)) == multiset(b[k].items) + multiset(Flatten(RemoveAt(b, k)))
  {
    var pre, g, post := b[..k], b[k], b[k + 1..];
    SplitAround(b, k);
    FlattenAround(pre, g, post);
    MiddleOut(Flatten(pre), g.items, Flatten(post));
  }

  /** The flattening around one group. */
  lemma FlattenAround<K, T>(pre: seq<Group<K, T>>, g: Group<K, T>, post: seq<Group<K, T>>)
    ensures Flatten(pre + [g] + post) == Flatten(pre) + g.items + Flatten(post)
    ensures Flatten(pre + post) == Flatten(pre) + Flatten(post)
  {
    FlattenConcat(pre + [g], post);
    FlattenConcat(pre, [g]);
    FlattenOne(g);
    FlattenConcat(pre, post);
  }

  lemma FlattenOne<K, T>(g: Group<K, T>)
    ensures Flatten([g]) == g.items
  {
    assert [g][1..] == [];
    assert Flatten([g]) == g.items + Flatten([g][1..]);
    assert g.items + [] == g.items;
  }

  /** Replacing each group's items by a rearrangement of them does not
      change which elements the groups hold. */
  lemma {:induction false} FlattenItemsPermutation<K, T>(a: seq<Group<K, T>>, b: seq<Group<K, T>>)
    requires |a| == |b|
    requires forall i :: 0 <= i < |a| ==> multiset(a[i].items) == multiset(b[i].items)
    ensures multiset(Flatten(a)) == multiset(Flatten(b))
  {
    if |a| > 0 {
      FlattenItemsPermutation(a[1..], b[1..]);
    }
  }

  /** Index in `s` of the first element with key `k`. */
  function FirstOf<T, K(==)>(key: T -> K, s: seq<T>, k: K): Option<nat> {
    FirstIndex(Having(key, k), s)
  }

  lemma FirstIndexSnoc<T>(p: T -> bool, s: seq<T>, x: T)
    ensures FirstIndex(p, s).Some? ==> FirstIndex(p, s + [x]) == FirstIndex(p, s)
    ensures FirstIndex(p, s).None? && p(x) ==> FirstIndex(p, s + [x]) == Some(|s|)
  {
    forall j | 0 <= j < |s|
      ensures (s + [x])[j] == s[j]
    {
    }
    assert (s + [x])[|s|] == x;
  }

  /** Groups come in order of their key's first appearance in the input. */
  ghost predicate FirstAppearanceOrder<T, K>(key: T -> K, s: seq<T>, gs: seq<Group<K, T>>) {
    && (forall i :: 0 <= i < |gs| ==> FirstOf(key, s, gs[i].key).Some?)
    && (forall i, j :: 0 <= i < j < |gs| ==>
          FirstOf(key, s, gs[i].key).value < FirstOf(key, s, gs[j].key).value)
  }

  lemma FirstOfSnoc<T, K>(key: T -> K, s: seq<T>, gs: seq<Group<K, T>>, x: T)
    requires forall i :: 0 <= i < |gs| ==> FirstOf(key, s, gs[i].key).Some?
    ensures forall i :: 0 <= i < |gs| ==> FirstOf(key, s + [x], gs[i].key) == FirstOf(key, s, gs[i].key)
  {
    forall i | 0 <= i < |gs|
      ensures FirstOf(key, s + [x], gs[i].key) == FirstOf(key, s, gs[i].key)
    {
      FirstIndexSnoc(Having(key, gs[i].key), s, x);
    }
  }

  lemma FirstOfNew<T, K>(key: T -> K, s: seq<T>, x: T)
    requires forall y :: y in s ==> key(y) != key(x)
    ensures FirstOf(key, s + [x], key(x)) == Some(|s|)
  {
    var p := Having(key, key(x));
    forall j | 0 <= j < |s|
      ensures !p(s[j])
    {
      assert s[j] in s;
    }
    FirstIndexSnoc(p, s, x);
  }

  lemma FirstAppearanceExisting<T, K>(key: T -> K, s: seq<T>, gs: seq<Group<K, T>>, x: T)
    requires IndexOfKey(gs, key(x)).Some?
    requires FirstAppearanceOrder(key, s, gs)
    ensures FirstAppearanceOrder(key, s + [x], AddTo(gs, key(x), x))
  {
    var s' := s + [x];
    var r := AddTo(gs, key(x), x);
    FirstOfSnoc(key, s, gs, x);
    var i := IndexOfKey(gs, key(x)).value;
    assert r == gs[i := Group(key(x), gs[i].items + [x])];
    forall j | 0 <= j < |r|
      ensures FirstOf(key, s', r[j].key) == FirstOf(key, s, gs[j].key)
    {
      assert r[j].key == gs[j].key;
    }
  }

  lemma FirstAppearanceNew<T, K>(key: T -> K, s: seq<T>, gs: seq<Group<K, T>>, x: T)
    requires IndexOfKey(gs, key(x)).None?
    requires forall y :: y in s ==> key(y) != key(x)
    requires FirstAppearanceOrder(key, s, gs)
    ensures FirstAppearanceOrder(key, s + [x], AddTo(gs, key(x), x))
  {
    var s' := s + [x];
    var r := AddTo(gs, key(x), x);
    FirstOfSnoc(key, s, gs, x);
    assert r == gs + [Group(key(x), [x])];
    FirstOfNew(key, s, x);
    forall i | 0 <= i < |r|
      ensures FirstOf(key, s', r[i].key).Some?
    {
      if i < |gs| {
        assert r[i] == gs[i];
      }
    }
    forall i, j | 0 <= i < j < |r|
      ensures FirstOf(key, s', r[i].key).value < FirstOf(key, s', r[j].key).value
    {
      assert r[i] == gs[i];
      if j < |gs| {
        assert r[j] == gs[j];
      }
    }
  }

  lemma {:induction false} GroupByFirstAppearance<T, K>(key: T -> K, s: seq<T>)
    ensures FirstAppearanceOrder(key, s, GroupBy(key, s))
    decreases |s|
  {
    if |s| > 0 {
      var init, x := s[..|s| - 1], s[|s| - 1];
      LastSplit(s);
      GroupByFirstAppearance(key, init);
      GroupByGrouped(key, init);
      var prev := GroupBy(key, init);
      if IndexOfKey(prev, key(x)).None? {
        forall y | y in init
          ensures key(y) != key(x)
        {
          var i :| 0 <= i < |prev| && prev[i].key == key(y);
        }
        FirstAppearanceNew(key, init, prev, x);
      } else {
        FirstAppearanceExisting(key, init, prev, x);
      }
    }
  }
}

=== FILE: home_page.dfy ===
/** The home page (`routes/route.tsx`): the competitions from the API, or
    the bundled league list when the API gave nothing, split into leagues
    and cups; the featured and today sections always use the bundled top
    leagues. The query's state is a parameter as the hook reports it. */
module HomePage {
  import opened Basics
  import opened Seqs
  import opened Domain
  import opened CompetitionsMock

  const League: string := "LEAGUE"
  const Cup: string := "CUP"

  /** The count the navigation bar shows when the API gave none (or 0). */
  const DefaultCount: int := 13

  /** `data?.competitions || getCompetitionsByType('LEAGUE')`: an API
      response wins, even with an empty list (an empty array is truthy). */
  function AllCompetitions(data: Option<CompetitionsResponse>, dataset: seq<Competition>): (cs: seq<Competition>)
    ensures data.Some? ==> cs == data.value.competitions
    ensures data.None? ==> forall c :: c in cs <==> c in dataset && c.kind == League
  {
    if data.Some? then data.value.competitions else GetCompetitionsByType(dataset, League)
  }

  /** `allCompetitions.filter(c => c.type === 'LEAGUE')`. */
  function Leagues(all: seq<Competition>): (r: seq<Competition>)
    ensures forall c :: c in r <==> c in all && c.kind == League
  {
    Filter(HasKind(League), all)
  }

  /** `allCompetitions.filter(c => c.type === 'CUP')`. */
  function Cups(all: seq<Competition>): (r: seq<Competition>)
    ensures forall c :: c in r <==> c in all && c.kind == Cup
  {
    Filter(HasKind(Cup), all)
  }

  /** The competitions of neither type. */
  function Others(all: seq<Competition>): seq<Competition> {
    Filter(OtherKind, all)
  }

  function OtherKind(c: Competition): bool { c.kind != League && c.kind != Cup }

  function NotLeague(c: Competition): bool { c.kind != League }

  function NotCup(c: Competition): bool { c.kind != Cup }

  /** Leagues, cups and the rest partition the competitions: together they
      hold each competition exactly as often as the input, and no
      competition is both a league and a cup. */
  lemma LeaguesCupsPartition(all: seq<Competition>)
    ensures multiset(Leagues(all)) + multiset(Cups(all)) + multiset(Others(all)) == multiset(all)
    ensures forall c :: !(c in Leagues(all) && c in Cups(all))
  {
    FilterComplement(HasKind(League), NotLeague, all);
    var rest := Filter(NotLeague, all);
    FilterComplement(HasKind(Cup), NotCup, rest);
    FilterNested(HasKind(Cup), NotLeague, HasKind(Cup), all);
    FilterNested(NotCup, NotLeague, OtherKind, all);
  }

  /** Filtering a filtered list is filtering once by both tests. */
  lemma {:induction false} FilterNested(p: Competition -> bool, q: Competition -> bool, both: Competition -> bool, s: seq<Competition>)
    requires forall c :: both(c) == (p(c) && q(c))
    ensures Filter(p, Filter(q, s)) == Filter(both, s)
  {
    if |s| > 0 {
      var head: seq<Competition> := if q(s[0]) then [s[0]] else [];
      assert Filter(q, s) == head + Filter(q, s[1..]);
      FilterConcat(p, head, Filter(q, s[1..]));
      FilterNested(p, q, both, s[1..]);
      if q(s[0]) {
        assert [s[0]][1..] == [];
        assert Filter(p, head) == (if p(s[0]) then [s[0]] else []);
      }
    }
  }

  /** Splitting keeps each list in input order. */
  lemma SplitKeepsOrder(a: seq<Competition>, b: seq<Competition>)
    ensures Leagues(a + b) == Leagues(a) + Leagues(b)
    ensures Cups(a + b) == Cups(a) + Cups(b)
  {
    FilterConcat(HasKind(League), a, b);
    FilterConcat(HasKind(Cup), a, b);
  }

  /** Without an API response the page falls back to the bundled leagues,
      so every one of them is listed as a league and there are no cups. */
  lemma FallbackHasNoCups(dataset: seq<Competition>)
    ensures Cups(AllCompetitions(None, dataset)) == []
    ensures Leagues(AllCompetitions(None, dataset)) == AllCompetitions(None, dataset)
  {
    var all := AllCompetitions(None, dataset);
    FilterNone(HasKind(Cup), all);
    FilterAll(HasKind(League), all);
  }

  /** `data?.count || 13`. */
  function CompetitionsCount(data: Option<CompetitionsResponse>): (n: int)
    ensures data.Some? && data.value.count != 0 ==> n == data.value.count
    ensures data.None? || data.value.count == 0 ==> n == DefaultCount
  {
    if data.Some? && data.value.count != 0 then data.value.count else DefaultCount
  }

  /** `handleLeagueClick`: the league page for a code, `/league/{code}`. */
  function LeaguePath(code: string): (path: string)
    ensures IsPrefix("/league/", path)
    ensures path[|"/league/"|..] == code
  {
    "/league/" + code
  }

  /** Distinct codes lead to distinct pages. */
  lemma LeaguePathInjective(a: string, b: string)
    requires LeaguePath(a) == LeaguePath(b)
    ensures a == b
  {
    assert a == LeaguePath(a)[|"/league/"|..];
  }

  /** A featured card (`TopLeaguesSection`) calls the handler with its
      league's code, so it leads to that league's page; two featured cards
      lead to the same page only for the same code. */
  function FeaturedClick(league: Competition): (path: string)
    ensures IsPrefix("/league/", path) && path[|"/league/"|..] == league.code
  {
    LeaguePath(league.code)
  }

  lemma FeaturedPagesDistinct(a: Competition, b: Competition)
    requires FeaturedClick(a) == FeaturedClick(b)
    ensures a.code == b.code
  {
  }

  /** What the page renders: a loading screen, or the sections. The
      featured and today sections get the bundled top leagues whatever the
      API answered. */
  datatype Page =
    | Loading
    | Sections(count: int, apiError: bool, featured: seq<Competition>, today: seq<Competition>,
               leagues: seq<Competition>, cups: seq<Competition>)

  function Render(isLoading: bool, hasError: bool, data: Option<CompetitionsResponse>, dataset: seq<Competition>): (p: Page)
    ensures p.Loading? <==> isLoading
    ensures p.Sections? ==> p.apiError == hasError && p.count == CompetitionsCount(data)
    ensures p.Sections? ==> p.featured == p.today
    ensures p.Sections? ==> forall c :: c in p.featured <==> c in dataset && c.code in {"PL", "BL1", "PD", "SA", "FL1"}
    ensures p.Sections? && data.Some? ==>
      && (forall c :: c in p.leagues <==> c in data.value.competitions && c.kind == League)
      && (forall c :: c in p.cups <==> c in data.value.competitions && c.kind == Cup)
    ensures p.Sections? && data.None? ==>
      p.cups == [] && forall c :: c in p.leagues <==> c in dataset && c.kind == League
    ensures p.Sections? ==>
      && p.leagues == Leagues(AllCompetitions(data, dataset))
      && p.cups == Cups(AllCompetitions(data, dataset))
      && p.featured == GetTopEuropeanLeagues(dataset)
  {
    if isLoading then Loading
    else
      FallbackHasNoCups(dataset);
      var all := AllCompetitions(data, dataset);
      var top := GetTopEuropeanLeagues(dataset);
      Sections(CompetitionsCount(data), hasError, top, top, Leagues(all), Cups(all))
  }
}

=== FILE: league_drawer.dfy ===
/** The standings modal of the home page (`league_drawer.tsx`): the first
    table of a competition's standings, with the top and bottom rows
    highlighted. The query's loading, error and data are parameters as the
    hook reports them; the current year is a parameter. */
module LeagueDrawer {
  import opened Basics
  import opened Domain
  import opened QueryKeys

  /** `competition?.code || ''`. */
  function CodeOf(competition: Option<Competition>): string {
    if competition.Some? then competition.value.code else ""
  }

  /** The standings query: without a competition (or with an empty code)
      the code is empty and the query stays disabled. */
  function StandingsQuery(competition: Option<Competition>): (q: QuerySpec)
    ensures q.enabled <==> competition.Some? && competition.value.code != ""
    ensures competition.Some? ==> q.key == StandingsKey(competition.value.code)
    ensures competition.None? ==> q.key == StandingsKey("")
  {
    UseCompetitionStandings(CodeOf(competition))
  }

  /** `data?.standings?.[0]?.table || []`: the first group's table, or
      nothing at every missing step. */
  function FirstTable(data: Option<Option<seq<StandingsGroup>>>): (t: seq<StandingEntry>)
    ensures t != [] ==>
      data.Some? && data.value.Some? && |data.value.value| > 0 && data.value.value[0].table == Some(t)
    ensures data.Some? && data.value.Some? && |data.value.value| > 0 && data.value.value[0].table.Some?
      ==> t == data.value.value[0].table.value
  {
    if data.Some? && data.value.Some? && |data.value.value| > 0 && data.value.value[0].table.Some? then
      data.value.value[0].table.value
    else []
  }

  // ---------------------------------------------------------------------
  // Rows

  /** The highlight of a row: the first four rows (Champions League), else
      the last three (relegation). In a table of fewer than seven rows the
      first four take precedence. */
  datatype Band = Top | Bottom | Plain

  function BandOf(index: nat, length: nat): (b: Band)
    ensures b == Top <==> index < 4
    ensures b == Bottom <==> 4 <= index && length <= index + 3
  {
    if index < 4 then Top
    else if index >= length - 3 then Bottom
    else Plain
  }

  /** In a table of at least seven rows exactly four rows are top and exactly
      three are bottom, and the bottom ones are the last three. */
  lemma BandsOfFullTable(length: nat)
    requires length >= 7
    ensures forall i :: 0 <= i < length ==>
      (BandOf(i, length) == Top <==> i < 4)
      && (BandOf(i, length) == Bottom <==> length - 3 <= i)
      && (BandOf(i, length) == Plain <==> 4 <= i < length - 3)
  {
  }

  /** The goal difference cell: a "+" in front of a positive difference
      only; green when positive, red when negative, muted at zero. */
  datatype Tint = Green | Red | Muted

  function GoalDifferenceText(gd: int): (s: string)
    ensures gd > 0 ==> |s| > 1 && s[0] == '+' && ReadInt(s[1..]) == Some(gd) && s[1..] == IntToString(gd)
    ensures gd <= 0 ==> ReadInt(s) == Some(gd) && s == IntToString(gd)
  {
    IntToStringRoundTrip(gd);
    if gd > 0 then
      var s := "+" + IntToString(gd);
      assert s[1..] == IntToString(gd);
      s
    else IntToString(gd)
  }

  function GoalDifferenceTint(gd: int): (t: Tint)
    ensures t == Green <==> gd > 0
    ensures t == Red <==> gd < 0
  {
    if gd > 0 then Green else if gd < 0 then Red else Muted
  }

  /** One table row; `record` is the won, drawn and lost columns. */
  datatype Row = Row(
    band: Band,
    position: int,
    team: string,
    played: int,
    record: (int, int, int),
    goals: (int, int),
    goalDifference: string,
    tint: Tint,
    points: int)

  function RowOf(e: StandingEntry, index: nat, length: nat): Row {
    Row(
      BandOf(index, length),
      e.position,
      if e.teamShortName != "" then e.teamShortName else e.teamName,
      e.playedGames,
      (e.won, e.draw, e.lost),
      (e.goalsFor, e.goalsAgainst),
      GoalDifferenceText(e.goalDifference),
      GoalDifferenceTint(e.goalDifference),
      e.points)
  }

  /** `standings.map((entry, index) => ..)`. */
  function Rows(table: seq<StandingEntry>): (rows: seq<Row>)
    ensures |rows| == |table|
    ensures forall i :: 0 <= i < |rows| ==>
      && rows[i].position == table[i].position
      && rows[i].points == table[i].points
      && rows[i].band == BandOf(i, |table|)
      && rows[i].tint == GoalDifferenceTint(table[i].goalDifference)
    ensures forall i :: 0 <= i < |rows| ==>
      && rows[i].team == (if table[i].teamShortName != "" then table[i].teamShortName else table[i].teamName)
      && rows[i].played == table[i].playedGames
      && rows[i].record == (table[i].won, table[i].draw, table[i].lost)
      && rows[i].goals == (table[i].goalsFor, table[i].goalsAgainst)
      && rows[i].goalDifference == GoalDifferenceText(table[i].goalDifference)
  {
    seq(|table|, i requires 0 <= i < |table| => RowOf(table[i], i, |table|))
  }

  // ---------------------------------------------------------------------
  // The modal

  /** The error line: the error's message when it is an `Error`, a fixed
      sentence otherwise. */
  datatype ErrorLine = Message(text: string) | CouldNotLoad

  /** What the query reports as its error: none, an `Error` with a message,
      or some other thrown value. */
  datatype QueryError = NoError | ErrorObject(message: string) | OtherThrown

  datatype Modal = Modal(
    title: string,
    emblem: Option<string>,
    season: string,
    loading: bool,
    error: Option<ErrorLine>,
    table: Option<seq<Row>>)

  /** "Saison <year>/<year+1>". */
  function SeasonText(year: int): (s: string)
    ensures Split(s, '/') == [IntToString(year), IntToString(year + 1)]
  {
    NoSlashInNumber(year);
    NoSlashInNumber(year + 1);
    SplitHeadFree(IntToString(year), IntToString(year + 1), '/');
    SplitNoSep(IntToString(year + 1), '/');
    IntToString(year) + "/" + IntToString(year + 1)
  }

  lemma NoSlashInNumber(i: int)
    ensures '/' !in IntToString(i)
  {
  }

  /** The drawer: nothing while closed or without a competition; the table
      only once loading is over, without error, and when it has rows. */
  function Render(isOpen: bool, competition: Option<Competition>, year: int,
                  isLoading: bool, error: QueryError,
                  data: Option<Option<seq<StandingsGroup>>>): (m: Option<Modal>)
    ensures m.Some? <==> isOpen && competition.Some?
    ensures m.Some? ==> m.value.title == competition.value.name && m.value.loading == isLoading
    ensures m.Some? ==> (m.value.emblem.Some? <==> competition.value.emblem != "")
    ensures m.Some? ==> (m.value.error.None? <==> error == NoError)
    ensures m.Some? && error.ErrorObject? ==> m.value.error == Some(Message(error.message))
    ensures m.Some? && error.OtherThrown? ==> m.value.error == Some(CouldNotLoad)
    ensures m.Some? ==> (m.value.table.Some? <==> !isLoading && error == NoError && FirstTable(data) != [])
    ensures m.Some? && m.value.table.Some? ==> m.value.table.value == Rows(FirstTable(data))
    ensures m.Some? ==> m.value.season == SeasonText(year)
  {
    if !isOpen || competition.None? then None
    else
      var c := competition.value;
      var table := FirstTable(data);
      Some(Modal(
        c.name,
        if c.emblem != "" then Some(c.emblem) else None,
        SeasonText(year),
        isLoading,
        match error
        case NoError => None
        case ErrorObject(msg) => Some(Message(msg))
        case OtherThrown => Some(CouldNotLoad),
        if !isLoading && error == NoError && |table| > 0 then Some(Rows(table)) else None))
  }
}

=== FILE: leagues_home_compact.dfy ===
/** The compact home page (`routes/leagues_home_compact.tsx`): the
    competitions grouped by their area's name, groups in order of first
    appearance, each with a flag, a count and one small card per
    competition. */
module LeaguesHomeCompact {
  import opened Basics
  import opened Seqs
  import opened Grouping
  import opened Domain

  function AreaName(c: Competition): string { c.area.name }

  /** The `reduce` into a record keyed by area name, read back with
      `Object.entries(grouped || {})`; without data there are no groups. */
  function AreaGroups(data: Option<CompetitionsResponse>): seq<Group<string, Competition>> {
    if data.Some? then GroupBy(AreaName, data.value.competitions) else []
  }

  /** Every competition lands in exactly one group, that of its area name;
      a group holds its area's competitions in input order; groups follow
      the first appearance of their area. */
  lemma AreaGroupsCorrect(data: Option<CompetitionsResponse>)
    requires data.Some?
    ensures var cs := data.value.competitions;
      var gs := AreaGroups(data);
      && multiset(Flatten(gs)) == multiset(cs)
      && KeysDistinct(gs)
      && (forall i :: 0 <= i < |gs| ==> gs[i].items == Filter(Having(AreaName, gs[i].key), cs))
      && (forall c :: c in cs ==> exists i :: 0 <= i < |gs| && gs[i].key == c.area.name)
      && FirstAppearanceOrder(AreaName, cs, gs)
  {
    var cs := data.value.competitions;
    GroupByPartition(AreaName, cs);
    GroupByFirstAppearance(AreaName, cs);
    AreaGroupsAreFilters(cs);
    AreaGroupsCover(cs);
  }

  lemma AreaGroupsAreFilters(cs: seq<Competition>)
    ensures var gs := GroupBy(AreaName, cs);
      && KeysDistinct(gs)
      && forall i :: 0 <= i < |gs| ==> gs[i].items == Filter(Having(AreaName, gs[i].key), cs)
  {
    var gs := GroupBy(AreaName, cs);
    GroupByGrouped(AreaName, cs);
    forall i | 0 <= i < |gs|
      ensures gs[i].items == Filter(Having(AreaName, gs[i].key), cs)
    {
      MembersIsFilter(AreaName, gs[i].key, cs);
    }
  }

  lemma AreaGroupsCover(cs: seq<Competition>)
    ensures forall c :: c in cs ==> exists i :: 0 <= i < |GroupBy(AreaName, cs)| && GroupBy(AreaName, cs)[i].key == c.area.name
  {
    var gs := GroupBy(AreaName, cs);
    forall c | c in cs
      ensures exists i :: 0 <= i < |gs| && gs[i].key == c.area.name
    {
      var i := GroupOf(AreaName, cs, c);
      assert gs[i].key == c.area.name;
    }
    assert gs == GroupBy(AreaName, cs);
  }

  lemma AreaGroupsNonEmpty(data: Option<CompetitionsResponse>)
    ensures forall i :: 0 <= i < |AreaGroups(data)| ==> |AreaGroups(data)[i].items| > 0
  {
    if data.Some? {
      GroupByGrouped(AreaName, data.value.competitions);
    }
  }

  /** A group's header: the area name, the first competition's flag when
      it has a non-empty one, and the number of competitions. */
  datatype Header = Header(area: string, flag: Option<string>, count: nat)

  function HeaderOf(g: Group<string, Competition>): (h: Header)
    requires |g.items| > 0
    ensures h.area == g.key && h.count == |g.items|
    ensures h.flag.Some? <==> g.items[0].area.flag.Some? && g.items[0].area.flag.value != ""
    ensures h.flag.Some? ==> h.flag == g.items[0].area.flag
  {
    var first := g.items[0];
    var flag := if first.area.flag.Some? && first.area.flag.value != "" then first.area.flag else None;
    Header(g.key, flag, |g.items|)
  }

  /** A card's type badge: the league style for type LEAGUE, the cup style
      for every other type. */
  datatype Style = LeagueStyle | CupStyle

  /** One compact card: the type badge and a matchday badge shown only for
      a positive current matchday. */
  datatype CompactCard = CompactCard(name: string, kind: string, style: Style, matchday: Option<int>)

  function CardOf(c: Competition): (card: CompactCard)
    ensures card.style == LeagueStyle <==> c.kind == "LEAGUE"
    ensures card.matchday.Some? <==> c.currentMatchday > 0
    ensures card.matchday.Some? ==> card.matchday.value == c.currentMatchday
    ensures card.name == c.name && card.kind == c.kind
  {
    CompactCard(c.name, c.kind,
      if c.kind == "LEAGUE" then LeagueStyle else CupStyle,
      if c.currentMatchday > 0 then Some(c.currentMatchday) else None)
  }

  datatype AreaSection = AreaSection(header: Header, cards: seq<CompactCard>)

  datatype Page = Loading | Areas(count: Option<int>, sections: seq<AreaSection>)

  /** The page: the loading line, or one section per area group. The count
      in the header is the response's, absent without data. */
  function Render(isLoading: bool, data: Option<CompetitionsResponse>): (p: Page)
    ensures p.Loading? <==> isLoading
    ensures p.Areas? ==> (p.count.Some? <==> data.Some?) && (data.Some? ==> p.count.value == data.value.count)
    ensures p.Areas? ==> |p.sections| == |AreaGroups(data)|
    ensures p.Areas? ==> forall i :: 0 <= i < |p.sections| ==>
      && p.sections[i].header.area == AreaGroups(data)[i].key
      && p.sections[i].header.count == |AreaGroups(data)[i].items| == |p.sections[i].cards|
      && (forall j :: 0 <= j < |p.sections[i].cards| ==> p.sections[i].cards[j] == CardOf(AreaGroups(data)[i].items[j]))
  {
    if isLoading then Loading
    else
      var gs := AreaGroups(data);
      AreaGroupsNonEmpty(data);
      Areas(if data.Some? then Some(data.value.count) else None, Sections(gs))
  }

  function Sections(gs: seq<Group<string, Competition>>): (ss: seq<AreaSection>)
    requires forall i :: 0 <= i < |gs| ==> |gs[i].items| > 0
    ensures |ss| == |gs|
    ensures forall i :: 0 <= i < |ss| ==> ss[i] == AreaSection(HeaderOf(gs[i]), Map(CardOf, gs[i].items))
  {
    if |gs| == 0 then [] else [AreaSection(HeaderOf(gs[0]), Map(CardOf, gs[0].items))] + Sections(gs[1..])
  }

  /** The counts shown add up to the number of competitions. */
  lemma CountsAddUp(data: Option<CompetitionsResponse>)
    requires data.Some?
    ensures TotalCount(AreaGroups(data)) == |data.value.competitions|
  {
    var gs := AreaGroups(data);
    AreaGroupsCorrect(data);
    FlattenLength(gs);
    assert |Flatten(gs)| == |multiset(Flatten(gs))| == |multiset(data.value.competitions)|;
  }

  function TotalCount(gs: seq<Group<string, Competition>>): nat {
    if |gs| == 0 then 0 else |gs[0].items| + TotalCount(gs[1..])
  }

  lemma {:induction false} FlattenLength(gs: seq<Group<string, Competition>>)
    ensures |Flatten(gs)| == TotalCount(gs)
  {
    if |gs| > 0 {
      FlattenLength(gs[1..]);
    }
  }
}

=== FILE: lexorder.dfy ===
/** `Array.prototype.sort()` without a comparator, applied to an array of
    numbers: the elements are compared by their decimal renderings, code
    unit by code unit, so `[5, 10]` sorts to `[10, 5]`. */
module LexOrder {
  import opened Basics

  /** String order of the default sort comparator: a proper prefix comes
      first, otherwise the first differing character decides. Every string
      this model sorts is ASCII, where code points and UTF-16 code units
      agree. */
  predicate LexLe(a: string, b: string)
    decreases |a|
  {
    |a| == 0 || (|b| > 0 && (a[0] < b[0] || (a[0] == b[0] && LexLe(a[1..], b[1..]))))
  }

  lemma {:induction false} LexLeRefl(a: string)
    ensures LexLe(a, a)
    decreases |a|
  {
    if |a| > 0 {
      LexLeRefl(a[1..]);
    }
  }

  lemma {:induction false} LexLeTotal(a: string, b: string)
    ensures LexLe(a, b) || LexLe(b, a)
    decreases |a|
  {
    if |a| > 0 && |b| > 0 && a[0] == b[0] {
      LexLeTotal(a[1..], b[1..]);
    }
  }

  lemma {:induction false} LexLeAntisym(a: string, b: string)
    requires LexLe(a, b) && LexLe(b, a)
    ensures a == b
    decreases |a|
  {
    if |a| > 0 {
      LexLeAntisym(a[1..], b[1..]);
      assert a == [a[0]] + a[1..];
      assert b == [b[0]] + b[1..];
    }
  }

  lemma {:induction false} LexLeTrans(a: string, b: string, c: string)
    requires LexLe(a, b) && LexLe(b, c)
    ensures LexLe(a, c)
    decreases |a|
  {
    if |a| > 0 && a[0] == b[0] && b[0] == c[0] {
      LexLeTrans(a[1..], b[1..], c[1..]);
    }
  }

  /** Default-sort order on numbers: compare their decimal renderings. */
  predicate NumLe(x: int, y: int) {
    LexLe(IntToString(x), IntToString(y))
  }

  ghost predicate TotalPreorder<T(!new)>(le: (T, T) -> bool) {
    && (forall x, y :: le(x, y) || le(y, x))
    && (forall x, y, z :: le(x, y) && le(y, z) ==> le(x, z))
  }

  /** `NumLe` relates every pair one way or the other, and transitively. */
  lemma NumLeTotalPreorder()
    ensures TotalPreorder(NumLe)
  {
    forall x, y
      ensures NumLe(x, y) || NumLe(y, x)
    {
      LexLeTotal(IntToString(x), IntToString(y));
    }
    forall x, y, z | NumLe(x, y) && NumLe(y, z)
      ensures NumLe(x, z)
    {
      LexLeTrans(IntToString(x), IntToString(y), IntToString(z));
    }
  }

  /** Two numbers that each sort no later than the other are equal. */
  lemma NumLeAntisym(x: int, y: int)
    requires NumLe(x, y) && NumLe(y, x)
    ensures x == y
  {
    LexLeAntisym(IntToString(x), IntToString(y));
    IntToStringInjective(x, y);
  }

  ghost predicate SortedBy<T>(le: (T, T) -> bool, s: seq<T>) {
    forall i, j :: 0 <= i < j < |s| ==> le(s[i], s[j])
  }

  /** Insertion step of a stable sort: `x` goes before the first element it
      does not sort after. */
  function InsertBy<T>(le: (T, T) -> bool, x: T, s: seq<T>): (r: seq<T>)
    ensures multiset(r) == multiset(s) + multiset{x}
  {
    if |s| == 0 then [x]
    else if le(x, s[0]) then [x] + s
    else
      assert s == [s[0]] + s[1..];
      [s[0]] + InsertBy(le, x, s[1..])
  }

  lemma {:induction false} InsertBySorted<T(!new)>(le: (T, T) -> bool, x: T, s: seq<T>)
    requires TotalPreorder(le)
    requires SortedBy(le, s)
    ensures SortedBy(le, InsertBy(le, x, s))
  {
    if |s| == 0 {
    } else if le(x, s[0]) {
      HeadBoundsBy(le, s);
      assert AllAbove(le, x, s) by {
        forall k | 0 <= k < |s|
          ensures le(x, s[k])
        {
          if k > 0 {
            assert le(x, s[0]) && le(s[0], s[k]);
          }
        }
      }
      ConsSorted(le, x, s);
    } else {
      var t := s[1..];
      HeadBoundsBy(le, s);
      assert le(s[0], x);
      InsertBySorted(le, x, t);
      InsertByAbove(le, s[0], x, t);
      ConsSorted(le, s[0], InsertBy(le, x, t));
    }
  }

  /** `h` sorts no later than any element of `s`. */
  ghost predicate AllAbove<T>(le: (T, T) -> bool, h: T, s: seq<T>) {
    forall k :: 0 <= k < |s| ==> le(h, s[k])
  }

  /** The head of a sorted sequence sorts no later than its tail, which is
      again sorted. */
  lemma HeadBoundsBy<T>(le: (T, T) -> bool, s: seq<T>)
    requires |s| > 0 && SortedBy(le, s)
    ensures AllAbove(le, s[0], s[1..]) && SortedBy(le, s[1..])
  {
    var t := s[1..];
    forall k | 0 <= k < |t|
      ensures le(s[0], t[k])
    {
      assert t[k] == s[k + 1];
    }
    forall i, j | 0 <= i < j < |t|
      ensures le(t[i], t[j])
    {
      assert t[i] == s[i + 1] && t[j] == s[j + 1];
    }
  }

  /** Putting in front an element that sorts no later than a sorted
      sequence keeps it sorted. */
  lemma ConsSorted<T>(le: (T, T) -> bool, h: T, t: seq<T>)
    requires SortedBy(le, t) && AllAbove(le, h, t)
    ensures SortedBy(le, [h] + t)
  {
    var r := [h] + t;
    forall i, j | 0 <= i < j < |r|
      ensures le(r[i], r[j])
    {
      assert r[j] == t[j - 1];
      if i > 0 {
        assert r[i] == t[i - 1];
      }
    }
  }

  /** Inserting an element that `h` sorts no later than keeps `h` below
      the whole. */
  lemma {:induction false} InsertByAbove<T>(le: (T, T) -> bool, h: T, x: T, s: seq<T>)
    requires AllAbove(le, h, s) && le(h, x)
    ensures AllAbove(le, h, InsertBy(le, x, s))
  {
    var r := InsertBy(le, x, s);
    if |s| == 0 {
    } else if le(x, s[0]) {
      assert r == [x] + s;
      forall k | 0 < k < |r|
        ensures le(h, r[k])
      {
        assert r[k] == s[k - 1];
      }
    } else {
      var t := s[1..];
      assert AllAbove(le, h, t) by {
        forall k | 0 <= k < |t|
          ensures le(h, t[k])
        {
          assert t[k] == s[k + 1];
        }
      }
      InsertByAbove(le, h, x, t);
      var r' := InsertBy(le, x, t);
      assert r == [s[0]] + r';
      forall k | 0 < k < |r|
        ensures le(h, r[k])
      {
        assert r[k] == r'[k - 1];
      }
    }
  }

  function SortBy<T(!new)>(le: (T, T) -> bool, s: seq<T>): (r: seq<T>)
    requires TotalPreorder(le)
    ensures multiset(r) == multiset(s)
    ensures SortedBy(le, r)
  {
    if |s| == 0 then []
    else
      assert s == [s[0]] + s[1..];
      var rest := SortBy(le, s[1..]);
      InsertBySorted(le, s[0], rest);
      InsertBy(le, s[0], rest)
  }

  /** `ids.sort()` on an array of numbers. */
  function SortNums(s: seq<int>): (r: seq<int>)
    ensures multiset(r) == multiset(s)
    ensures SortedBy(NumLe, r)
  {
    NumLeTotalPreorder();
    SortBy(NumLe, s)
  }

  /** Two sorted arrangements of the same numbers are the same sequence:
      the order is total and antisymmetric on distinct numbers because
      distinct numbers render differently. */
  lemma {:induction false} NumSortedUnique(a: seq<int>, b: seq<int>)
    requires SortedBy(NumLe, a) && SortedBy(NumLe, b)
    requires multiset(a) == multiset(b)
    ensures a == b
    decreases |a|
  {
    assert |b| == |multiset(b)| == |multiset(a)| == |a|;
    if |a| > 0 {
      SortedHeadsEqual(a, b);
      MultisetTail(a, b);
      SortedTail(a);
      SortedTail(b);
      NumSortedUnique(a[1..], b[1..]);
    }
  }

  /** Two sorted arrangements of the same numbers start alike. */
  lemma SortedHeadsEqual(a: seq<int>, b: seq<int>)
    requires SortedBy(NumLe, a) && SortedBy(NumLe, b)
    requires multiset(a) == multiset(b) && |a| > 0
    ensures |b| > 0 && a[0] == b[0]
  {
    assert a[0] in multiset(b);
    var k :| 0 <= k < |b| && b[k] == a[0];
    assert b[0] in multiset(a);
    var m :| 0 <= m < |a| && a[m] == b[0];
    if k > 0 && m > 0 {
      assert NumLe(b[0], b[k]);
      assert NumLe(a[0], a[m]);
      NumLeAntisym(a[0], b[0]);
    }
  }

  /** Removing equal heads from two permutations of each other leaves two
      permutations of each other. */
  lemma MultisetTail<T>(a: seq<T>, b: seq<T>)
    requires multiset(a) == multiset(b) && |a| > 0 && |b| > 0 && a[0] == b[0]
    ensures multiset(a[1..]) == multiset(b[1..])
  {
    assert a == [a[0]] + a[1..];
    assert b == [b[0]] + b[1..];
    assert multiset(a) == multiset([a[0]]) + multiset(a[1..]);
    assert multiset(b) == multiset([b[0]]) + multiset(b[1..]);
    assert multiset(a[1..]) == multiset(a) - multiset([a[0]]);
    assert multiset(b[1..]) == multiset(b) - multiset([b[0]]);
  }

  lemma SortedTail(s: seq<int>)
    requires SortedBy(NumLe, s) && |s| > 0
    ensures SortedBy(NumLe, s[1..])
  {
    forall i, j | 0 <= i < j < |s| - 1
      ensures NumLe(s[1..][i], s[1..][j])
    {
      assert s[1..][i] == s[i + 1] && s[1..][j] == s[j + 1];
    }
  }

  /** The default sort's result depends only on which numbers are sorted,
      not on the order they arrive in. */
  lemma SortNumsPermutationInvariant(a: seq<int>, b: seq<int>)
    requires multiset(a) == multiset(b)
    ensures SortNums(a) == SortNums(b)
  {
    NumSortedUnique(SortNums(a), SortNums(b));
  }
}

=== FILE: match_cards.dfy ===
/** The booking counts shown next to a team (`getTeamCards`, written out
    identically in the results tab and the match drawer) and the small card
    badge of the results tab (`TeamCards`). */
module MatchCards {
  import opened Basics
  import opened Seqs
  import opened Domain

  const YellowCard: string := "YELLOW_CARD"
  const RedCard: string := "RED_CARD"

  datatype Cards = Cards(yellow: nat, red: nat)

  /** `b.team.id === teamId && b.card === card`; a null id equals a null id. */
  function IsCardOf(teamId: Option<int>, card: string): Booking -> bool {
    (b: Booking) => b.teamId == teamId && b.card == card
  }

  /** Number of elements of `s` satisfying `p`: the reference count. */
  function Count<T>(p: T -> bool, s: seq<T>): nat {
    if |s| == 0 then 0 else (if p(s[0]) then 1 else 0) + Count(p, s[1..])
  }

  lemma {:induction false} FilterCount<T>(p: T -> bool, s: seq<T>)
    ensures |Filter(p, s)| == Count(p, s)
  {
    if |s| > 0 {
      FilterCount(p, s[1..]);
    }
  }

  /** Two predicates that no element satisfies together count no more than
      the sequence holds. */
  lemma {:induction false} DisjointCounts<T>(p: T -> bool, q: T -> bool, s: seq<T>)
    requires forall x :: x in s ==> !(p(x) && q(x))
    ensures Count(p, s) + Count(q, s) <= |s|
  {
    if |s| > 0 {
      assert s[0] in s;
      assert forall x :: x in s[1..] ==> x in s;
      DisjointCounts(p, q, s[1..]);
    }
  }

  /** `getTeamCards(match, teamId)`: no bookings (absent or empty) gives no
      cards; otherwise the team's yellow and red bookings are counted. */
  function TeamCards(m: Match, teamId: Option<int>): (c: Cards)
    ensures m.bookings.None? ==> c == Cards(0, 0)
    ensures m.bookings.Some? ==>
      c.yellow == Count(IsCardOf(teamId, YellowCard), m.bookings.value)
      && c.red == Count(IsCardOf(teamId, RedCard), m.bookings.value)
  {
    if m.bookings.None? || |m.bookings.value| == 0 then Cards(0, 0)
    else
      var bs := m.bookings.value;
      FilterCount(IsCardOf(teamId, YellowCard), bs);
      FilterCount(IsCardOf(teamId, RedCard), bs);
      Cards(|Filter(IsCardOf(teamId, YellowCard), bs)|, |Filter(IsCardOf(teamId, RedCard), bs)|)
  }

  /** A booking is of one colour and one team, so the cards of both sides
      together never exceed the bookings; one side's alone neither. */
  lemma CardsBounded(m: Match)
    requires m.homeTeam.id != m.awayTeam.id
    ensures var h := TeamCards(m, m.homeTeam.id);
      var a := TeamCards(m, m.awayTeam.id);
      && (m.bookings.Some? ==> h.yellow + h.red <= |m.bookings.value|)
      && (m.bookings.Some? ==> h.yellow + h.red + a.yellow + a.red <= |m.bookings.value|)
  {
    if m.bookings.Some? {
      var bs := m.bookings.value;
      var hy, hr := IsCardOf(m.homeTeam.id, YellowCard), IsCardOf(m.homeTeam.id, RedCard);
      var ay, ar := IsCardOf(m.awayTeam.id, YellowCard), IsCardOf(m.awayTeam.id, RedCard);
      var home, away := Either(hy, hr), Either(ay, ar);
      DisjointCounts(hy, hr, bs);
      DisjointCounts(home, away, bs);
      SplitCount(hy, hr, bs);
      SplitCount(ay, ar, bs);
    }
  }

  function Either<T>(p: T -> bool, q: T -> bool): T -> bool {
    (x: T) => p(x) || q(x)
  }

  /** Counting two exclusive predicates separately is counting their union. */
  lemma {:induction false} SplitCount<T>(p: T -> bool, q: T -> bool, s: seq<T>)
    requires forall x :: x in s ==> !(p(x) && q(x))
    ensures Count(p, s) + Count(q, s) == Count(Either(p, q), s)
  {
    if |s| > 0 {
      assert s[0] in s;
      assert forall x :: x in s[1..] ==> x in s;
      SplitCount(p, q, s[1..]);
    }
  }

  /** One badge of `TeamCards`: the number appears only above one. */
  datatype Badge = Badge(number: Option<nat>)

  datatype CardsView = Hidden | Shown(yellow: Option<Badge>, red: Option<Badge>)

  function BadgeFor(n: nat): (b: Option<Badge>)
    ensures b.Some? <==> n > 0
    ensures b.Some? ==> (b.value.number.Some? <==> n > 1)
    ensures b.Some? && b.value.number.Some? ==> b.value.number.value == n
  {
    if n > 0 then Some(Badge(if n > 1 then Some(n) else None)) else None
  }

  /** The `TeamCards` component: nothing when there are no cards, otherwise
      a badge per colour that occurs. */
  function CardsBadges(c: Cards): (v: CardsView)
    ensures v.Hidden? <==> c.yellow == 0 && c.red == 0
    ensures v.Shown? ==> v.yellow == BadgeFor(c.yellow) && v.red == BadgeFor(c.red)
  {
    if c.yellow == 0 && c.red == 0 then Hidden
    else Shown(BadgeFor(c.yellow), BadgeFor(c.red))
  }

  /** A team without bookings in a match shows no badge. */
  lemma NoBookingsNoBadge(m: Match, teamId: Option<int>)
    requires m.bookings.None? || |m.bookings.value| == 0
    ensures CardsBadges(TeamCards(m, teamId)) == Hidden
  {
  }
}

=== FILE: match_drawer.dfy ===
/** The match detail modal (`match_drawer.tsx`): what it shows for a match,
    as data rather than markup. Translated labels are named by their
    translation key. */
module MatchDrawer {
  import opened Basics
  import opened Seqs
  import opened Domain
  import opened MatchCards

  /** One side of the full-time score: "-" while it is null, otherwise the
      number. Reading the text back recovers the score, so the two cases
      can never be confused. */
  function ScoreText(v: Option<int>): (s: string)
    ensures ReadInt(s) == v
    ensures v.Some? ==> s == IntToString(v.value)
  {
    match v
    case None => "-"
    case Some(n) =>
      IntToStringRoundTrip(n);
      IntToString(n)
  }

  /** The half-time line `(h:a)`, shown only when both halves are known. */
  function HalfTime(score: Score): (r: Option<(int, int)>)
    ensures r.Some? <==> score.halfTime.home.Some? && score.halfTime.away.Some?
    ensures r.Some? ==> r.value == (score.halfTime.home.value, score.halfTime.away.value)
  {
    if score.halfTime.home.Some? && score.halfTime.away.Some? then
      Some((score.halfTime.home.value, score.halfTime.away.value))
    else None
  }

  /** The status badge: four statuses have a translated label, every other
      status (SCHEDULED included) is shown as the API spells it. */
  datatype StatusLabel = Finished | Live | Halftime | Scheduled | Raw(status: string)

  const LabelledStatuses: set<string> := {"FINISHED", "IN_PLAY", "PAUSED", "TIMED"}

  function StatusLabelOf(status: string): (l: StatusLabel)
    ensures l.Raw? <==> status !in LabelledStatuses
    ensures l.Raw? ==> l.status == status
    ensures l == Finished <==> status == "FINISHED"
    ensures l == Live <==> status == "IN_PLAY"
    ensures l == Halftime <==> status == "PAUSED"
    ensures l == Scheduled <==> status == "TIMED"
  {
    if status == "FINISHED" then Finished
    else if status == "IN_PLAY" then Live
    else if status == "PAUSED" then Halftime
    else if status == "TIMED" then Scheduled
    else Raw(status)
  }

  /** The badge determines the status: no two statuses are shown alike. */
  lemma StatusLabelInjective(a: string, b: string)
    requires StatusLabelOf(a) == StatusLabelOf(b)
    ensures a == b
  {
  }

  /** Which edge an event row is aligned to. */
  datatype Side = HomeSide | AwaySide

  /** `event.team.id === match.homeTeam.id ? 'flex-row' : 'flex-row-reverse'`. */
  function SideOf(eventTeamId: Option<int>, homeTeamId: Option<int>): (s: Side)
    ensures s == HomeSide <==> eventTeamId == homeTeamId
  {
    if eventTeamId == homeTeamId then HomeSide else AwaySide
  }

  datatype GoalRow = GoalRow(side: Side, scorer: string, assist: Option<string>, minute: int)

  datatype BookingRow = BookingRow(side: Side, yellow: bool, player: string, minute: int)

  function GoalRowOf(homeTeamId: Option<int>): Goal -> GoalRow {
    (g: Goal) => GoalRow(SideOf(g.teamId, homeTeamId), g.scorer, g.assist, g.minute)
  }

  /** A booking shows the yellow icon and style only for YELLOW_CARD; every
      other card value is drawn red. */
  function BookingRowOf(homeTeamId: Option<int>): Booking -> BookingRow {
    (b: Booking) => BookingRow(SideOf(b.teamId, homeTeamId), b.card == YellowCard, b.playerName, b.minute)
  }

  /** The goal list: one row per goal, in the match's order, on the home
      side exactly when the goal's team is the home team. */
  function GoalRows(homeTeamId: Option<int>, goals: seq<Goal>): (rows: seq<GoalRow>)
    ensures |rows| == |goals|
    ensures forall i :: 0 <= i < |rows| ==>
      && rows[i].scorer == goals[i].scorer
      && rows[i].assist == goals[i].assist
      && rows[i].minute == goals[i].minute
      && (rows[i].side == HomeSide <==> goals[i].teamId == homeTeamId)
  {
    Map(GoalRowOf(homeTeamId), goals)
  }

  /** The booking list: one row per booking, in the match's order, yellow
      exactly for YELLOW_CARD and on the home side exactly for the home
      team. */
  function BookingRows(homeTeamId: Option<int>, bookings: seq<Booking>): (rows: seq<BookingRow>)
    ensures |rows| == |bookings|
    ensures forall i :: 0 <= i < |rows| ==>
      && rows[i].player == bookings[i].playerName
      && rows[i].minute == bookings[i].minute
      && (rows[i].yellow <==> bookings[i].card == YellowCard)
      && (rows[i].side == HomeSide <==> bookings[i].teamId == homeTeamId)
  {
    Map(BookingRowOf(homeTeamId), bookings)
  }

  /** The cards block under a team name: shown when the team has a card of
      either colour, each colour with its count. */
  datatype CardBlock = CardBlock(yellow: Option<nat>, red: Option<nat>)

  function CardBlockOf(c: Cards): (b: Option<CardBlock>)
    ensures b.None? <==> c.yellow == 0 && c.red == 0
    ensures b.Some? ==> (b.value.yellow.Some? <==> c.yellow > 0) && (b.value.red.Some? <==> c.red > 0)
    ensures b.Some? && b.value.yellow.Some? ==> b.value.yellow.value == c.yellow
    ensures b.Some? && b.value.red.Some? ==> b.value.red.value == c.red
  {
    if c.yellow > 0 || c.red > 0 then
      Some(CardBlock(if c.yellow > 0 then Some(c.yellow) else None, if c.red > 0 then Some(c.red) else None))
    else None
  }

  /** `t('matches.matchday', { number: match.matchday || '-' })`. */
  function MatchdayText(matchday: Option<int>): (s: string)
    ensures s == "-" <==> matchday.None? || matchday.value == 0
    ensures matchday.Some? && matchday.value != 0 ==> ReadInt(s) == matchday && s == IntToString(matchday.value)
  {
    if matchday.None? || matchday.value == 0 then "-"
    else
      IntToStringRoundTrip(matchday.value);
      IntToString(matchday.value)
  }

  datatype Drawer = Drawer(
    matchday: string,
    homeCrest: Option<string>,
    awayCrest: Option<string>,
    homeCards: Option<CardBlock>,
    awayCards: Option<CardBlock>,
    score: (string, string),
    halfTime: Option<(int, int)>,
    status: StatusLabel,
    goals: seq<GoalRow>,
    bookings: seq<BookingRow>,
    referee: Option<string>)

  function NonEmpty<T>(s: Option<seq<T>>): seq<T> {
    if s.Some? then s.value else []
  }

  /** A crest image is drawn only for a non-empty crest URL. */
  function Crest(url: string): Option<string> {
    if url != "" then Some(url) else None
  }

  /** The drawer: nothing while closed or without a match; otherwise the
      score reads back as the full-time score, the card blocks are the
      counted bookings, and the goal and booking lists are empty when the
      match has none. */
  function Render(isOpen: bool, m: Option<Match>): (d: Option<Drawer>)
    ensures d.Some? <==> isOpen && m.Some?
    ensures d.Some? ==> var x := m.value;
      && (d.value.referee.Some? <==> x.referees.Some? && |x.referees.value| > 0)
      && (d.value.referee.Some? ==> d.value.referee.value == x.referees.value[0])
      && d.value.homeCards == CardBlockOf(TeamCards(x, x.homeTeam.id))
      && d.value.awayCards == CardBlockOf(TeamCards(x, x.awayTeam.id))
      && ReadInt(d.value.score.0) == x.score.fullTime.home
      && ReadInt(d.value.score.1) == x.score.fullTime.away
      && d.value.score == (ScoreText(x.score.fullTime.home), ScoreText(x.score.fullTime.away))
    ensures d.Some? ==> var x := m.value;
      && d.value.goals == GoalRows(x.homeTeam.id, NonEmpty(x.goals))
      && d.value.bookings == BookingRows(x.homeTeam.id, NonEmpty(x.bookings))
    ensures d.Some? ==> var x := m.value;
      && d.value.matchday == MatchdayText(x.matchday)
      && d.value.halfTime == HalfTime(x.score)
      && d.value.status == StatusLabelOf(x.status)
      && (d.value.homeCrest.Some? <==> x.homeTeam.crest != "")
      && (d.value.awayCrest.Some? <==> x.awayTeam.crest != "")
  {
    if !isOpen || m.None? then None
    else
      var x := m.value;
      Some(Drawer(
        MatchdayText(x.matchday),
        Crest(x.homeTeam.crest),
        Crest(x.awayTeam.crest),
        CardBlockOf(TeamCards(x, x.homeTeam.id)),
        CardBlockOf(TeamCards(x, x.awayTeam.id)),
        (ScoreText(x.score.fullTime.home), ScoreText(x.score.fullTime.away)),
        HalfTime(x.score),
        StatusLabelOf(x.status),
        GoalRows(x.homeTeam.id, NonEmpty(x.goals)),
        BookingRows(x.homeTeam.id, NonEmpty(x.bookings)),
        if x.referees.Some? && |x.referees.value| > 0 then Some(x.referees.value[0]) else None))
  }
}

=== FILE: player_card.dfy ===
/** The player card (`player_card.tsx`): the avatar initials, the age from
    the birth date, and the flag and position badge lookups. Dates are
    given already split into year, month and day (the card's `new Date`
    parsing and the current date are parameters). */
module PlayerCard {
  import opened Basics
  import opened Seqs

  // ---------------------------------------------------------------------
  // Initials

  /** What `part[0]` interpolates to in a template string: the first
      character, or the text "undefined" for an empty part. */
  function FirstOrUndefined(part: string): string {
    if |part| > 0 then [part[0]] else "undefined"
  }

  /** `${first[0]}${last[0]}`, upper-cased. */
  function EndLetters(first: string, last: string): (r: string)
    ensures |first| > 0 && |last| > 0 ==> |r| == 2 && r == ToUpper([first[0], last[0]])
  {
    assert |first| > 0 && |last| > 0 ==> FirstOrUndefined(first) + FirstOrUndefined(last) == [first[0], last[0]];
    ToUpper(FirstOrUndefined(first) + FirstOrUndefined(last))
  }

  /** `getInitials(name)` as written: with at least two space-separated
      parts, the first character of the first and of the last part, else
      the first two characters; upper-cased. An empty first or last part
      (a leading or trailing space) contributes "undefined". */
  function InitialsAsWritten(name: string): (r: string)
    ensures var parts := Split(name, ' ');
      && (|parts| >= 2 && |parts[0]| > 0 && |parts[|parts| - 1]| > 0 ==>
            r == ToUpper([parts[0][0], parts[|parts| - 1][0]]))
      && (|parts| < 2 ==> r == ToUpper(Slice0(name, 2)))
  {
    var parts := Split(name, ' ');
    if |parts| >= 2 then EndLetters(parts[0], parts[|parts| - 1])
    else ToUpper(Slice0(name, 2))
  }

  /** A name with a trailing space gets ten letters of initials: "Ab " is
      split into "Ab" and "", and the empty last part reads as
      "undefined". */
  lemma InitialsAsWrittenTrailingSpace()
    ensures |InitialsAsWritten("Ab ")| == 10
  {
    WordThenSpace("Ab");
    assert "Ab" + [' '] == "Ab ";
  }

  /** One space-free word followed by a space: the last part is empty, so
      the initials are the word's first letter and "undefined", ten
      characters instead of at most two. */
  lemma WordThenSpace(word: string)
    requires |word| > 0 && ' ' !in word
    ensures InitialsAsWritten(word + [' ']) == ToUpper([word[0]] + "undefined")
    ensures |InitialsAsWritten(word + [' '])| == 10
  {
    var empty: string := [];
    SplitHeadFree(word, empty, ' ');
    assert word + [' '] + empty == word + [' '];
    assert Split(empty, ' ') == [empty];
    assert Split(word + [' '], ' ') == [word, empty];
  }

  predicate NonEmptyPart(part: string) { |part| > 0 }

  /** The initials as evidently intended: the first characters of the first
      and last words, ignoring the empty parts that extra spaces produce;
      the first two characters of the only word; nothing for no word. */
  function Initials(name: string): (r: string)
    ensures |r| <= 2
  {
    var words := Filter(NonEmptyPart, Split(name, ' '));
    if |words| >= 2 then
      assert words[0] in words && words[|words| - 1] in words;
      EndLetters(words[0], words[|words| - 1])
    else if |words| == 1 then ToUpper(Slice0(words[0], 2))
    else ""
  }

  /** Whenever the first and last parts are non-empty (no leading or
      trailing space) the intended initials are what the card computes. */
  lemma InitialsAgreeWithoutEdgeSpaces(name: string)
    requires var parts := Split(name, ' ');
      |parts[0]| > 0 && |parts[|parts| - 1]| > 0
    ensures Initials(name) == InitialsAsWritten(name)
  {
    if |Split(name, ' ')| >= 2 {
      AgreeOnSeveralParts(name);
    } else {
      AgreeOnOnePart(name);
    }
  }

  lemma AgreeOnSeveralParts(name: string)
    requires var parts := Split(name, ' ');
      |parts| >= 2 && |parts[0]| > 0 && |parts[|parts| - 1]| > 0
    ensures Initials(name) == InitialsAsWritten(name)
  {
    var parts := Split(name, ' ');
    var first, last := parts[0], parts[|parts| - 1];
    WordEndsArePartEnds(parts);
    assert InitialsAsWritten(name) == EndLetters(first, last);
    assert Initials(name) == EndLetters(first, last);
  }

  /** Dropping the empty parts keeps non-empty first and last parts at the
      ends. */
  lemma WordEndsArePartEnds(parts: seq<string>)
    requires |parts| >= 2 && |parts[0]| > 0 && |parts[|parts| - 1]| > 0
    ensures var words := Filter(NonEmptyPart, parts);
      |words| >= 2 && words[0] == parts[0] && words[|words| - 1] == parts[|parts| - 1]
  {
    assert NonEmptyPart(parts[0]) && NonEmptyPart(parts[|parts| - 1]);
    FilterEnds(NonEmptyPart, parts);
  }

  lemma AgreeOnOnePart(name: string)
    requires |Split(name, ' ')| < 2 && |Split(name, ' ')[0]| > 0
    ensures Initials(name) == InitialsAsWritten(name)
  {
    var parts := Split(name, ' ');
    assert parts == [parts[0]];
    assert Filter(NonEmptyPart, parts) == [parts[0]] by {
      assert parts[1..] == [];
    }
    JoinSplit(name, ' ');
  }

  /** Filtering keeps the first and the last element when both pass. */
  lemma FilterEnds<T>(p: T -> bool, s: seq<T>)
    requires |s| >= 2 && p(s[0]) && p(s[|s| - 1])
    ensures var f := Filter(p, s); |f| >= 2 && f[0] == s[0] && f[|f| - 1] == s[|s| - 1]
  {
    var mid := s[1..|s| - 1];
    EndsSplit(s);
    FilterConcat(p, [s[0]] + mid, [s[|s| - 1]]);
    FilterConcat(p, [s[0]], mid);
    FilterSingleton(p, s[0]);
    FilterSingleton(p, s[|s| - 1]);
  }

  // ---------------------------------------------------------------------
  // Age

  datatype Date = Date(year: int, month: int, day: int)

  /** Calendar order on (year, month, day). */
  predicate OnOrBefore(a: Date, b: Date) {
    a.year < b.year
    || (a.year == b.year && a.month < b.month)
    || (a.year == b.year && a.month == b.month && a.day <= b.day)
  }

  /** The `k`-th birthday. */
  function Anniversary(birth: Date, k: int): Date {
    Date(birth.year + k, birth.month, birth.day)
  }

  /** `calculateAge(dateOfBirth)`: the difference of the years, one less
      when today's (month, day) comes before the birthday's. That is the
      number of birthdays passed: the `age`-th birthday is on or before
      today and the next one is after it. */
  function Age(birth: Date, today: Date): (age: int)
    ensures OnOrBefore(Anniversary(birth, age), today)
    ensures !OnOrBefore(Anniversary(birth, age + 1), today)
  {
    var years := today.year - birth.year;
    var monthDiff := today.month - birth.month;
    if monthDiff < 0 || (monthDiff == 0 && today.day < birth.day) then years - 1 else years
  }

  /** On a birthday the age is exactly the difference of the years. */
  lemma AgeOnBirthday(birth: Date, k: int)
    ensures Age(birth, Anniversary(birth, k)) == k
  {
  }

  /** Age never decreases as time passes. */
  lemma AgeMonotone(birth: Date, d1: Date, d2: Date)
    requires OnOrBefore(d1, d2)
    ensures Age(birth, d1) <= Age(birth, d2)
  {
  }

  // ---------------------------------------------------------------------
  // Lookups

  const Globe: string := "\U{1F30D}"

  /** The nationality flags the card knows. */
  const CountryFlags: map<string, string> := map[
    "Germany" := "\U{1F1E9}\U{1F1EA}",
    "England" := "\U{1F3F4}\U{E0067}\U{E0062}\U{E0065}\U{E006E}\U{E0067}\U{E007F}",
    "Spain" := "\U{1F1EA}\U{1F1F8}",
    "France" := "\U{1F1EB}\U{1F1F7}",
    "Italy" := "\U{1F1EE}\U{1F1F9}",
    "Portugal" := "\U{1F1F5}\U{1F1F9}",
    "Brazil" := "\U{1F1E7}\U{1F1F7}",
    "Argentina" := "\U{1F1E6}\U{1F1F7}",
    "Netherlands" := "\U{1F1F3}\U{1F1F1}",
    "Belgium" := "\U{1F1E7}\U{1F1EA}",
    "Croatia" := "\U{1F1ED}\U{1F1F7}",
    "Poland" := "\U{1F1F5}\U{1F1F1}",
    "Denmark" := "\U{1F1E9}\U{1F1F0}",
    "Sweden" := "\U{1F1F8}\U{1F1EA}",
    "Norway" := "\U{1F1F3}\U{1F1F4}",
    "Austria" := "\U{1F1E6}\U{1F1F9}",
    "Switzerland" := "\U{1F1E8}\U{1F1ED}",
    "Serbia" := "\U{1F1F7}\U{1F1F8}",
    "Ukraine" := "\U{1F1FA}\U{1F1E6}",
    "Turkey" := "\U{1F1F9}\U{1F1F7}",
    "Morocco" := "\U{1F1F2}\U{1F1E6}",
    "Senegal" := "\U{1F1F8}\U{1F1F3}",
    "Uruguay" := "\U{1F1FA}\U{1F1FE}",
    "Colombia" := "\U{1F1E8}\U{1F1F4}",
    "Mexico" := "\U{1F1F2}\U{1F1FD}",
    "Japan" := "\U{1F1EF}\U{1F1F5}",
    "Korea Republic" := "\U{1F1F0}\U{1F1F7}",
    "Russia" := "\U{1F1F7}\U{1F1FA}",
    "Ecuador" := "\U{1F1EA}\U{1F1E8}"]

  /** `countryFlags[nationality] || '🌍'`. */
  function FlagOf(nationality: string): (flag: string)
    ensures nationality in CountryFlags ==> flag == CountryFlags[nationality]
    ensures nationality !in CountryFlags ==> flag == Globe
  {
    if nationality in CountryFlags && CountryFlags[nationality] != "" then CountryFlags[nationality] else Globe
  }

  /** The globe marks exactly the unknown nationalities: no known country
      is shown with it. */
  lemma GlobeOnlyForUnknown(nationality: string)
    ensures FlagOf(nationality) == Globe <==> nationality !in CountryFlags
  {
    if nationality in CountryFlags {
      var f := CountryFlags[nationality];
      assert f[0] != '\U{1F30D}';
    }
  }

  /** The badge colour of a position; unknown positions are grey. */
  datatype Tone = Yellow | Blue | Green | Purple | Red | Gray

  const PositionTones: map<string, Tone> := map[
    "Goalkeeper" := Yellow,
    "Centre-Back" := Blue,
    "Left-Back" := Blue,
    "Right-Back" := Blue,
    "Defence" := Blue,
    "Defensive Midfield" := Green,
    "Central Midfield" := Green,
    "Attacking Midfield" := Purple,
    "Midfield" := Green,
    "Left Winger" := Red,
    "Right Winger" := Red,
    "Centre-Forward" := Red,
    "Offence" := Red]

  /** `positionColors[position] || grey`. */
  function ToneOf(position: string): (t: Tone)
    ensures t == Gray <==> position !in PositionTones
    ensures position in PositionTones ==> t == PositionTones[position]
  {
    if position in PositionTones then PositionTones[position] else Gray
  }

  /** The defenders' positions are all blue and the forwards' all red. */
  lemma LinesShareTones()
    ensures forall p :: p in {"Centre-Back", "Left-Back", "Right-Back", "Defence"} ==> ToneOf(p) == Blue
    ensures forall p :: p in {"Left Winger", "Right Winger", "Centre-Forward", "Offence"} ==> ToneOf(p) == Red
  {
  }
}

=== FILE: player_loader.dfy ===
/** The route loaders of `player.loader.server.ts`: load players through the
    player service and seed the query cache.

    The service's `getPlayerById` is an input that resolves to a player or
    `undefined`, or rejects; the mock-backed service never rejects
    (`MockService`). The cache holds single players under
    `['player', id]` and the full list under `['players']`. */
module PlayerLoader {
  import opened Basics
  import opened Domain
  import opened QueryKeys
  import opened QueryCache
  import opened PlayersMock
  import opened PlayerService

  datatype PlayerData = One(player: MockPlayer) | All(players: seq<MockPlayer>)

  datatype LoadError<E> = PlayerIdRequired | ServiceFailed(error: E) | NotExported(name: string)

  /** One loader run: the cache after it, its result, and how many service
      calls it made. */
  datatype Run<T, E> = Run(cache: Cache<PlayerData>, result: Result<T, LoadError<E>>, calls: nat)

  function AsData(p: Option<MockPlayer>): Option<PlayerData> {
    match p
    case None => None
    case Some(x) => Some(One(x))
  }

  /** `loadPlayer(playerId)`: fetch, cache under `['player', id]`, return.
      A player the service does not know comes back `undefined`, and
      writing `undefined` leaves the cache as it was. */
  function LoadPlayer<E>(c: Cache<PlayerData>, id: string, getPlayerById: string -> Result<Option<MockPlayer>, E>)
    : (r: Run<Option<PlayerData>, E>)
    ensures r.calls == 1
    ensures r.result.Err? <==> getPlayerById(id).Err?
    ensures r.result.Err? ==> r.cache == c && r.result.error == ServiceFailed(getPlayerById(id).error)
    ensures r.result.Ok? ==> SameExcept(c, r.cache, {PlayerKey(id)})
    ensures r.result.Ok? && r.result.value.Some? ==> CachedData(r.cache, PlayerKey(id)) == r.result.value
    ensures r.result.Ok? && r.result.value.None? ==> r.cache == c
  {
    match getPlayerById(id)
    case Err(e) => Run(c, Err(ServiceFailed(e)), 1)
    case Ok(found) => Run(SetQueryData(c, PlayerKey(id), AsData(found)), Ok(AsData(found)), 1)
  }

  /** `loadPlayerWithValidation(playerId)`: an empty id is rejected before
      the cache or the service is touched; a truthy cached value is
      returned without a service call; otherwise `loadPlayer`. */
  function LoadPlayerWithValidation<E>(c: Cache<PlayerData>, id: string, getPlayerById: string -> Result<Option<MockPlayer>, E>)
    : (r: Run<Option<PlayerData>, E>)
    ensures id == "" ==> r == Run(c, Err(PlayerIdRequired), 0)
    ensures id != "" && CachedData(c, PlayerKey(id)).Some? ==> r == Run(c, Ok(CachedData(c, PlayerKey(id))), 0)
    ensures id != "" && CachedData(c, PlayerKey(id)).None? ==>
      && r.calls == 1
      && (r.result.Err? <==> getPlayerById(id).Err?)
      && (r.result.Err? ==> r.result.error == ServiceFailed(getPlayerById(id).error))
      && (r.result.Ok? ==> r.result.value == AsData(getPlayerById(id).value) && SameExcept(c, r.cache, {PlayerKey(id)}))
      && (r.result.Ok? && r.result.value.None? ==> r.cache == c)
    ensures r.result.Ok? && r.result.value.Some? ==> CachedData(r.cache, PlayerKey(id)) == r.result.value
    ensures r.result.Err? ==> r.cache == c
  {
    if id == "" then Run(c, Err(PlayerIdRequired), 0)
    else match CachedData(c, PlayerKey(id))
      case Some(d) => Run(c, Ok(Some(d)), 0)
      case None => LoadPlayer(c, id, getPlayerById)
  }

  /** The player service over a dataset. */
  function MockService(ps: seq<MockPlayer>): string -> Result<Option<MockPlayer>, string> {
    (id: string) => Ok(GetPlayerById(ps, id))
  }

  /** With the mock service, an unknown id is never cached, so every
      validated load of it asks the service again; a known id is cached and
      its second load makes no call. */
  lemma MockLoadCachesOnlyKnownPlayers(c: Cache<PlayerData>, ps: seq<MockPlayer>, id: string)
    requires id != "" && CachedData(c, PlayerKey(id)).None?
    ensures var r1 := LoadPlayerWithValidation(c, id, MockService(ps));
      var r2 := LoadPlayerWithValidation(r1.cache, id, MockService(ps));
      && ((forall i :: 0 <= i < |ps| ==> ps[i].id != id) ==> r1.cache == c && r2.calls == 1)
      && ((exists i :: 0 <= i < |ps| && ps[i].id == id) ==> r2.calls == 0 && r2.result == r1.result)
  {
  }

  // ---------------------------------------------------------------------
  // loadPlayers and the binding it imports

  /** The names `player.service.ts` exports. */
  const ServiceExports: set<string> := {"getAllPlayers", "getPlayerById", "searchPlayers", "getPlayersByTeam", "getTopPlayers"}

  /** What calling a service export with no arguments resolves to, for the
      exports that return a list that way; `None` for any other name. */
  function CallListExport(ps: seq<MockPlayer>, name: string): (r: Option<seq<MockPlayer>>)
    ensures r.Some? ==> name in ServiceExports
  {
    if name == "getAllPlayers" then Some(ps)
    else if name == "getTopPlayers" then Some(GetTopPlayers(ps, None))
    else None
  }

  /** A `loadPlayers` that calls the service export `name` and caches its
      result under `['players']`. */
  function LoadPlayersVia(c: Cache<PlayerData>, ps: seq<MockPlayer>, name: string): (r: Run<seq<MockPlayer>, string>)
    ensures r.result.Err? ==> r.cache == c
    ensures r.result.Ok? ==> CachedData(r.cache, PlayersKey) == Some(All(r.result.value)) && SameExcept(c, r.cache, {PlayersKey})
  {
    match CallListExport(ps, name)
    case None => Run(c, Err(NotExported(name)), 0)
    case Some(list) => Run(SetQueryData(c, PlayersKey, Some(All(list))), Ok(list), 1)
  }

  /** `loadPlayers()` as written: it calls the imported `getPlayers`. */
  function LoadPlayersAsWritten(c: Cache<PlayerData>, ps: seq<MockPlayer>): Run<seq<MockPlayer>, string> {
    LoadPlayersVia(c, ps, "getPlayers")
  }

  /** The service exports no `getPlayers`, so `loadPlayers` as written can
      never succeed and never seeds `['players']`. */
  lemma LoadPlayersAsWrittenNeverLoads(c: Cache<PlayerData>, ps: seq<MockPlayer>)
    ensures "getPlayers" !in ServiceExports
    ensures LoadPlayersAsWritten(c, ps).result == Err(NotExported("getPlayers"))
    ensures LoadPlayersAsWritten(c, ps).cache == c
  {
  }

  /** `loadPlayers()` calling `getAllPlayers`, the export evidently meant:
      the whole dataset is returned and cached under `['players']`, and no
      other entry changes. */
  function LoadPlayers(c: Cache<PlayerData>, ps: seq<MockPlayer>): (r: Run<seq<MockPlayer>, string>)
    ensures r.result == Ok(ps)
    ensures CachedData(r.cache, PlayersKey) == Some(All(ps))
    ensures SameExcept(c, r.cache, {PlayersKey})
  {
    LoadPlayersVia(c, ps, "getAllPlayers")
  }
}

=== FILE: player_service.dfy ===
/** `player.service.ts`: the player service, backed by the mock dataset.
    `getAllPlayers` returns the dataset itself and `getPlayerById` and
    `getPlayersByTeam` are the dataset lookups of `PlayersMock`; the
    simulated network delay is not modelled. */
module PlayerService {
  import opened Basics
  import opened Seqs
  import opened Domain
  import opened PlayersMock

  /** `name.toLowerCase().includes(query.toLowerCase())`. */
  predicate NameMatches(p: MockPlayer, query: string) {
    Contains(ToLower(p.name), ToLower(query))
  }

  function MatchesQuery(query: string): MockPlayer -> bool { (p: MockPlayer) => NameMatches(p, query) }

  /** `searchPlayers(query)`: the players whose name contains the query,
      ignoring case, in dataset order. */
  function SearchPlayers(ps: seq<MockPlayer>, query: string): (r: seq<MockPlayer>)
    ensures forall p :: p in r <==> p in ps && Contains(ToLower(p.name), ToLower(query))
    ensures multiset(r) <= multiset(ps)
  {
    Filter(MatchesQuery(query), ps)
  }

  /** The matches follow the dataset's order. */
  lemma SearchKeepsOrder(a: seq<MockPlayer>, b: seq<MockPlayer>, query: string)
    ensures SearchPlayers(a + b, query) == SearchPlayers(a, query) + SearchPlayers(b, query)
  {
    FilterConcat(MatchesQuery(query), a, b);
  }

  /** The empty query matches every player. */
  lemma EmptySearchMatchesAll(ps: seq<MockPlayer>)
    ensures SearchPlayers(ps, "") == ps
  {
    forall p | p in ps
      ensures MatchesQuery("")(p)
    {
      EmptyIsContained(ToLower(p.name));
    }
    FilterAll(MatchesQuery(""), ps);
  }

  lemma LowerOfUpper(s: string)
    ensures ToLower(ToUpper(s)) == ToLower(s)
  {
  }

  lemma LowerIdempotent(s: string)
    ensures ToLower(ToLower(s)) == ToLower(s)
  {
  }

  /** The case of the query does not matter. */
  lemma SearchIgnoresQueryCase(ps: seq<MockPlayer>, query: string)
    ensures SearchPlayers(ps, ToUpper(query)) == SearchPlayers(ps, query)
    ensures SearchPlayers(ps, ToLower(query)) == SearchPlayers(ps, query)
  {
    LowerOfUpper(query);
    LowerIdempotent(query);
    FilterSame(MatchesQuery(ToUpper(query)), MatchesQuery(query), ps);
    FilterSame(MatchesQuery(ToLower(query)), MatchesQuery(query), ps);
  }

  function Rating(p: MockPlayer): int { p.rating }

  /** `getTopPlayers(limit = 10)`: the first `limit` of a copy sorted by
      rating, highest first. */
  function GetTopPlayers(ps: seq<MockPlayer>, limit: Option<int>): (r: seq<MockPlayer>)
    ensures LimitOrDefault(limit) >= 0 ==> |r| == Min(LimitOrDefault(limit), |ps|)
    ensures NonIncreasing(Rating, r)
    ensures multiset(r) <= multiset(ps)
  {
    TopBy(Rating, ps, LimitOrDefault(limit))
  }

  /** No player left out of the top list is rated above the last one in it. */
  lemma TopPlayersRanked(ps: seq<MockPlayer>, limit: Option<int>)
    ensures var r := GetTopPlayers(ps, limit);
      |r| > 0 ==> forall p :: p in multiset(ps) - multiset(r) ==> p.rating <= r[|r| - 1].rating
  {
    if |GetTopPlayers(ps, limit)| > 0 {
      TopByExcludedRankLower(Rating, ps, LimitOrDefault(limit));
    }
  }
}

=== FILE: players_mock.dfy ===
/** `players.mock.ts`: lookups, filters and top-N lists over the bundled
    player dataset. The sorts run on a copy; a dataset here is an immutable
    sequence, so it is never reordered. */
module PlayersMock {
  import opened Basics
  import opened Seqs
  import opened Domain

  function PlayerHasId(id: string): MockPlayer -> bool { (p: MockPlayer) => p.id == id }

  function PlaysFor(teamId: string): MockPlayer -> bool { (p: MockPlayer) => p.teamId == teamId }

  function PlaysAs(position: Position): MockPlayer -> bool { (p: MockPlayer) => p.position == position }

  function ComesFrom(nationality: string): MockPlayer -> bool { (p: MockPlayer) => p.nationality == nationality }

  function Goals(p: MockPlayer): int { p.goals }

  function Assists(p: MockPlayer): int { p.assists }

  /** `getPlayerById(id)`: the first player with that id, or `undefined`. */
  function GetPlayerById(ps: seq<MockPlayer>, id: string): (r: Option<MockPlayer>)
    ensures r.None? <==> forall i :: 0 <= i < |ps| ==> ps[i].id != id
    ensures r.Some? ==> r.value.id == id
    ensures r.Some? ==> exists i :: 0 <= i < |ps| && ps[i] == r.value && forall j :: 0 <= j < i ==> ps[j].id != id
  {
    var r := Find(PlayerHasId(id), ps);
    assert r.Some? ==> PlayerHasId(id)(r.value);
    r
  }

  /** `getPlayersByTeam(teamId)`. */
  function GetPlayersByTeam(ps: seq<MockPlayer>, teamId: string): (r: seq<MockPlayer>)
    ensures forall p :: p in r <==> p in ps && p.teamId == teamId
    ensures multiset(r) <= multiset(ps)
  {
    Filter(PlaysFor(teamId), ps)
  }

  /** `getPlayersByPosition(position)`. */
  function GetPlayersByPosition(ps: seq<MockPlayer>, position: Position): (r: seq<MockPlayer>)
    ensures forall p :: p in r <==> p in ps && p.position == position
    ensures multiset(r) <= multiset(ps)
  {
    Filter(PlaysAs(position), ps)
  }

  /** `getPlayersByNationality(nationality)`. */
  function GetPlayersByNationality(ps: seq<MockPlayer>, nationality: string): (r: seq<MockPlayer>)
    ensures forall p :: p in r <==> p in ps && p.nationality == nationality
    ensures multiset(r) <= multiset(ps)
  {
    Filter(ComesFrom(nationality), ps)
  }

  /** The team, position and nationality lists follow the dataset's order:
      filtering a concatenation concatenates the filtered halves. */
  lemma ByTeamKeepsOrder(a: seq<MockPlayer>, b: seq<MockPlayer>, teamId: string)
    ensures GetPlayersByTeam(a + b, teamId) == GetPlayersByTeam(a, teamId) + GetPlayersByTeam(b, teamId)
  {
    FilterConcat(PlaysFor(teamId), a, b);
  }

  lemma ByPositionKeepsOrder(a: seq<MockPlayer>, b: seq<MockPlayer>, position: Position)
    ensures GetPlayersByPosition(a + b, position) == GetPlayersByPosition(a, position) + GetPlayersByPosition(b, position)
  {
    FilterConcat(PlaysAs(position), a, b);
  }

  lemma ByNationalityKeepsOrder(a: seq<MockPlayer>, b: seq<MockPlayer>, nationality: string)
    ensures GetPlayersByNationality(a + b, nationality)
         == GetPlayersByNationality(a, nationality) + GetPlayersByNationality(b, nationality)
  {
    FilterConcat(ComesFrom(nationality), a, b);
  }

  /** A `limit = 10` parameter: `undefined` takes the default. */
  function LimitOrDefault(limit: Option<int>): (n: int)
    ensures limit.None? ==> n == 10
    ensures limit.Some? ==> n == limit.value
  {
    if limit.Some? then limit.value else 10
  }

  /** `getTopScorers(limit)`: the first `limit` of a copy sorted by goals,
      most first. */
  function GetTopScorers(ps: seq<MockPlayer>, limit: Option<int>): (r: seq<MockPlayer>)
    ensures LimitOrDefault(limit) >= 0 ==> |r| == Min(LimitOrDefault(limit), |ps|)
    ensures NonIncreasing(Goals, r)
    ensures multiset(r) <= multiset(ps)
  {
    TopBy(Goals, ps, LimitOrDefault(limit))
  }

  /** `getTopAssisters(limit)`: the same, by assists. */
  function GetTopAssisters(ps: seq<MockPlayer>, limit: Option<int>): (r: seq<MockPlayer>)
    ensures LimitOrDefault(limit) >= 0 ==> |r| == Min(LimitOrDefault(limit), |ps|)
    ensures NonIncreasing(Assists, r)
    ensures multiset(r) <= multiset(ps)
  {
    TopBy(Assists, ps, LimitOrDefault(limit))
  }

  function Min(a: int, b: int): int { if a < b then a else b }

  /** Nobody left out of the top scorers scored more than the last one
      listed, and players with equal goals keep dataset order. */
  lemma TopScorersRanked(ps: seq<MockPlayer>, limit: Option<int>, goals: int)
    ensures var r := GetTopScorers(ps, limit);
      && (|r| > 0 ==> forall p :: p in multiset(ps) - multiset(r) ==> p.goals <= r[|r| - 1].goals)
      && IsPrefixOf(WithKey(Goals, goals, r), WithKey(Goals, goals, ps))
  {
    var r := GetTopScorers(ps, limit);
    if |r| > 0 {
      TopByExcludedRankLower(Goals, ps, LimitOrDefault(limit));
    }
    TopByStable(Goals, ps, LimitOrDefault(limit), goals);
  }

  /** The same for the top assisters. */
  lemma TopAssistersRanked(ps: seq<MockPlayer>, limit: Option<int>, assists: int)
    ensures var r := GetTopAssisters(ps, limit);
      && (|r| > 0 ==> forall p :: p in multiset(ps) - multiset(r) ==> p.assists <= r[|r| - 1].assists)
      && IsPrefixOf(WithKey(Assists, assists, r), WithKey(Assists, assists, ps))
  {
    var r := GetTopAssisters(ps, limit);
    if |r| > 0 {
      TopByExcludedRankLower(Assists, ps, LimitOrDefault(limit));
    }
    TopByStable(Assists, ps, LimitOrDefault(limit), assists);
  }

  /** The team filter splits the dataset: a team's players and everyone
      else together are the whole dataset. */
  lemma TeamFilterPartitions(ps: seq<MockPlayer>, teamId: string)
    ensures multiset(GetPlayersByTeam(ps, teamId)) + multiset(Filter((p: MockPlayer) => p.teamId != teamId, ps)) == multiset(ps)
  {
    FilterComplement(PlaysFor(teamId), (p: MockPlayer) => p.teamId != teamId, ps);
  }
}

=== FILE: players_service.dfy ===
/** The player aggregation of `football_data_players.service.ts`: players of
    a competition (the squads of its first five teams, fetched together),
    top players across competitions (two teams per competition, fetched one
    after another, a failing competition skipped), and one team's squad.

    `getCompetitionTeams` and `getTeam` are inputs: what the client resolves
    or rejects with for each argument. */
module PlayersService {
  import opened Basics
  import opened Seqs
  import opened Domain

  /** `FootballDataTeamsResponse`: the competition's teams, which the
      upstream may leave out. */
  datatype TeamsResponse = TeamsResponse(teams: Option<seq<Team>>)

  function OrEmpty<T>(s: Option<seq<T>>): seq<T> {
    match s
    case None => []
    case Some(v) => v
  }

  function TeamIdOf(t: Team): int { t.id }

  function WithTeam(team: Team, code: Option<string>): Person -> PlayerWithTeam {
    (p: Person) => PlayerWithTeam(p, team.name, team.crest, team.id, code)
  }

  /** A player of `team`, tagged with the team (and optionally the
      competition) it was fetched for. */
  predicate PlaysFor(p: PlayerWithTeam, team: Team, code: Option<string>) {
    p.teamName == team.name && p.teamCrest == team.crest && p.teamId == team.id && p.competitionCode == code
  }

  /** `team.squad?.map(player => ({...player, teamName, teamCrest, teamId})) || []`. */
  function SquadOf(team: Team, code: Option<string>): (r: seq<PlayerWithTeam>)
    ensures team.squad.None? ==> r == []
    ensures team.squad.Some? ==> |r| == |team.squad.value|
    ensures team.squad.Some? ==> forall i :: 0 <= i < |r| ==> r[i].person == team.squad.value[i] && PlaysFor(r[i], team, code)
  {
    match team.squad
    case None => []
    case Some(sq) => Map(WithTeam(team, code), sq)
  }

  // ---------------------------------------------------------------------
  // getCompetitionPlayers

  /** A service call: its result and the team ids it fetched, in order. */
  datatype Fetch<T, E> = Fetch(result: Result<T, E>, fetched: seq<int>)

  /** Teams whose squads `getCompetitionPlayers` fetches, to spare the
      upstream rate limit. */
  const SquadTeamLimit: int := 5

  /** `Promise.all(ids.map(getTeam))`: the teams in id order, or the error of
      the first rejecting id. */
  function AllTeams<E>(getTeam: int -> Result<Team, E>, ids: seq<int>): (r: Result<seq<Team>, E>)
    ensures r.Err? <==> exists i :: 0 <= i < |ids| && getTeam(ids[i]).Err?
    ensures r.Err? ==> exists k :: 0 <= k < |ids| && getTeam(ids[k]) == Err(r.error) && forall j :: 0 <= j < k ==> getTeam(ids[j]).Ok?
    ensures r.Ok? ==> |r.value| == |ids| && forall i :: 0 <= i < |ids| ==> getTeam(ids[i]) == Ok(r.value[i])
  {
    if |ids| == 0 then Ok([])
    else match getTeam(ids[0])
      case Err(e) => Err(e)
      case Ok(t) =>
        match AllTeams(getTeam, ids[1..])
        case Err(e) =>
          assert forall j :: 0 <= j < |ids[1..]| ==> ids[1..][j] == ids[j + 1];
          Err(e)
        case Ok(ts) => Ok([t] + ts)
  }

  /** `teamDetails.flatMap(team => team.squad?.map(...) || [])`: the squads
      in team order. */
  function Squads(details: seq<Team>): (r: seq<PlayerWithTeam>)
    ensures forall k :: 0 <= k < |r| ==> exists i :: 0 <= i < |details| && r[k] in SquadOf(details[i], None)
    ensures forall i, p :: 0 <= i < |details| && p in SquadOf(details[i], None) ==> p in r
  {
    if |details| == 0 then []
    else
      var rest := Squads(details[1..]);
      assert forall i :: 1 <= i < |details| ==> details[i] == details[1..][i - 1];
      SquadOf(details[0], None) + rest
  }

  /** Flattening follows the team order: the squads of a concatenation are
      the squads of the first part followed by those of the second. */
  lemma {:induction false} SquadsConcat(a: seq<Team>, b: seq<Team>)
    ensures Squads(a + b) == Squads(a) + Squads(b)
  {
    if |a| == 0 {
      assert a + b == b;
    } else {
      ConcatTail(a, b);
      SquadsConcat(a[1..], b);
      ConcatAssoc(SquadOf(a[0], None), Squads(a[1..]), Squads(b));
    }
  }

  /** A single team contributes exactly its own tagged squad. */
  lemma SquadsSingle(t: Team)
    ensures Squads([t]) == SquadOf(t, None)
  {
    assert [t][1..] == [];
  }

  /** `getCompetitionPlayers(code)`: a failure to list the teams is
      rethrown; no teams gives no players and no team fetch; otherwise the
      first five teams are fetched together, any rejection is rethrown, and
      the squads come back in team order. */
  function GetCompetitionPlayers<E>(
    code: string,
    getCompetitionTeams: string -> Result<TeamsResponse, E>,
    getTeam: int -> Result<Team, E>): (r: Fetch<seq<PlayerWithTeam>, E>)
    ensures getCompetitionTeams(code).Err? ==> r == Fetch(Err(getCompetitionTeams(code).error), [])
    ensures getCompetitionTeams(code).Ok? ==>
      var teams := OrEmpty(getCompetitionTeams(code).value.teams);
      && r.fetched == Map(TeamIdOf, Slice0(teams, SquadTeamLimit))
      && (|teams| == 0 ==> r.result == Ok([]))
    ensures |r.fetched| <= SquadTeamLimit
    ensures r.result.Err? && getCompetitionTeams(code).Ok? <==> exists i :: 0 <= i < |r.fetched| && getTeam(r.fetched[i]).Err?
    ensures r.result.Ok? ==> forall k :: 0 <= k < |r.result.value| ==>
      exists i :: 0 <= i < |r.fetched| && getTeam(r.fetched[i]).Ok? && r.result.value[k] in SquadOf(getTeam(r.fetched[i]).value, None)
    ensures r.result.Ok? ==> forall i, p :: 0 <= i < |r.fetched| && p in SquadOf(getTeam(r.fetched[i]).value, None) ==> p in r.result.value
    ensures r.result.Ok? && |r.fetched| > 0 ==>
      var loaded := AllTeams(getTeam, r.fetched);
      loaded.Ok? && r.result.value == Squads(loaded.value)
    ensures r.result.Err? && getCompetitionTeams(code).Ok? ==>
      var loaded := AllTeams(getTeam, r.fetched);
      loaded.Err? && r.result.error == loaded.error
  {
    match getCompetitionTeams(code)
    case Err(e) => Fetch(Err(e), [])
    case Ok(resp) =>
      var teams := OrEmpty(resp.teams);
      if |teams| == 0 then Fetch(Ok([]), [])
      else
        var ids := Map(TeamIdOf, Slice0(teams, SquadTeamLimit));
        match AllTeams(getTeam, ids)
        case Err(e) => Fetch(Err(e), ids)
        case Ok(details) => Fetch(Ok(Squads(details)), ids)
  }

  // ---------------------------------------------------------------------
  // getTopPlayers

  const DefaultPlayersPerLeague: int := 10

  /** Teams per competition `getTopPlayers` looks at. */
  const TeamsPerLeague: int := 2

  /** `Math.ceil(n / 2)` for an integer `n`. */
  function CeilHalf(n: int): (h: int)
    ensures n <= 2 * h < n + 2
  {
    (n + 1) / 2
  }

  /** `teamDetails.squad?.slice(0, count).map(...) || []`, each player tagged
      with the competition code. */
  function SquadSlice(team: Team, count: int, code: string): (r: seq<PlayerWithTeam>)
    ensures team.squad.None? ==> r == []
    ensures team.squad.Some? ==> |r| == SliceEnd(|team.squad.value|, count)
    ensures team.squad.Some? ==> forall k :: 0 <= k < |r| ==> r[k].person == team.squad.value[k] && PlaysFor(r[k], team, Some(code))
    ensures count >= 0 ==> |r| <= count
  {
    match team.squad
    case None => []
    case Some(sq) => Map(WithTeam(team, Some(code)), Slice0(sq, count))
  }

  /** Players collected and team ids fetched. */
  datatype Visit = Visit(players: seq<PlayerWithTeam>, fetched: seq<int>)

  predicate TaggedWith(players: seq<PlayerWithTeam>, code: string) {
    forall k :: 0 <= k < |players| ==> players[k].competitionCode == Some(code)
  }

  /** The inner loop of `getTopPlayers`: fetch the teams one after another
      and push a slice of each squad; the first rejection ends the loop (the
      competition's `try` catches it) and keeps what was pushed before. */
  function TeamsPlayers<E>(teams: seq<Team>, count: int, code: string, getTeam: int -> Result<Team, E>): (v: Visit)
    ensures |v.fetched| <= |teams|
    ensures forall i :: 0 <= i < |v.fetched| ==> v.fetched[i] == teams[i].id
    ensures forall i :: 0 <= i < |v.fetched| - 1 ==> getTeam(v.fetched[i]).Ok?
    ensures |v.fetched| < |teams| ==> |v.fetched| > 0 && getTeam(v.fetched[|v.fetched| - 1]).Err?
    ensures TaggedWith(v.players, code)
  {
    if |teams| == 0 then Visit([], [])
    else match getTeam(teams[0].id)
      case Err(_) => Visit([], [teams[0].id])
      case Ok(d) =>
        var rest := TeamsPlayers(teams[1..], count, code, getTeam);
        Visit(SquadSlice(d, count, code) + rest.players, [teams[0].id] + rest.fetched)
  }

  /** The squad slices of the loaded teams, in order. */
  function Slices(details: seq<Team>, count: int, code: string): seq<PlayerWithTeam> {
    if |details| == 0 then [] else SquadSlice(details[0], count, code) + Slices(details[1..], count, code)
  }

  /** `details` are the teams loaded before the first rejection of
      `getTeam` (all of them when none rejects). */
  ghost predicate LoadedBeforeFailure<E>(teams: seq<Team>, getTeam: int -> Result<Team, E>, details: seq<Team>) {
    && |details| <= |teams|
    && (forall i :: 0 <= i < |details| ==> getTeam(teams[i].id) == Ok(details[i]))
    && (|details| == |teams| || getTeam(teams[|details|].id).Err?)
  }

  lemma LoadedBeforeFailureTail<E>(teams: seq<Team>, getTeam: int -> Result<Team, E>, details: seq<Team>)
    requires LoadedBeforeFailure(teams, getTeam, details) && |details| > 0
    ensures getTeam(teams[0].id) == Ok(details[0])
    ensures LoadedBeforeFailure(teams[1..], getTeam, details[1..])
  {
    forall i | 0 <= i < |details| - 1
      ensures getTeam(teams[1..][i].id) == Ok(details[1..][i])
    {
      assert teams[1..][i] == teams[i + 1] && details[1..][i] == details[i + 1];
    }
  }

  /** With `details` the teams loaded before the first rejection, the loop
      collects exactly their squad slices, in order. */
  lemma {:induction false} TeamsPlayersKeepsLoaded<E>(
    teams: seq<Team>, count: int, code: string, getTeam: int -> Result<Team, E>, details: seq<Team>)
    requires LoadedBeforeFailure(teams, getTeam, details)
    ensures TeamsPlayers(teams, count, code, getTeam).players == Slices(details, count, code)
  {
    if |details| > 0 {
      LoadedBeforeFailureTail(teams, getTeam, details);
      TeamsPlayersKeepsLoaded(teams[1..], count, code, getTeam, details[1..]);
    }
  }

  /** The loop fetches those teams and then the rejecting one, if any. */
  lemma {:induction false} TeamsPlayersFetchesLoaded<E>(
    teams: seq<Team>, count: int, code: string, getTeam: int -> Result<Team, E>, details: seq<Team>)
    requires LoadedBeforeFailure(teams, getTeam, details)
    ensures TeamsPlayers(teams, count, code, getTeam).fetched
         == Map(TeamIdOf, teams[..if |details| < |teams| then |details| + 1 else |teams|])
  {
    var v := TeamsPlayers(teams, count, code, getTeam);
    var n := if |details| < |teams| then |details| + 1 else |teams|;
    if |details| == 0 {
      if |teams| > 0 {
        assert v.fetched == [teams[0].id];
        assert teams[..n] == [teams[0]];
      }
    } else {
      LoadedBeforeFailureTail(teams, getTeam, details);
      TeamsPlayersFetchesLoaded(teams[1..], count, code, getTeam, details[1..]);
      var rest := TeamsPlayers(teams[1..], count, code, getTeam);
      assert v.fetched == [teams[0].id] + rest.fetched;
      assert teams[..n][1..] == teams[1..][..n - 1];
      MapHead(TeamIdOf, teams[..n]);
    }
  }

  /** Each fetched team contributes at most `count` players. */
  lemma {:induction false} TeamsPlayersBound<E>(teams: seq<Team>, count: int, code: string, getTeam: int -> Result<Team, E>)
    requires count >= 0
    ensures |TeamsPlayers(teams, count, code, getTeam).players| <= |TeamsPlayers(teams, count, code, getTeam).fetched| * count
  {
    if |teams| > 0 && getTeam(teams[0].id).Ok? {
      var rest := TeamsPlayers(teams[1..], count, code, getTeam);
      TeamsPlayersBound(teams[1..], count, code, getTeam);
      assert |SquadSlice(getTeam(teams[0].id).value, count, code)| <= count;
      assert (1 + |rest.fetched|) * count == count + |rest.fetched| * count;
    }
  }

  /** One competition of `getTopPlayers`: list its teams, keep the first two,
      and collect their squad slices; a failure to list the teams yields no
      players and no team fetch. */
  function LeaguePlayers<E>(
    code: string, count: int,
    getCompetitionTeams: string -> Result<TeamsResponse, E>,
    getTeam: int -> Result<Team, E>): (v: Visit)
    ensures getCompetitionTeams(code).Err? ==> v == Visit([], [])
    ensures getCompetitionTeams(code).Ok? ==>
      var teams := OrEmpty(getCompetitionTeams(code).value.teams);
      forall i :: 0 <= i < |v.fetched| ==> i < |teams| && v.fetched[i] == teams[i].id
    ensures |v.fetched| <= TeamsPerLeague
    ensures TaggedWith(v.players, code)
  {
    match getCompetitionTeams(code)
    case Err(_) => Visit([], [])
    case Ok(resp) => TeamsPlayers(Slice0(OrEmpty(resp.teams), TeamsPerLeague), count, code, getTeam)
  }

  /** The outer loop of `getTopPlayers`: the competitions in order. */
  function AllLeagues<E>(
    codes: seq<string>, count: int,
    getCompetitionTeams: string -> Result<TeamsResponse, E>,
    getTeam: int -> Result<Team, E>): (v: Visit)
    ensures forall k :: 0 <= k < |v.players| ==> v.players[k].competitionCode.Some? && v.players[k].competitionCode.value in codes
    ensures |v.fetched| <= TeamsPerLeague * |codes|
  {
    if |codes| == 0 then Visit([], [])
    else
      var here := LeaguePlayers(codes[0], count, getCompetitionTeams, getTeam);
      var rest := AllLeagues(codes[1..], count, getCompetitionTeams, getTeam);
      assert forall c :: c in codes[1..] ==> c in codes;
      Visit(here.players + rest.players, here.fetched + rest.fetched)
  }

  /** One step of the inner loop when the team loads: its squad slice is
      pushed and the loop goes on with the next team. */
  lemma CollectStepOk<E>(remaining: seq<Team>, count: int, code: string, getTeam: int -> Result<Team, E>,
                         league: seq<PlayerWithTeam>, fetched: seq<int>, whole: Visit)
    requires |remaining| > 0 && getTeam(remaining[0].id).Ok?
    requires var rest := TeamsPlayers(remaining, count, code, getTeam);
      league + rest.players == whole.players && fetched + rest.fetched == whole.fetched
    ensures var slice := SquadSlice(getTeam(remaining[0].id).value, count, code);
      var w := TeamsPlayers(remaining[1..], count, code, getTeam);
      (league + slice) + w.players == whole.players && (fetched + [remaining[0].id]) + w.fetched == whole.fetched
  {
    var slice := SquadSlice(getTeam(remaining[0].id).value, count, code);
    var w := TeamsPlayers(remaining[1..], count, code, getTeam);
    ConcatAssoc(league, slice, w.players);
    ConcatAssoc(fetched, [remaining[0].id], w.fetched);
  }

  /** One step of the inner loop when the team fails to load: the loop ends
      with that team counted as fetched. */
  lemma CollectStepErr<E>(remaining: seq<Team>, count: int, code: string, getTeam: int -> Result<Team, E>,
                          league: seq<PlayerWithTeam>, fetched: seq<int>, whole: Visit)
    requires |remaining| > 0 && getTeam(remaining[0].id).Err?
    requires var rest := TeamsPlayers(remaining, count, code, getTeam);
      league + rest.players == whole.players && fetched + rest.fetched == whole.fetched
    ensures Visit(league, fetched + [remaining[0].id]) == whole
  {
    assert league + [] == league;
  }

  /** The inner loop of `getTopPlayers` over the (at most two) teams kept
      for one competition. */
  method CollectTeams<E>(teams: seq<Team>, count: int, code: string, getTeam: int -> Result<Team, E>)
    returns (league: seq<PlayerWithTeam>, leagueFetched: seq<int>)
    ensures Visit(league, leagueFetched) == TeamsPlayers(teams, count, code, getTeam)
  {
    league, leagueFetched := [], [];
    ghost var whole := TeamsPlayers(teams, count, code, getTeam);
    ghost var rest := whole;
    var remaining := teams;
    while remaining != []
      invariant rest == TeamsPlayers(remaining, count, code, getTeam)
      invariant league + rest.players == whole.players && leagueFetched + rest.fetched == whole.fetched
    {
      if getTeam(remaining[0].id).Err? {
        CollectStepErr(remaining, count, code, getTeam, league, leagueFetched, whole);
        leagueFetched := leagueFetched + [remaining[0].id];
        return;
      }
      CollectStepOk(remaining, count, code, getTeam, league, leagueFetched, whole);
      league := league + SquadSlice(getTeam(remaining[0].id).value, count, code);
      leagueFetched := leagueFetched + [remaining[0].id];
      remaining := remaining[1..];
      rest := TeamsPlayers(remaining, count, code, getTeam);
    }
    assert league + [] == league && leagueFetched + [] == leagueFetched;
  }

  /** The result for the first `i + 1` competitions extends the result
      for the first `i` with competition `i`'s. */
  lemma AllLeaguesSnoc<E>(
    codes: seq<string>, i: int, count: int,
    getCompetitionTeams: string -> Result<TeamsResponse, E>,
    getTeam: int -> Result<Team, E>)
    requires 0 <= i < |codes|
    ensures var pre := AllLeagues(codes[..i], count, getCompetitionTeams, getTeam);
      var here := LeaguePlayers(codes[i], count, getCompetitionTeams, getTeam);
      AllLeagues(codes[..i + 1], count, getCompetitionTeams, getTeam) == Visit(pre.players + here.players, pre.fetched + here.fetched)
  {
    assert codes[..i + 1] == codes[..i] + [codes[i]];
    AllLeaguesConcat(codes[..i], [codes[i]], count, getCompetitionTeams, getTeam);
    var here := LeaguePlayers(codes[i], count, getCompetitionTeams, getTeam);
    assert [codes[i]][1..] == [];
    assert AllLeagues([codes[i]], count, getCompetitionTeams, getTeam) == Visit(here.players + [], here.fetched + []);
    assert here.players + [] == here.players && here.fetched + [] == here.fetched;
  }

  /** The body of the outer loop for one competition: list its teams and,
      when that succeeds, collect the first two teams' players. */
  method CollectLeague<E>(
    code: string, count: int,
    getCompetitionTeams: string -> Result<TeamsResponse, E>,
    getTeam: int -> Result<Team, E>) returns (league: seq<PlayerWithTeam>, leagueFetched: seq<int>)
    ensures Visit(league, leagueFetched) == LeaguePlayers(code, count, getCompetitionTeams, getTeam)
  {
    league, leagueFetched := [], [];
    if getCompetitionTeams(code).Ok? {
      var teams := Slice0(OrEmpty(getCompetitionTeams(code).value.teams), TeamsPerLeague);
      league, leagueFetched := CollectTeams(teams, count, code, getTeam);
    }
  }

  /** `getTopPlayers(codes, playersPerLeague = 10)`. */
  method GetTopPlayers<E>(
    codes: seq<string>, playersPerLeague: Option<int>,
    getCompetitionTeams: string -> Result<TeamsResponse, E>,
    getTeam: int -> Result<Team, E>) returns (players: seq<PlayerWithTeam>, fetched: seq<int>)
    ensures Visit(players, fetched) == AllLeagues(codes, CeilHalf(if playersPerLeague.Some? then playersPerLeague.value else DefaultPlayersPerLeague), getCompetitionTeams, getTeam)
  {
    var perLeague := if playersPerLeague.Some? then playersPerLeague.value else DefaultPlayersPerLeague;
    var count := CeilHalf(perLeague);
    players, fetched := [], [];
    var i := 0;
    while i < |codes|
      invariant 0 <= i <= |codes|
      invariant Visit(players, fetched) == AllLeagues(codes[..i], count, getCompetitionTeams, getTeam)
    {
      var league, leagueFetched := CollectLeague(codes[i], count, getCompetitionTeams, getTeam);
      AllLeaguesSnoc(codes, i, count, getCompetitionTeams, getTeam);
      players := players + league;
      fetched := fetched + leagueFetched;
      i := i + 1;
    }
    assert codes[..i] == codes;
  }

  /** Listing a competition's teams across several calls is the same as
      listing them in one: the result for `a + b` is the result for `a`
      followed by the result for `b`. */
  lemma {:induction false} AllLeaguesConcat<E>(
    a: seq<string>, b: seq<string>, count: int,
    getCompetitionTeams: string -> Result<TeamsResponse, E>,
    getTeam: int -> Result<Team, E>)
    ensures var va := AllLeagues(a, count, getCompetitionTeams, getTeam);
      var vb := AllLeagues(b, count, getCompetitionTeams, getTeam);
      AllLeagues(a + b, count, getCompetitionTeams, getTeam) == Visit(va.players + vb.players, va.fetched + vb.fetched)
  {
    if |a| > 0 {
      AllLeaguesConcat(a[1..], b, count, getCompetitionTeams, getTeam);
      AllLeaguesConcatStep(a, b, count, getCompetitionTeams, getTeam);
    } else {
      var vb := AllLeagues(b, count, getCompetitionTeams, getTeam);
      assert a + b == b;
      assert AllLeagues(a, count, getCompetitionTeams, getTeam) == Visit([], []);
      assert [] + vb.players == vb.players && [] + vb.fetched == vb.fetched;
    }
  }

  /** The inductive step of `AllLeaguesConcat`: the claim for `a[1..]`
      gives the claim for `a`. */
  lemma AllLeaguesConcatStep<E>(
    a: seq<string>, b: seq<string>, count: int,
    getCompetitionTeams: string -> Result<TeamsResponse, E>,
    getTeam: int -> Result<Team, E>)
    requires |a| > 0
    requires var va' := AllLeagues(a[1..], count, getCompetitionTeams, getTeam);
      var vb := AllLeagues(b, count, getCompetitionTeams, getTeam);
      AllLeagues(a[1..] + b, count, getCompetitionTeams, getTeam) == Visit(va'.players + vb.players, va'.fetched + vb.fetched)
    ensures var va := AllLeagues(a, count, getCompetitionTeams, getTeam);
      var vb := AllLeagues(b, count, getCompetitionTeams, getTeam);
      AllLeagues(a + b, count, getCompetitionTeams, getTeam) == Visit(va.players + vb.players, va.fetched + vb.fetched)
  {
    var ab := a + b;
    ConcatTail(a, b);
    var here := LeaguePlayers(a[0], count, getCompetitionTeams, getTeam);
    var va' := AllLeagues(a[1..], count, getCompetitionTeams, getTeam);
    var vb := AllLeagues(b, count, getCompetitionTeams, getTeam);
    AllLeaguesCons(ab, count, getCompetitionTeams, getTeam);
    AllLeaguesCons(a, count, getCompetitionTeams, getTeam);
    ConcatAssoc(here.players, va'.players, vb.players);
    ConcatAssoc(here.fetched, va'.fetched, vb.fetched);
  }

  /** One competition in front: its players and fetches come first. */
  lemma AllLeaguesCons<E>(
    codes: seq<string>, count: int,
    getCompetitionTeams: string -> Result<TeamsResponse, E>,
    getTeam: int -> Result<Team, E>)
    requires |codes| > 0
    ensures var here := LeaguePlayers(codes[0], count, getCompetitionTeams, getTeam);
      var rest := AllLeagues(codes[1..], count, getCompetitionTeams, getTeam);
      AllLeagues(codes, count, getCompetitionTeams, getTeam) == Visit(here.players + rest.players, here.fetched + rest.fetched)
  {
  }

  /** A competition whose teams cannot be listed is skipped without
      affecting the others. */
  lemma FailingLeagueSkipped<E>(
    codes: seq<string>, i: int, count: int,
    getCompetitionTeams: string -> Result<TeamsResponse, E>,
    getTeam: int -> Result<Team, E>)
    requires 0 <= i < |codes| && getCompetitionTeams(codes[i]).Err?
    ensures AllLeagues(codes, count, getCompetitionTeams, getTeam) == AllLeagues(codes[..i] + codes[i + 1..], count, getCompetitionTeams, getTeam)
  {
    var pre, post := codes[..i], codes[i + 1..];
    var rest := [codes[i]] + post;
    SplitAround(codes, i);
    ConcatAssoc(pre, [codes[i]], post);
    AllLeaguesConcat(pre, rest, count, getCompetitionTeams, getTeam);
    AllLeaguesConcat(pre, post, count, getCompetitionTeams, getTeam);
    assert rest[0] == codes[i] && rest[1..] == post;
    SkipFailing(rest, count, getCompetitionTeams, getTeam);
  }

  /** A failing competition at the front contributes nothing. */
  lemma SkipFailing<E>(
    codes: seq<string>, count: int,
    getCompetitionTeams: string -> Result<TeamsResponse, E>,
    getTeam: int -> Result<Team, E>)
    requires |codes| > 0 && getCompetitionTeams(codes[0]).Err?
    ensures AllLeagues(codes, count, getCompetitionTeams, getTeam) == AllLeagues(codes[1..], count, getCompetitionTeams, getTeam)
  {
    AllLeaguesCons(codes, count, getCompetitionTeams, getTeam);
    var vp := AllLeagues(codes[1..], count, getCompetitionTeams, getTeam);
    assert [] + vp.players == vp.players && [] + vp.fetched == vp.fetched;
  }

  /** Each competition contributes at most `2 * ceil(n / 2)` players, which
      is `n` for an even `n` and one more for an odd one. */
  lemma PerLeagueBound<E>(
    code: string, n: int,
    getCompetitionTeams: string -> Result<TeamsResponse, E>,
    getTeam: int -> Result<Team, E>)
    requires n >= 0
    ensures |LeaguePlayers(code, CeilHalf(n), getCompetitionTeams, getTeam).players| <= n + n % 2
  {
    var h := CeilHalf(n);
    if getCompetitionTeams(code).Ok? {
      var teams := Slice0(OrEmpty(getCompetitionTeams(code).value.teams), TeamsPerLeague);
      TeamsPlayersBound(teams, h, code, getTeam);
      var f := |TeamsPlayers(teams, h, code, getTeam).fetched|;
      assert f * h <= 2 * h;
    }
  }

  // ---------------------------------------------------------------------
  // getTeamSquad

  datatype TeamSummary = TeamSummary(id: int, name: string, crest: string, founded: int, venue: string)

  datatype TeamSquad = TeamSquad(team: TeamSummary, squad: seq<PlayerWithTeam>)

  /** `getTeamSquad(teamId)`: the team's summary fields and its whole squad
      tagged with the team; a rejection is rethrown. */
  function GetTeamSquad<E>(teamId: int, getTeam: int -> Result<Team, E>): (r: Result<TeamSquad, E>)
    ensures r.Err? <==> getTeam(teamId).Err?
    ensures r.Err? ==> r.error == getTeam(teamId).error
    ensures r.Ok? ==> var t := getTeam(teamId).value;
      && r.value.team == TeamSummary(t.id, t.name, t.crest, t.founded, t.venue)
      && (t.squad.None? ==> r.value.squad == [])
      && (t.squad.Some? ==>
            |r.value.squad| == |t.squad.value|
            && forall i :: 0 <= i < |r.value.squad| ==> r.value.squad[i].person == t.squad.value[i] && PlaysFor(r.value.squad[i], t, None))
  {
    match getTeam(teamId)
    case Err(e) => Err(e)
    case Ok(t) => Ok(TeamSquad(TeamSummary(t.id, t.name, t.crest, t.founded, t.venue), SquadOf(t, None)))
  }

  /** For a competition of a single team, the competition's players are
      exactly that team's squad as `getTeamSquad` returns it. */
  lemma SingleTeamCompetitionIsSquad<E>(
    code: string, team: Team,
    getCompetitionTeams: string -> Result<TeamsResponse, E>,
    getTeam: int -> Result<Team, E>)
    requires getCompetitionTeams(code) == Ok(TeamsResponse(Some([team])))
    requires getTeam(team.id).Ok?
    ensures GetCompetitionPlayers(code, getCompetitionTeams, getTeam).result == Ok(GetTeamSquad(team.id, getTeam).value.squad)
  {
    assert Slice0([team], SquadTeamLimit) == [team];
    var ids := Map(TeamIdOf, [team]);
    assert ids == [team.id];
    var details := [getTeam(team.id).value];
    var r := AllTeams(getTeam, ids);
    assert r.Ok? && r.value[0] == details[0];
    assert r.value == details;
    assert details[1..] == [];
    assert Squads(details) == SquadOf(getTeam(team.id).value, None);
  }
}

=== FILE: query_cache.dfy ===
/** The part of the query client the loader files use: a map from query
    keys to cached data, read with `getQueryData` and written with
    `setQueryData`. Only the truthiness of a cached value matters to the
    loaders, so a cached value is either data or some falsy value. */
module QueryCache {
  import opened Basics
  import opened QueryKeys

  datatype Entry<V> = Data(value: V) | Falsy

  type Cache<V> = map<Key, Entry<V>>

  /** `getQueryData(key)` followed by a truthiness test. */
  function CachedData<V>(c: Cache<V>, k: Key): (d: Option<V>)
    ensures d.Some? <==> k in c && c[k].Data?
    ensures d.Some? ==> c[k] == Data(d.value)
  {
    if k in c && c[k].Data? then Some(c[k].value) else None
  }

  /** `c'` differs from `c` at most at the keys in `ks`. */
  ghost predicate SameExcept<V>(c: Cache<V>, c': Cache<V>, ks: set<Key>) {
    forall k :: k !in ks ==> (k in c <==> k in c') && (k in c ==> c[k] == c'[k])
  }

  /** `setQueryData(key, data)`; writing `undefined` leaves the cache alone. */
  function SetQueryData<V>(c: Cache<V>, k: Key, data: Option<V>): (c': Cache<V>)
    ensures SameExcept(c, c', {k})
    ensures data.Some? ==> CachedData(c', k) == Some(data.value)
    ensures data.None? ==> c' == c
  {
    match data
    case None => c
    case Some(v) => c[k := Data(v)]
  }
}

=== FILE: query_keys.dfy ===
/** The query keys and `enabled` flags of the hooks in
    `football_data.hooks.ts`, and the keys the loader files write under.

    A key is an array of strings, numbers and `undefined`; two keys name the
    same cache entry exactly when they are equal element by element. */
module QueryKeys {
  import opened Basics
  import opened Seqs
  import opened LexOrder

  datatype KeyPart = Text(s: string) | Number(n: int) | Undefined

  type Key = seq<KeyPart>

  /** What a hook hands to `useQuery`, apart from its query function. */
  datatype QuerySpec = QuerySpec(key: Key, enabled: bool)

  /** An optional string argument as it appears in a key. */
  function OptText(s: Option<string>): (p: KeyPart)
    ensures p.Undefined? <==> s.None?
    ensures s.Some? ==> p == Text(s.value)
  {
    match s
    case None => Undefined
    case Some(v) => Text(v)
  }

  function TeamKey(teamId: int): Key { [Text("team"), Number(teamId)] }

  function PersonKey(personId: int): Key { [Text("person"), Number(personId)] }

  function CompetitionTeamsKey(code: string): Key { [Text("competition"), Text(code), Text("teams")] }

  const ApiConnectionKey: Key := [Text("api"), Text("connection")]

  const AllCompetitionsKey: Key := [Text("competitions"), Text("all")]

  function StandingsKey(code: string): Key { [Text("competition"), Text(code), Text("standings")] }

  function MatchesKey(code: string, dateFrom: Option<string>, dateTo: Option<string>): Key {
    [Text("competition"), Text(code), Text("matches"), OptText(dateFrom), OptText(dateTo)]
  }

  /** `teamIds.sort().join(',')`. */
  function TeamIdsText(teamIds: seq<int>): string {
    Join(Map(IntToString, SortNums(teamIds)), ",")
  }

  function MultipleTeamsKey(teamIds: seq<int>): Key {
    [Text("teams"), Text("multiple"), Text(TeamIdsText(teamIds))]
  }

  /** The key `loadPlayer` writes under. */
  function PlayerKey(playerId: string): Key { [Text("player"), Text(playerId)] }

  /** The key `loadPlayers` writes under. */
  const PlayersKey: Key := [Text("players")]

  // ---------------------------------------------------------------------
  // Hooks

  /** `useTeam(teamId)`: enabled iff the id is truthy (non-zero). */
  function UseTeam(teamId: int): (q: QuerySpec)
    ensures q.enabled <==> teamId != 0
  {
    QuerySpec(TeamKey(teamId), teamId != 0)
  }

  /** `usePerson(personId)`. */
  function UsePerson(personId: int): (q: QuerySpec)
    ensures q.enabled <==> personId != 0
  {
    QuerySpec(PersonKey(personId), personId != 0)
  }

  /** `useCompetitionTeams(code)`: enabled iff the code is non-empty. */
  function UseCompetitionTeams(code: string): (q: QuerySpec)
    ensures q.enabled <==> code != ""
  {
    QuerySpec(CompetitionTeamsKey(code), code != "")
  }

  /** `useApiConnection()` and `useAllCompetitions()`: always enabled. */
  function UseApiConnection(): (q: QuerySpec)
    ensures q.enabled
  {
    QuerySpec(ApiConnectionKey, true)
  }

  function UseAllCompetitions(): (q: QuerySpec)
    ensures q.enabled
  {
    QuerySpec(AllCompetitionsKey, true)
  }

  function UseCompetitionStandings(code: string): (q: QuerySpec)
    ensures q.enabled <==> code != ""
  {
    QuerySpec(StandingsKey(code), code != "")
  }

  /** `useCompetitionMatches(code, dateFrom, dateTo, options)`: an explicit
      `enabled` option wins over the code-based default. */
  function UseCompetitionMatches(code: string, dateFrom: Option<string>, dateTo: Option<string>, enabled: Option<bool>): (q: QuerySpec)
    ensures enabled.Some? ==> q.enabled == enabled.value
    ensures enabled.None? ==> (q.enabled <==> code != "")
  {
    QuerySpec(MatchesKey(code, dateFrom, dateTo), if enabled.Some? then enabled.value else code != "")
  }

  /** `useMultipleTeams(teamIds)`: the spec, and the caller's array as the
      in-place sort leaves it, which is also the order the teams are
      fetched and returned in. */
  function UseMultipleTeams(teamIds: seq<int>): (r: (QuerySpec, seq<int>))
    ensures r.0.enabled <==> |teamIds| > 0
    ensures multiset(r.1) == multiset(teamIds)
    ensures SortedBy(NumLe, r.1)
  {
    (QuerySpec(MultipleTeamsKey(teamIds), |teamIds| > 0), SortNums(teamIds))
  }

  // ---------------------------------------------------------------------
  // The multi-team key

  /** Any permutation of the same ids yields the same key. */
  lemma MultipleTeamsKeyPermutationInvariant(a: seq<int>, b: seq<int>)
    requires multiset(a) == multiset(b)
    ensures MultipleTeamsKey(a) == MultipleTeamsKey(b)
  {
    SortNumsPermutationInvariant(a, b);
  }

  lemma {:induction false} JoinEmpty(parts: seq<string>, sep: string)
    requires forall i :: 0 <= i < |parts| ==> parts[i] != ""
    ensures Join(parts, sep) == "" <==> |parts| == 0
  {
    if |parts| >= 2 {
      assert |Join(parts, sep)| >= |parts[0]|;
    }
  }

  lemma {:induction false} MapIntToStringInjective(a: seq<int>, b: seq<int>)
    requires Map(IntToString, a) == Map(IntToString, b)
    ensures a == b
  {
    forall i | 0 <= i < |a|
      ensures a[i] == b[i]
    {
      assert Map(IntToString, a)[i] == Map(IntToString, b)[i];
      IntToStringInjective(a[i], b[i]);
    }
  }

  lemma IntToStringNoComma(i: int)
    ensures IntToString(i) != "" && ',' !in IntToString(i)
  {
    var s := IntToString(i);
    forall k | 0 <= k < |s|
      ensures s[k] != ','
    {
      if i < 0 && k > 0 {
        assert s[1..][k - 1] == s[k];
      }
    }
  }

  /** The rendered ids: none is empty or holds a comma. */
  lemma RenderedIdsClean(ids: seq<int>)
    ensures forall i :: 0 <= i < |Map(IntToString, ids)| ==> Map(IntToString, ids)[i] != "" && ',' !in Map(IntToString, ids)[i]
  {
    forall i | 0 <= i < |ids|
      ensures Map(IntToString, ids)[i] != "" && ',' !in Map(IntToString, ids)[i]
    {
      IntToStringNoComma(ids[i]);
    }
  }

  /** Different collections of ids yield different keys: the key is the
      sorted list read back by splitting at the commas. */
  lemma MultipleTeamsKeyInjective(a: seq<int>, b: seq<int>)
    requires MultipleTeamsKey(a) == MultipleTeamsKey(b)
    ensures multiset(a) == multiset(b)
  {
    var sa := SortNums(a);
    var sb := SortNums(b);
    var pa := Map(IntToString, sa);
    var pb := Map(IntToString, sb);
    RenderedIdsClean(sa);
    RenderedIdsClean(sb);
    JoinEmpty(pa, ",");
    JoinEmpty(pb, ",");
    assert Join(pa, ",") == Join(pb, ",");
    if |pa| > 0 {
      SplitJoin(pa, ',');
      SplitJoin(pb, ',');
      MapIntToStringInjective(sa, sb);
    }
  }

  // ---------------------------------------------------------------------
  // Keys of different queries never collide

  /** Every query the application caches, by its arguments. */
  datatype Query =
    | TeamQ(teamId: int)
    | PersonQ(personId: int)
    | CompetitionTeamsQ(code: string)
    | ApiConnectionQ
    | MultipleTeamsQ(teamIds: seq<int>)
    | AllCompetitionsQ
    | StandingsQ(code: string)
    | MatchesQ(code: string, dateFrom: Option<string>, dateTo: Option<string>)
    | PlayerQ(playerId: string)
    | PlayersQ

  function KeyOf(q: Query): Key {
    match q
    case TeamQ(id) => TeamKey(id)
    case PersonQ(id) => PersonKey(id)
    case CompetitionTeamsQ(code) => CompetitionTeamsKey(code)
    case ApiConnectionQ => ApiConnectionKey
    case MultipleTeamsQ(ids) => MultipleTeamsKey(ids)
    case AllCompetitionsQ => AllCompetitionsKey
    case StandingsQ(code) => StandingsKey(code)
    case MatchesQ(code, f, t) => MatchesKey(code, f, t)
    case PlayerQ(id) => PlayerKey(id)
    case PlayersQ => PlayersKey
  }

  /** Two queries have the same arguments, except that a multi-team query
      only cares which ids it names. An absent date and an empty date are
      different arguments, although both fetch the same matches. */
  predicate SameQuery(q1: Query, q2: Query) {
    if q1.MultipleTeamsQ? && q2.MultipleTeamsQ? then multiset(q1.teamIds) == multiset(q2.teamIds)
    else q1 == q2
  }

  /** Two queries share a cache entry exactly when they have the same
      arguments: the teams, standings and matches keys of one code differ in
      their third element, distinct date ranges give distinct matches keys,
      and no two hooks share a key shape. */
  lemma KeysCollideIffSameQuery(q1: Query, q2: Query)
    ensures KeyOf(q1) == KeyOf(q2) <==> SameQuery(q1, q2)
  {
    if KeyOf(q1) == KeyOf(q2) {
      var k := KeyOf(q1);
      assert k[0] == KeyOf(q2)[0];
      if q1.MultipleTeamsQ? {
        MultipleTeamsKeyInjective(q1.teamIds, q2.teamIds);
      } else if q1.MatchesQ? {
        assert k[3] == KeyOf(q2)[3] && k[4] == KeyOf(q2)[4];
      } else if q1.CompetitionTeamsQ? || q1.StandingsQ? {
        assert k[1] == KeyOf(q2)[1] && k[2] == KeyOf(q2)[2];
      } else if q1.TeamQ? || q1.PersonQ? || q1.PlayerQ? {
        assert k[1] == KeyOf(q2)[1];
      }
    } else if q1.MultipleTeamsQ? && q2.MultipleTeamsQ? && multiset(q1.teamIds) == multiset(q2.teamIds) {
      MultipleTeamsKeyPermutationInvariant(q1.teamIds, q2.teamIds);
    }
  }
}

=== FILE: rate_limit_bus.dfy ===
/** The rate-limit event bus of `rate_limit_monitor.utils.ts`: an
    `EventTarget` on which `addRateLimitListener` registers a freshly made
    listener around the caller's handler and returns a cleanup that removes
    exactly that listener, and `emitRateLimitUpdate` dispatches one event to
    every listener registered at that moment, in registration order.

    Each registration carries the identity of its freshly made listener as a
    number from a counter, so registering the same handler twice yields two
    registrations. */
module RateLimitBus {
  import opened Basics
  import opened Seqs

  /** The snapshot the client publishes; `remaining` is whatever `parseInt`
      made of the header, NaN included. */
  datatype RateLimitInfo = RateLimitInfo(remaining: JsNumber, total: int, resetIn: string)

  datatype Registration<H> = Registration(id: nat, handler: H)

  datatype Bus<H> = Bus(regs: seq<Registration<H>>, nextId: nat)

  /** One handler call made by a dispatch. */
  datatype Delivery<H> = Delivery(id: nat, handler: H, info: RateLimitInfo)

  /** Listener identities are unique, in registration order, and all older
      than the next one to be made. */
  ghost predicate Valid<H>(b: Bus<H>) {
    && (forall i, j :: 0 <= i < j < |b.regs| ==> b.regs[i].id < b.regs[j].id)
    && (forall i :: 0 <= i < |b.regs| ==> b.regs[i].id < b.nextId)
  }

  ghost predicate Registered<H>(b: Bus<H>, id: nat) {
    exists i :: 0 <= i < |b.regs| && b.regs[i].id == id
  }

  function EmptyBus<H>(): (b: Bus<H>)
    ensures Valid(b) && |b.regs| == 0
  {
    Bus([], 0)
  }

  /** `addRateLimitListener(handler)`: the new bus and the identity of the
      listener, which the returned cleanup closes over. */
  function AddListener<H>(b: Bus<H>, h: H): (r: (Bus<H>, nat))
    ensures Valid(b) ==> Valid(r.0)
    ensures Valid(b) ==> !Registered(b, r.1)
    ensures r.0.regs == b.regs + [Registration(r.1, h)]
  {
    (Bus(b.regs + [Registration(b.nextId, h)], b.nextId + 1), b.nextId)
  }

  function NotId<H>(id: nat): Registration<H> -> bool {
    (r: Registration<H>) => r.id != id
  }

  /** The cleanup returned for listener `id`. */
  function RemoveListener<H>(b: Bus<H>, id: nat): (r: Bus<H>)
    ensures r.nextId == b.nextId
    ensures forall i :: 0 <= i < |r.regs| ==> r.regs[i] in b.regs && r.regs[i].id != id
    ensures forall i :: 0 <= i < |b.regs| && b.regs[i].id != id ==> b.regs[i] in r.regs
    ensures !Registered(r, id)
  {
    Bus(Filter(NotId(id), b.regs), b.nextId)
  }

  /** `emitRateLimitUpdate(info)`: one call per registration, in order. */
  function Emit<H>(b: Bus<H>, info: RateLimitInfo): (ds: seq<Delivery<H>>)
    ensures |ds| == |b.regs|
  {
    Map((r: Registration<H>) => Delivery(r.id, r.handler, info), b.regs)
  }

  /** Every registered handler is called with the very same snapshot, in
      registration order, and nothing else is called. */
  lemma EmitDeliversToAll<H>(b: Bus<H>, info: RateLimitInfo)
    ensures forall d :: d in Emit(b, info) ==> d.info == info && Registration(d.id, d.handler) in b.regs
    ensures forall r :: r in b.regs ==> Delivery(r.id, r.handler, info) in Emit(b, info)
    ensures forall i :: 0 <= i < |b.regs| ==> Emit(b, info)[i].id == b.regs[i].id
  {
    var ds := Emit(b, info);
    forall r | r in b.regs
      ensures Delivery(r.id, r.handler, info) in ds
    {
      var i :| 0 <= i < |b.regs| && b.regs[i] == r;
      assert ds[i] == Delivery(r.id, r.handler, info);
    }
  }

  /** No replay: a listener added after an emit was not among those the
      emit reached, and it is reached by the next emit. */
  lemma AddedListenerMissesEarlierEmit<H>(b: Bus<H>, h: H, before: RateLimitInfo, after: RateLimitInfo)
    requires Valid(b)
    ensures var (b', id) := AddListener(b, h);
      && (forall d :: d in Emit(b, before) ==> d.id != id)
      && Delivery(id, h, after) in Emit(b', after)
  {
    var (b', id) := AddListener(b, h);
    var ds := Emit(b, before);
    forall d | d in ds
      ensures d.id != id
    {
      var i :| 0 <= i < |ds| && ds[i] == d;
      assert d.id == b.regs[i].id;
    }
    assert Emit(b', after)[|b.regs|] == Delivery(id, h, after);
  }

  /** A cleanup removes only its own registration: every other listener is
      still reached, and the removed one is not. */
  lemma CleanupRemovesOnlyOwn<H>(b: Bus<H>, id: nat, info: RateLimitInfo)
    ensures forall r :: r in b.regs && r.id != id ==> Delivery(r.id, r.handler, info) in Emit(RemoveListener(b, id), info)
    ensures forall d :: d in Emit(RemoveListener(b, id), info) ==> d.id != id
  {
    var b' := RemoveListener(b, id);
    EmitDeliversToAll(b', info);
  }

  /** Calling a cleanup a second time changes nothing. */
  lemma CleanupIdempotent<H>(b: Bus<H>, id: nat)
    ensures RemoveListener(RemoveListener(b, id), id) == RemoveListener(b, id)
  {
    var r := RemoveListener(b, id);
    FilterAll(NotId(id), r.regs);
  }

  /** Registering one handler twice gives two registrations with distinct
      identities, both reached by an emit. */
  lemma AddTwiceDistinct<H>(b: Bus<H>, h: H, info: RateLimitInfo)
    requires Valid(b)
    ensures var (b1, id1) := AddListener(b, h);
      var (b2, id2) := AddListener(b1, h);
      && id1 != id2
      && Delivery(id1, h, info) in Emit(b2, info)
      && Delivery(id2, h, info) in Emit(b2, info)
  {
    var (b1, id1) := AddListener(b, h);
    var (b2, id2) := AddListener(b1, h);
    assert Emit(b2, info)[|b.regs|] == Delivery(id1, h, info);
    assert Emit(b2, info)[|b.regs| + 1] == Delivery(id2, h, info);
  }

  /** Adding a listener and running its cleanup restores the registrations
      that were there before. */
  lemma AddThenCleanupRestores<H>(b: Bus<H>, h: H)
    requires Valid(b)
    ensures var (b', id) := AddListener(b, h); RemoveListener(b', id).regs == b.regs
  {
    var (b', id) := AddListener(b, h);
    FilterConcat(NotId(id), b.regs, [Registration(id, h)]);
    FilterAll(NotId(id), b.regs);
    assert [Registration(id, h)][1..] == [];
  }
}

=== FILE: rate_limit_monitor.dfy ===
/** `RateLimitMonitor`: subscribes to the rate-limit bus on mount, keeps
    the latest snapshot, and renders a panel whose colour, icon, bar and
    wait hint follow the severity of the remaining request count. */
module RateLimitMonitor {
  import opened Basics
  import opened RateLimitBus

  /** `remaining <= 3`; false for NaN, as every comparison with NaN is. */
  predicate IsLow(info: RateLimitInfo) { AtMost(info.remaining, 3) }

  /** `remaining <= 5`. */
  predicate IsWarning(info: RateLimitInfo) { AtMost(info.remaining, 5) }

  datatype Severity = Low | Warning | Fine

  datatype Tone = Red | Yellow | Green

  datatype Icon = Stop | Caution | Check

  /** Severity with the precedence the panel uses: low, then warning. */
  function SeverityOf(info: RateLimitInfo): (s: Severity)
    ensures s == Low <==> AtMost(info.remaining, 3)
    ensures s == Warning <==> AtMost(info.remaining, 5) && !AtMost(info.remaining, 3)
    ensures s == Fine <==> !AtMost(info.remaining, 5)
  {
    if IsLow(info) then Low else if IsWarning(info) then Warning else Fine
  }

  /** A low count is always also a warning count. */
  lemma LowImpliesWarning(info: RateLimitInfo)
    ensures IsLow(info) ==> IsWarning(info)
  {
  }

  function BorderTone(info: RateLimitInfo): Tone {
    if IsLow(info) then Red else if IsWarning(info) then Yellow else Green
  }

  function IconOf(info: RateLimitInfo): Icon {
    if IsLow(info) then Stop else if IsWarning(info) then Caution else Check
  }

  function BarTone(info: RateLimitInfo): Tone {
    if IsLow(info) then Red else if IsWarning(info) then Yellow else Green
  }

  function ToneOf(s: Severity): Tone {
    match s
    case Low => Red
    case Warning => Yellow
    case Fine => Green
  }

  function IconFor(s: Severity): Icon {
    match s
    case Low => Stop
    case Warning => Caution
    case Fine => Check
  }

  /** What the monitor shows for a snapshot. */
  datatype Panel = Panel(border: Tone, icon: Icon, bar: Tone, remaining: JsNumber, total: int, resetIn: string, waitHint: Option<string>)

  /** The rendered monitor: nothing before the first snapshot. */
  function View(state: Option<RateLimitInfo>): (p: Option<Panel>)
    ensures p.Some? <==> state.Some?
    ensures p.Some? ==>
      p.value.remaining == state.value.remaining && p.value.total == state.value.total && p.value.resetIn == state.value.resetIn
  {
    match state
    case None => None
    case Some(info) =>
      Some(Panel(BorderTone(info), IconOf(info), BarTone(info), info.remaining, info.total, info.resetIn,
                 if IsLow(info) then Some(info.resetIn) else None))
  }

  /** Colour, icon and bar all follow the one severity, and the wait hint
      (quoting the reset time) appears exactly when the count is low. */
  lemma ViewFollowsSeverity(info: RateLimitInfo)
    ensures var p := View(Some(info)).value;
      && p.border == ToneOf(SeverityOf(info))
      && p.bar == ToneOf(SeverityOf(info))
      && p.icon == IconFor(SeverityOf(info))
      && (p.waitHint.Some? <==> SeverityOf(info) == Low)
      && (p.waitHint.Some? ==> p.waitHint.value == info.resetIn)
  {
  }

  /** A snapshot whose `remaining` header was not a number renders as fine. */
  lemma NaNIsFine(total: int, resetIn: string)
    ensures SeverityOf(RateLimitInfo(NaN, total, resetIn)) == Fine
  {
  }

  // ---------------------------------------------------------------------
  // Subscription lifecycle

  /** A mounted monitor: its listener identity and its latest snapshot. */
  datatype Monitor = Monitor(id: nat, info: Option<RateLimitInfo>)

  /** The mount effect: subscribe with the state setter `h`. */
  function Mount<H>(b: Bus<H>, h: H): (r: (Bus<H>, Monitor))
    ensures r.1.info.None?
    ensures r.0.regs == b.regs + [Registration(r.1.id, h)]
    ensures Valid(b) ==> Valid(r.0) && !Registered(b, r.1.id)
  {
    var (b', id) := AddListener(b, h);
    (b', Monitor(id, None))
  }

  /** Applies the handler calls of one dispatch that reach this monitor. */
  function Receive<H>(m: Monitor, ds: seq<Delivery<H>>): (r: Monitor)
    ensures r.id == m.id
    ensures (forall i :: 0 <= i < |ds| ==> ds[i].id != m.id) ==> r == m
    ensures |ds| > 0 && ds[|ds| - 1].id == m.id ==> r.info == Some(ds[|ds| - 1].info)
    decreases |ds|
  {
    if |ds| == 0 then m
    else
      var m' := Receive(m, ds[..|ds| - 1]);
      if ds[|ds| - 1].id == m.id then Monitor(m.id, Some(ds[|ds| - 1].info)) else m'
  }

  /** The cleanup effect on unmount. */
  function Unmount<H>(b: Bus<H>, m: Monitor): (r: Bus<H>)
    ensures !Registered(r, m.id)
  {
    RemoveListener(b, m.id)
  }

  /** After mounting, the next emitted snapshot is what the monitor shows. */
  lemma MountedMonitorShowsNextSnapshot<H>(b: Bus<H>, h: H, info: RateLimitInfo)
    requires Valid(b)
    ensures var (b', m) := Mount(b, h);
      var m' := Receive(m, Emit(b', info));
      m'.info == Some(info) && View(m'.info).Some?
  {
    var (b', m) := Mount(b, h);
    var ds := Emit(b', info);
    EmitDeliversToAll(b', info);
    assert ds[|ds| - 1].id == m.id;
    assert ds[|ds| - 1] == Delivery(m.id, h, info);
  }

  /** Unmounting removes exactly the mount's subscription: the bus is back
      to its earlier registrations and later snapshots no longer reach the
      monitor. */
  lemma UnmountRemovesExactlyOwnSubscription<H>(b: Bus<H>, h: H, info: RateLimitInfo)
    requires Valid(b)
    ensures var (b', m) := Mount(b, h);
      && Unmount(b', m).regs == b.regs
      && Receive(m, Emit(Unmount(b', m), info)) == m
  {
    var (b', m) := Mount(b, h);
    AddThenCleanupRestores(b, h);
    var ds := Emit(Unmount(b', m), info);
    EmitDeliversToAll(Unmount(b', m), info);
    forall i | 0 <= i < |ds|
      ensures ds[i].id != m.id
    {
      assert ds[i] in ds;
    }
  }
}

=== FILE: results_tab.dfy ===
/** The results tab of a league page (`results_tab.tsx`): finished matches
    grouped by matchday, groups newest matchday first, and each group's
    matches newest first. Timestamps are integers, so `new Date(..)
    .getTime()` is the timestamp itself. */
module ResultsTab {
  import opened Basics
  import opened Seqs
  import opened Grouping
  import opened Domain

  const Finished: string := "FINISHED"

  predicate IsFinished(m: Match) { m.status == Finished }

  /** `match.matchday || 0`: a missing (or zero) matchday is grouped
      under 0. */
  function MatchdayOf(m: Match): int {
    if m.matchday.Some? then m.matchday.value else 0
  }

  function UtcDate(m: Match): int { m.utcDate }

  function GroupKey(g: Group<int, Match>): int { g.key }

  /** `[...dayMatches].sort((a, b) => time(b) - time(a))`. */
  function SortGroupItems(g: Group<int, Match>): (r: Group<int, Match>)
    ensures r.key == g.key
    ensures multiset(r.items) == multiset(g.items)
    ensures NonIncreasing(UtcDate, r.items)
  {
    Group(g.key, SortDesc(UtcDate, g.items))
  }

  /** `matchesByMatchday`: filter, reduce into matchday groups, order the
      entries by matchday descending, sort each group by date. */
  function MatchesByMatchday(matches: seq<Match>): seq<Group<int, Match>> {
    var grouped := GroupBy(MatchdayOf, Filter(IsFinished, matches));
    Map(SortGroupItems, SortDesc(GroupKey, grouped))
  }

  lemma KeysDistinctIsDistinctBy(gs: seq<Group<int, Match>>)
    requires KeysDistinct(gs)
    ensures DistinctBy(GroupKey, gs)
  {
  }

  /** The matchday groups in tab order, before each group is sorted. */
  function SortedGroups(finished: seq<Match>): seq<Group<int, Match>> {
    SortDesc(GroupKey, GroupBy(MatchdayOf, finished))
  }

  lemma SortedGroupsDescending(finished: seq<Match>)
    ensures var sorted := SortedGroups(finished);
      forall i, j :: 0 <= i < j < |sorted| ==> sorted[i].key > sorted[j].key
  {
    var grouped := GroupBy(MatchdayOf, finished);
    var sorted := SortedGroups(finished);
    GroupByGrouped(MatchdayOf, finished);
    KeysDistinctIsDistinctBy(grouped);
    DistinctByPermutation(GroupKey, grouped, sorted);
    forall i, j | 0 <= i < j < |sorted|
      ensures sorted[i].key > sorted[j].key
    {
      assert GroupKey(sorted[i]) >= GroupKey(sorted[j]);
      assert GroupKey(sorted[i]) != GroupKey(sorted[j]);
    }
  }

  lemma SortedGroupsMembers(finished: seq<Match>)
    ensures var sorted := SortedGroups(finished);
      forall i :: 0 <= i < |sorted| ==> sorted[i].items == Members(MatchdayOf, sorted[i].key, finished)
  {
    var grouped := GroupBy(MatchdayOf, finished);
    var sorted := SortedGroups(finished);
    GroupByGrouped(MatchdayOf, finished);
    forall i | 0 <= i < |sorted|
      ensures sorted[i].items == Members(MatchdayOf, sorted[i].key, finished)
    {
      assert sorted[i] in multiset(grouped);
      var j :| 0 <= j < |grouped| && grouped[j] == sorted[i];
    }
  }

  lemma SortedGroupsPartition(finished: seq<Match>)
    ensures multiset(Flatten(SortedGroups(finished))) == multiset(finished)
  {
    GroupByPartition(MatchdayOf, finished);
    FlattenPermutation(GroupBy(MatchdayOf, finished), SortedGroups(finished));
  }

  /** Matchdays strictly descending, and each group newest first. */
  lemma MatchesByMatchdayOrder(matches: seq<Match>)
    ensures var r := MatchesByMatchday(matches);
      && (forall i, j :: 0 <= i < j < |r| ==> r[i].key > r[j].key)
      && (forall i :: 0 <= i < |r| ==> NonIncreasing(UtcDate, r[i].items))
  {
    var sorted := SortedGroups(Filter(IsFinished, matches));
    var r := MatchesByMatchday(matches);
    assert r == Map(SortGroupItems, sorted);
    SortedGroupsDescending(Filter(IsFinished, matches));
    forall i, j | 0 <= i < j < |r|
      ensures r[i].key > r[j].key
    {
      assert r[i].key == sorted[i].key && r[j].key == sorted[j].key;
    }
  }

  /** Each group holds exactly the finished matches of its matchday, and
      matches of equal date keep their input order. */
  lemma MatchesByMatchdayContents(matches: seq<Match>)
    ensures var finished := Filter(IsFinished, matches);
      var r := MatchesByMatchday(matches);
      && (forall i :: 0 <= i < |r| ==> multiset(r[i].items) == multiset(Members(MatchdayOf, r[i].key, finished)))
      && (forall i, v :: 0 <= i < |r| ==> WithKey(UtcDate, v, r[i].items) == WithKey(UtcDate, v, Members(MatchdayOf, r[i].key, finished)))
  {
    var finished := Filter(IsFinished, matches);
    var sorted := SortedGroups(finished);
    var r := MatchesByMatchday(matches);
    SortedGroupsMembers(finished);
    MatchesByMatchdayMultisets(matches);
    forall i, v | 0 <= i < |r|
      ensures WithKey(UtcDate, v, r[i].items) == WithKey(UtcDate, v, Members(MatchdayOf, r[i].key, finished))
    {
      SortDescStable(UtcDate, v, sorted[i].items);
    }
  }

  /** Each shown group holds, in some order, the finished matches of its
      matchday. */
  lemma MatchesByMatchdayMultisets(matches: seq<Match>)
    ensures var finished := Filter(IsFinished, matches);
      var r := MatchesByMatchday(matches);
      forall i :: 0 <= i < |r| ==> multiset(r[i].items) == multiset(Members(MatchdayOf, r[i].key, finished))
  {
    var finished := Filter(IsFinished, matches);
    var sorted := SortedGroups(finished);
    var r := MatchesByMatchday(matches);
    SortedGroupsMembers(finished);
    assert r == Map(SortGroupItems, sorted);
    forall i | 0 <= i < |r|
      ensures multiset(r[i].items) == multiset(Members(MatchdayOf, r[i].key, finished))
    {
      assert r[i] == SortGroupItems(sorted[i]);
    }
  }

  /** Every finished match appears exactly once over all groups, and there
      are no groups exactly when nothing has finished. */
  lemma MatchesByMatchdayPartition(matches: seq<Match>)
    ensures var finished := Filter(IsFinished, matches);
      var r := MatchesByMatchday(matches);
      && multiset(Flatten(r)) == multiset(finished)
      && (|r| == 0 <==> |finished| == 0)
  {
    var finished := Filter(IsFinished, matches);
    var sorted := SortedGroups(finished);
    var r := MatchesByMatchday(matches);
    SortedGroupsPartition(finished);
    FlattenItemsPermutation(r, sorted);
    if |r| == 0 {
      assert Flatten(r) == [];
    }
  }

  /** A finished match without a matchday is shown in the group of
      matchday 0. */
  lemma MissingMatchdayGroupedUnderZero(matches: seq<Match>, m: Match)
    requires m in matches && IsFinished(m) && m.matchday.None?
    ensures exists i :: 0 <= i < |MatchesByMatchday(matches)| && MatchesByMatchday(matches)[i].key == 0 && m in MatchesByMatchday(matches)[i].items
  {
    var finished := Filter(IsFinished, matches);
    var r := MatchesByMatchday(matches);
    MatchesByMatchdayPartition(matches);
    MatchesByMatchdayMultisets(matches);
    assert m in finished;
    assert m in multiset(Flatten(r));
    var i := InGroupOfItsMatchday(r, finished, m);
  }

  /** In groups that hold their matchday's members, a match of the
      flattened groups sits in the group of its own matchday. */
  lemma InGroupOfItsMatchday(gs: seq<Group<int, Match>>, finished: seq<Match>, m: Match) returns (i: nat)
    requires forall j :: 0 <= j < |gs| ==> multiset(gs[j].items) == multiset(Members(MatchdayOf, gs[j].key, finished))
    requires m in multiset(Flatten(gs))
    ensures i < |gs| && gs[i].key == MatchdayOf(m) && m in gs[i].items
  {
    i := InFlatten(gs, m);
    var k := gs[i].key;
    var members := Members(MatchdayOf, k, finished);
    MembersIsFilter(MatchdayOf, k, finished);
    assert m in multiset(members);
    assert m in Filter(Having(MatchdayOf, k), finished);
    assert Having(MatchdayOf, k)(m);
  }

  /** An element of a flattened grouping sits in one of the groups. */
  lemma {:induction false} InFlatten(gs: seq<Group<int, Match>>, x: Match) returns (i: nat)
    requires x in multiset(Flatten(gs))
    ensures i < |gs| && x in gs[i].items
  {
    if x in gs[0].items {
      i := 0;
    } else {
      assert Flatten(gs) == gs[0].items + Flatten(gs[1..]);
      var k := InFlatten(gs[1..], x);
      i := k + 1;
    }
  }

  /** What the tab renders: the loading shimmer, the groups, and the
      "no finished matches" message. The groups do not wait for loading to
      end: whatever finished matches are known are shown beside the
      shimmer. */
  datatype View = View(shimmer: bool, groups: seq<Group<int, Match>>, emptyMessage: bool)

  function Render(isLoading: bool, matches: seq<Match>): (v: View)
    ensures v.shimmer == isLoading
    ensures v.groups == MatchesByMatchday(matches)
    ensures v.emptyMessage <==> !isLoading && |v.groups| == 0
  {
    var groups := MatchesByMatchday(matches);
    View(isLoading, groups, !isLoading && |groups| == 0)
  }

  /** The empty message appears exactly when loading is over and no match
      has finished. */
  lemma EmptyMessageIffNothingFinished(isLoading: bool, matches: seq<Match>)
    ensures Render(isLoading, matches).emptyMessage <==> !isLoading && forall m :: m in matches ==> !IsFinished(m)
  {
    MatchesByMatchdayPartition(matches);
    if forall m :: m in matches ==> !IsFinished(m) {
      FilterNone(IsFinished, matches);
    } else {
      var m :| m in matches && IsFinished(m);
      assert m in Filter(IsFinished, matches);
    }
  }
}

=== FILE: seqs.dfy ===
/** Sequence operations shared by the mock providers and the views:
    `filter`, `find`, and the stable descending sort the application gets
    from `[...xs].sort((a, b) => key(b) - key(a))` followed by `slice(0, n)`. */
module Seqs {
  import opened Basics

  // ---------------------------------------------------------------------
  // Splitting a sequence at its ends

  lemma HeadSplit<T>(s: seq<T>)
    requires |s| > 0
    ensures s == [s[0]] + s[1..]
    ensures multiset(s) == multiset{s[0]} + multiset(s[1..])
  {
  }

  lemma LastSplit<T>(s: seq<T>)
    requires |s| > 0
    ensures s == s[..|s| - 1] + [s[|s| - 1]]
    ensures multiset(s) == multiset(s[..|s| - 1]) + multiset{s[|s| - 1]}
  {
  }

  lemma EndsSplit<T>(s: seq<T>)
    requires |s| >= 2
    ensures s == [s[0]] + s[1..|s| - 1] + [s[|s| - 1]]
  {
  }

  lemma ConcatTail<T>(a: seq<T>, b: seq<T>)
    requires |a| > 0
    ensures (a + b)[0] == a[0] && (a + b)[1..] == a[1..] + b
  {
  }

  // ---------------------------------------------------------------------
  // filter

  /** `s.filter(p)`. */
  function Filter<T>(p: T -> bool, s: seq<T>): (r: seq<T>)
    ensures |r| <= |s|
    ensures forall x :: x in r ==> x in s && p(x)
    ensures forall x :: x in s && p(x) ==> x in r
    ensures multiset(r) <= multiset(s)
  {
    if |s| == 0 then []
    else
      assert s == [s[0]] + s[1..];
      (if p(s[0]) then [s[0]] else []) + Filter(p, s[1..])
  }

  /** A one-element sequence is kept or dropped whole. */
  lemma FilterSingleton<T>(p: T -> bool, x: T)
    ensures Filter(p, [x]) == if p(x) then [x] else []
  {
    assert [x][1..] == [];
  }

  /** A sequence is the part before index `k`, the element there, and the
      part after it. */
  lemma SplitAround<T>(s: seq<T>, k: nat)
    requires k < |s|
    ensures s == s[..k] + [s[k]] + s[k + 1..]
    ensures RemoveAt(s, k) == s[..k] + s[k + 1..]
  {
  }

  /** Taking the middle piece out of `a + m + b` takes its elements out. */
  lemma MiddleOut<T>(a: seq<T>, m: seq<T>, b: seq<T>)
    ensures multiset(a + m + b) == multiset(m) + multiset(a + b)
  {
    assert multiset(a + m + b) == multiset(a) + multiset(m) + multiset(b);
    assert multiset(a + b) == multiset(a) + multiset(b);
  }

  /** Filtering distributes over concatenation, so it keeps input order. */
  lemma {:induction false} FilterConcat<T>(p: T -> bool, a: seq<T>, b: seq<T>)
    ensures Filter(p, a + b) == Filter(p, a) + Filter(p, b)
    decreases |a|
  {
    if |a| == 0 {
      assert a + b == b;
    } else {
      ConcatTail(a, b);
      FilterConcat(p, a[1..], b);
    }
  }

  /** Two complementary filters split a sequence: every element lands in
      exactly one of them, with its multiplicity. */
  lemma {:induction false} FilterComplement<T>(p: T -> bool, q: T -> bool, s: seq<T>)
    requires forall x :: q(x) == !p(x)
    ensures multiset(Filter(p, s)) + multiset(Filter(q, s)) == multiset(s)
    ensures forall x :: !(x in Filter(p, s) && x in Filter(q, s))
  {
    if |s| > 0 {
      FilterComplement(p, q, s[1..]);
      HeadSplit(s);
    }
  }

  /** Filters by predicates that agree on every element give the same result. */
  lemma {:induction false} FilterSame<T>(p: T -> bool, q: T -> bool, s: seq<T>)
    requires forall x :: x in s ==> p(x) == q(x)
    ensures Filter(p, s) == Filter(q, s)
  {
    if |s| > 0 {
      FilterSame(p, q, s[1..]);
    }
  }

  /** A filter that every element passes keeps everything. */
  lemma {:induction false} FilterAll<T>(p: T -> bool, s: seq<T>)
    requires forall x :: x in s ==> p(x)
    ensures Filter(p, s) == s
  {
    if |s| > 0 {
      FilterAll(p, s[1..]);
      assert s == [s[0]] + s[1..];
    }
  }

  /** A filter that no element passes keeps nothing. */
  lemma {:induction false} FilterNone<T>(p: T -> bool, s: seq<T>)
    requires forall x :: x in s ==> !p(x)
    ensures Filter(p, s) == []
  {
    if |s| > 0 {
      FilterNone(p, s[1..]);
    }
  }

  // ---------------------------------------------------------------------
  // concatenation

  lemma ConcatAssoc<T>(a: seq<T>, b: seq<T>, c: seq<T>)
    ensures a + (b + c) == (a + b) + c
  {
  }

  // ---------------------------------------------------------------------
  // map

  /** `s.map(f)`. */
  function Map<A, B>(f: A -> B, s: seq<A>): (r: seq<B>)
    ensures |r| == |s|
    ensures forall i :: 0 <= i < |s| ==> r[i] == f(s[i])
  {
    if |s| == 0 then [] else [f(s[0])] + Map(f, s[1..])
  }

  lemma MapHead<A, B>(f: A -> B, s: seq<A>)
    requires |s| > 0
    ensures Map(f, s) == [f(s[0])] + Map(f, s[1..])
  {
  }

  lemma {:induction false} MapConcat<A, B>(f: A -> B, a: seq<A>, b: seq<A>)
    ensures Map(f, a + b) == Map(f, a) + Map(f, b)
  {
    assert |Map(f, a + b)| == |Map(f, a) + Map(f, b)|;
    forall i | 0 <= i < |a| + |b|
      ensures Map(f, a + b)[i] == (Map(f, a) + Map(f, b))[i]
    {
      if i < |a| {
        assert (a + b)[i] == a[i];
      } else {
        assert (a + b)[i] == b[i - |a|];
      }
    }
  }

  // ---------------------------------------------------------------------
  // distinct keys

  ghost predicate DistinctBy<T, K>(f: T -> K, s: seq<T>) {
    forall i, j :: 0 <= i < j < |s| ==> f(s[i]) != f(s[j])
  }

  /** `s` without its element at index `k`. */
  function RemoveAt<T>(s: seq<T>, k: nat): (r: seq<T>)
    requires k < |s|
    ensures |r| == |s| - 1
    ensures forall i :: 0 <= i < |r| ==> r[i] == s[if i < k then i else i + 1]
    ensures multiset(r) == multiset(s) - multiset{s[k]}
  {
    assert s == s[..k] + [s[k]] + s[k + 1..];
    s[..k] + s[k + 1..]
  }

  lemma DistinctByRemoveAt<T, K>(f: T -> K, s: seq<T>, k: nat)
    requires k < |s| && DistinctBy(f, s)
    ensures DistinctBy(f, RemoveAt(s, k))
    ensures forall x :: x in RemoveAt(s, k) ==> f(x) != f(s[k])
  {
    var r := RemoveAt(s, k);
    forall i, j | 0 <= i < j < |r|
      ensures f(r[i]) != f(r[j])
    {
      var i' := if i < k then i else i + 1;
      var j' := if j < k then j else j + 1;
      assert r[i] == s[i'] && r[j] == s[j'];
    }
    forall x | x in r
      ensures f(x) != f(s[k])
    {
      var m :| 0 <= m < |r| && r[m] == x;
      assert r[m] == s[if m < k then m else m + 1];
    }
  }

  /** Distinct keys survive any rearrangement of the same elements. */
  lemma {:induction false} DistinctByPermutation<T, K>(f: T -> K, a: seq<T>, b: seq<T>)
    requires DistinctBy(f, a)
    requires multiset(a) == multiset(b)
    ensures DistinctBy(f, b)
    decreases |b|
  {
    if |b| > 0 {
      HeadSplit(b);
      assert b[0] in multiset(a);
      var k :| 0 <= k < |a| && a[k] == b[0];
      var a', t := RemoveAt(a, k), b[1..];
      DistinctByRemoveAt(f, a, k);
      DistinctByPermutation(f, a', t);
      SameElements(a', t);
      ConsDistinct(f, b[0], t);
    }
  }

  /** Sequences with the same multiset have the same elements. */
  lemma SameElements<T>(a: seq<T>, b: seq<T>)
    requires multiset(a) == multiset(b)
    ensures forall x :: x in b ==> x in a
  {
    forall x | x in b
      ensures x in a
    {
      assert x in multiset(b);
    }
  }

  /** Putting in front an element whose key no element of a distinct
      sequence has keeps the keys distinct. */
  lemma ConsDistinct<T, K>(f: T -> K, h: T, t: seq<T>)
    requires DistinctBy(f, t)
    requires forall x :: x in t ==> f(x) != f(h)
    ensures DistinctBy(f, [h] + t)
  {
    var r := [h] + t;
    forall i, j | 0 <= i < j < |r|
      ensures f(r[i]) != f(r[j])
    {
      assert r[j] == t[j - 1];
      if i > 0 {
        assert r[i] == t[i - 1];
      }
    }
  }

  // ---------------------------------------------------------------------
  // find

  /** Index of the first element satisfying `p`, as `findIndex` computes it. */
  function FirstIndex<T>(p: T -> bool, s: seq<T>): (r: Option<nat>)
    ensures r.Some? ==> r.value < |s| && p(s[r.value])
    ensures r.Some? ==> forall j :: 0 <= j < r.value ==> !p(s[j])
    ensures r.None? ==> forall j :: 0 <= j < |s| ==> !p(s[j])
  {
    if |s| == 0 then None
    else if p(s[0]) then Some(0)
    else match FirstIndex(p, s[1..])
      case None => None
      case Some(i) => Some(i + 1)
  }

  /** `s.find(p)`: the first element satisfying `p`, or nothing. */
  function Find<T>(p: T -> bool, s: seq<T>): (r: Option<T>)
    ensures r.Some? <==> exists i :: 0 <= i < |s| && p(s[i])
    ensures r.Some? ==> p(r.value) && r.value in s
    ensures r.Some? ==> exists i :: 0 <= i < |s| && s[i] == r.value && forall j :: 0 <= j < i ==> !p(s[j])
  {
    match FirstIndex(p, s)
    case None => None
    case Some(i) => Some(s[i])
  }

  // ---------------------------------------------------------------------
  // Stable sort by a numeric key, largest first

  ghost predicate NonIncreasing<T>(key: T -> int, s: seq<T>) {
    forall i, j :: 0 <= i < j < |s| ==> key(s[i]) >= key(s[j])
  }

  /** Places `x` in front of the first element whose key is not larger, so
      that `x` precedes every element of equal key. */
  function InsertDesc<T>(key: T -> int, x: T, s: seq<T>): (r: seq<T>)
    ensures |r| == |s| + 1
    ensures multiset(r) == multiset(s) + multiset{x}
  {
    if |s| == 0 then [x]
    else if key(s[0]) <= key(x) then [x] + s
    else
      assert s == [s[0]] + s[1..];
      [s[0]] + InsertDesc(key, x, s[1..])
  }

  lemma {:induction false} InsertDescSorted<T>(key: T -> int, x: T, s: seq<T>)
    requires NonIncreasing(key, s)
    ensures NonIncreasing(key, InsertDesc(key, x, s))
  {
    if |s| == 0 {
    } else if key(s[0]) <= key(x) {
      HeadBounds(key, s);
      ConsNonIncreasing(key, x, s);
    } else {
      var t := s[1..];
      HeadBounds(key, s);
      InsertDescSorted(key, x, t);
      InsertDescAtMost(key, key(s[0]), x, t);
      ConsNonIncreasing(key, s[0], InsertDesc(key, x, t));
    }
  }

  /** Every key of `s` is at most `b`. */
  ghost predicate AtMost<T>(key: T -> int, b: int, s: seq<T>) {
    forall k :: 0 <= k < |s| ==> key(s[k]) <= b
  }

  /** A non-increasing sequence is bounded by its head, and so is its tail,
      which is again non-increasing. */
  lemma HeadBounds<T>(key: T -> int, s: seq<T>)
    requires |s| > 0 && NonIncreasing(key, s)
    ensures AtMost(key, key(s[0]), s)
    ensures AtMost(key, key(s[0]), s[1..]) && NonIncreasing(key, s[1..])
  {
    forall k | 0 < k < |s|
      ensures key(s[k]) <= key(s[0])
    {
      assert 0 < k;
    }
    var t := s[1..];
    forall i, j | 0 <= i < j < |t|
      ensures key(t[i]) >= key(t[j])
    {
      assert t[i] == s[i + 1] && t[j] == s[j + 1];
    }
  }

  /** Putting in front an element whose key bounds a non-increasing
      sequence keeps it non-increasing. */
  lemma ConsNonIncreasing<T>(key: T -> int, h: T, t: seq<T>)
    requires NonIncreasing(key, t) && AtMost(key, key(h), t)
    ensures NonIncreasing(key, [h] + t)
  {
    var r := [h] + t;
    forall i, j | 0 <= i < j < |r|
      ensures key(r[i]) >= key(r[j])
    {
      assert r[j] == t[j - 1];
      if i > 0 {
        assert r[i] == t[i - 1];
      }
    }
  }

  /** Inserting an element within a bound keeps the whole within it. */
  lemma {:induction false} InsertDescAtMost<T>(key: T -> int, b: int, x: T, s: seq<T>)
    requires AtMost(key, b, s) && key(x) <= b
    ensures AtMost(key, b, InsertDesc(key, x, s))
  {
    var r := InsertDesc(key, x, s);
    if |s| == 0 {
    } else if key(s[0]) <= key(x) {
      assert r == [x] + s;
      forall k | 0 < k < |r|
        ensures key(r[k]) <= b
      {
        assert r[k] == s[k - 1];
      }
    } else {
      var t := s[1..];
      assert AtMost(key, b, t) by {
        forall k | 0 <= k < |t|
          ensures key(t[k]) <= b
        {
          assert t[k] == s[k + 1];
        }
      }
      InsertDescAtMost(key, b, x, t);
      var r' := InsertDesc(key, x, t);
      assert r == [s[0]] + r';
      forall k | 0 < k < |r|
        ensures key(r[k]) <= b
      {
        assert r[k] == r'[k - 1];
      }
    }
  }

  /** The order `Array.prototype.sort` (a stable sort) produces with the
      comparator `(a, b) => key(b) - key(a)`. */
  function SortDesc<T>(key: T -> int, s: seq<T>): (r: seq<T>)
    ensures |r| == |s|
    ensures multiset(r) == multiset(s)
    ensures NonIncreasing(key, r)
  {
    if |s| == 0 then []
    else
      assert s == [s[0]] + s[1..];
      var rest := SortDesc(key, s[1..]);
      InsertDescSorted(key, s[0], rest);
      InsertDesc(key, s[0], rest)
  }

  /** The elements whose key equals `v`, in order. */
  function WithKey<T>(key: T -> int, v: int, s: seq<T>): seq<T> {
    if |s| == 0 then []
    else (if key(s[0]) == v then [s[0]] else []) + WithKey(key, v, s[1..])
  }

  /** Two pieces of which one is empty can be put in either order. */
  lemma SwapEmpty<T>(a: seq<T>, b: seq<T>, w: seq<T>)
    requires a == [] || b == []
    ensures a + (b + w) == b + (a + w)
  {
    if a == [] {
      assert a + (b + w) == b + w && a + w == w;
    } else {
      assert b + w == w && b + (a + w) == a + w;
    }
  }

  lemma WithKeyCons<T>(key: T -> int, v: int, y: T, t: seq<T>)
    ensures WithKey(key, v, [y] + t) == (if key(y) == v then [y] else []) + WithKey(key, v, t)
  {
    ConcatTail([y], t);
  }

  lemma {:induction false} InsertDescWithKey<T>(key: T -> int, v: int, x: T, s: seq<T>)
    ensures WithKey(key, v, InsertDesc(key, x, s))
         == (if key(x) == v then [x] else []) + WithKey(key, v, s)
  {
    var hx: seq<T> := if key(x) == v then [x] else [];
    if |s| == 0 {
      assert InsertDesc(key, x, s) == [x] + s;
      WithKeyCons(key, v, x, s);
    } else if key(s[0]) <= key(x) {
      assert InsertDesc(key, x, s) == [x] + s;
      WithKeyCons(key, v, x, s);
    } else {
      var tail := InsertDesc(key, x, s[1..]);
      assert InsertDesc(key, x, s) == [s[0]] + tail;
      InsertDescWithKey(key, v, x, s[1..]);
      var h0: seq<T> := if key(s[0]) == v then [s[0]] else [];
      var w := WithKey(key, v, s[1..]);
      WithKeyCons(key, v, s[0], tail);
      HeadSplit(s);
      WithKeyCons(key, v, s[0], s[1..]);
      // `s[0]` outranks `x`, so at most one of them has key `v`.
      assert hx == [] || h0 == [];
      SwapEmpty(h0, hx, w);
    }
  }

  /** Stability: elements of equal key keep their input order. */
  lemma {:induction false} SortDescStable<T>(key: T -> int, v: int, s: seq<T>)
    ensures WithKey(key, v, SortDesc(key, s)) == WithKey(key, v, s)
  {
    if |s| > 0 {
      SortDescStable(key, v, s[1..]);
      InsertDescWithKey(key, v, s[0], SortDesc(key, s[1..]));
    }
  }

  lemma {:induction false} WithKeyConcat<T>(key: T -> int, v: int, a: seq<T>, b: seq<T>)
    ensures WithKey(key, v, a + b) == WithKey(key, v, a) + WithKey(key, v, b)
  {
    if |a| > 0 {
      assert (a + b)[1..] == a[1..] + b;
      WithKeyConcat(key, v, a[1..], b);
    } else {
      assert a + b == b;
    }
  }

  // ---------------------------------------------------------------------
  // Top-N: `[...s].sort(desc by key).slice(0, limit)`

  function TopBy<T>(key: T -> int, s: seq<T>, limit: int): (r: seq<T>)
    ensures |r| == SliceEnd(|s|, limit)
    ensures NonIncreasing(key, r)
    ensures multiset(r) <= multiset(s)
  {
    var sorted := SortDesc(key, s);
    assert sorted == Slice0(sorted, limit) + sorted[|Slice0(sorted, limit)|..];
    Slice0(sorted, limit)
  }

  /** Whatever `TopBy` leaves out ranks no higher than the last element it
      keeps. */
  lemma TopByExcludedRankLower<T>(key: T -> int, s: seq<T>, limit: int)
    requires |TopBy(key, s, limit)| > 0
    ensures var r := TopBy(key, s, limit);
      forall x :: x in multiset(s) - multiset(r) ==> key(x) <= key(r[|r| - 1])
  {
    var r := TopBy(key, s, limit);
    var sorted := SortDesc(key, s);
    var rest := sorted[|r|..];
    assert sorted == r + rest;
    assert multiset(s) - multiset(r) == multiset(rest);
    forall x | x in multiset(s) - multiset(r)
      ensures key(x) <= key(r[|r| - 1])
    {
      assert x in rest;
      var j :| 0 <= j < |rest| && rest[j] == x;
      assert sorted[|r| + j] == x;
      assert sorted[|r| - 1] == r[|r| - 1];
    }
  }

  /** Ties keep input order: the kept elements of any one key are a prefix
      of that key's elements in the input. */
  lemma TopByStable<T>(key: T -> int, s: seq<T>, limit: int, v: int)
    ensures IsPrefixOf(WithKey(key, v, TopBy(key, s, limit)), WithKey(key, v, s))
  {
    var r := TopBy(key, s, limit);
    var sorted := SortDesc(key, s);
    assert sorted == r + sorted[|r|..];
    WithKeyConcat(key, v, r, sorted[|r|..]);
    SortDescStable(key, v, s);
  }
}

=== FILE: settings.dfy ===
/** The settings provider (`contexts/settings_context.tsx`): settings loaded
    from local storage or defaulted, partial updates merged in and
    persisted, and the settings modal's open flag. The JSON text in storage
    is represented by what it decodes to. */
module Settings {
  import opened Basics

  /** `Settings`: the theme mode and the language code. */
  datatype Settings = Settings(theme: string, language: string)

  const Defaults: Settings := Settings("system", "de")

  /** What reading the storage key gives: the read throws, the key is
      missing or holds "", the text does not parse, or it parses to
      settings. */
  datatype Stored = ReadFails | Missing | Unparseable | Parsed(value: Settings)

  /** The initial state: defaults outside a browser, else the stored
      settings when there are any, else defaults. Every failure falls back
      to the defaults. */
  function InitialSettings(hasWindow: bool, stored: Stored): (s: Settings)
    ensures hasWindow && stored.Parsed? ==> s == stored.value
    ensures !hasWindow || !stored.Parsed? ==> s == Defaults
  {
    if !hasWindow then Defaults
    else match stored
      case Parsed(v) => v
      case _ => Defaults
  }

  /** `Partial<Settings>`: each key present or absent. */
  datatype Update = Update(theme: Option<string>, language: Option<string>)

  const NoChange: Update := Update(None, None)

  /** `{ ...prev, ...updates }`: the keys present in the update replace
      those of `prev`. */
  function Merge(prev: Settings, u: Update): (s: Settings)
    ensures u.theme.Some? ==> s.theme == u.theme.value
    ensures u.theme.None? ==> s.theme == prev.theme
    ensures u.language.Some? ==> s.language == u.language.value
    ensures u.language.None? ==> s.language == prev.language
  {
    Settings(
      if u.theme.Some? then u.theme.value else prev.theme,
      if u.language.Some? then u.language.value else prev.language)
  }

  /** An empty update changes nothing. */
  lemma MergeNothing(s: Settings)
    ensures Merge(s, NoChange) == s
  {
  }

  /** Applying an update twice is applying it once. */
  lemma MergeIdempotent(s: Settings, u: Update)
    ensures Merge(Merge(s, u), u) == Merge(s, u)
  {
  }

  /** Two updates in a row are one update whose keys are the second's,
      falling back to the first's. */
  function Then(u1: Update, u2: Update): Update {
    Update(if u2.theme.Some? then u2.theme else u1.theme,
           if u2.language.Some? then u2.language else u1.language)
  }

  lemma MergeThen(s: Settings, u1: Update, u2: Update)
    ensures Merge(Merge(s, u1), u2) == Merge(s, Then(u1, u2))
  {
  }

  /** An update naming every key makes the result independent of the
      previous settings. */
  lemma FullUpdateOverwrites(s1: Settings, s2: Settings, u: Update)
    requires u.theme.Some? && u.language.Some?
    ensures Merge(s1, u) == Merge(s2, u)
  {
  }

  /** The provider's state: the settings, whether the modal is open, and
      what local storage holds under the settings key. */
  datatype State = State(settings: Settings, isOpen: bool, storage: Stored)

  /** `updateSettings(updates)`: the merged settings become the state and,
      when the write succeeds, the stored value; a failing write is only
      logged. */
  function UpdateSettings(st: State, u: Update, writeSucceeds: bool): (st': State)
    ensures st'.settings == Merge(st.settings, u)
    ensures st'.isOpen == st.isOpen
    ensures writeSucceeds ==> st'.storage == Parsed(st'.settings)
    ensures !writeSucceeds ==> st'.storage == st.storage
  {
    var merged := Merge(st.settings, u);
    State(merged, st.isOpen, if writeSucceeds then Parsed(merged) else st.storage)
  }

  /** After a successful update, reloading the page in a browser starts
      from exactly the updated settings. */
  lemma ReloadRestoresUpdate(st: State, u: Update)
    ensures var st' := UpdateSettings(st, u, true);
      InitialSettings(true, st'.storage) == st'.settings
  {
  }

  /** `openSettings` and `closeSettings`: set the flag, nothing else. */
  function OpenSettings(st: State): (st': State)
    ensures st'.isOpen && st'.settings == st.settings && st'.storage == st.storage
  {
    st.(isOpen := true)
  }

  function CloseSettings(st: State): (st': State)
    ensures !st'.isOpen && st'.settings == st.settings && st'.storage == st.storage
  {
    st.(isOpen := false)
  }

  /** Opening or closing twice is the same as once, and closing after
      opening gives back a closed modal. */
  lemma OpenCloseIdempotent(st: State)
    ensures OpenSettings(OpenSettings(st)) == OpenSettings(st)
    ensures CloseSettings(CloseSettings(st)) == CloseSettings(st)
    ensures CloseSettings(OpenSettings(st)) == CloseSettings(st)
  {
  }
}

=== FILE: team_loader.dfy ===
/** The route loaders of `football_data.loader.server.ts`: fetch teams with
    `getTeam` and seed the query cache under the keys `useTeam` reads.

    `getTeam` is an input (what the client resolves or rejects with for an
    id); each loader is a transition from the cache before to the cache
    after, together with its result and the ids it fetched. */
module TeamLoader {
  import opened Basics
  import opened Seqs
  import opened QueryKeys
  import opened QueryCache

  datatype Run<V, E> = Run(cache: Cache<V>, result: Result<V, E>, fetched: seq<int>)

  /** `loadTeam(teamId)`: on success the team is cached under
      `['team', teamId]` and returned; on failure the error is rethrown and
      the cache is left as it was. */
  function LoadTeam<V, E>(c: Cache<V>, teamId: int, getTeam: int -> Result<V, E>): (r: Run<V, E>)
    ensures r.fetched == [teamId]
    ensures r.result.Ok? <==> getTeam(teamId).Ok?
    ensures r.result.Ok? ==> r.result.value == getTeam(teamId).value
    ensures r.result.Ok? ==> CachedData(r.cache, TeamKey(teamId)) == Some(r.result.value)
    ensures r.result.Ok? ==> SameExcept(c, r.cache, {TeamKey(teamId)})
    ensures r.result.Err? ==> r.cache == c && r.result.error == getTeam(teamId).error
  {
    match getTeam(teamId)
    case Err(e) => Run(c, Err(e), [teamId])
    case Ok(team) => Run(SetQueryData(c, TeamKey(teamId), Some(team)), Ok(team), [teamId])
  }

  datatype LoadError<E> = InvalidTeamId | FetchFailed(error: E)

  /** `loadTeamWithValidation(teamId)`: reject a zero or negative id before
      anything else, answer from the cache when it holds a truthy value,
      and otherwise delegate to `loadTeam`. */
  function LoadTeamWithValidation<V, E>(c: Cache<V>, teamId: int, getTeam: int -> Result<V, E>): (r: Run<V, LoadError<E>>)
    ensures teamId <= 0 ==> r == Run(c, Err(InvalidTeamId), [])
    ensures teamId > 0 && CachedData(c, TeamKey(teamId)).Some? ==>
      r == Run(c, Ok(CachedData(c, TeamKey(teamId)).value), [])
    ensures teamId > 0 && CachedData(c, TeamKey(teamId)).None? ==>
      && r.fetched == [teamId]
      && (r.result.Ok? <==> getTeam(teamId).Ok?)
      && (r.result.Ok? ==> r.result.value == getTeam(teamId).value && SameExcept(c, r.cache, {TeamKey(teamId)}))
      && (r.result.Err? ==> r.result.error == FetchFailed(getTeam(teamId).error))
    ensures r.result.Ok? ==> CachedData(r.cache, TeamKey(teamId)) == Some(r.result.value)
    ensures r.result.Err? && r.result.error.FetchFailed? ==> r.cache == c
  {
    if teamId == 0 || teamId < 0 then Run(c, Err(InvalidTeamId), [])
    else match CachedData(c, TeamKey(teamId))
      case Some(d) => Run(c, Ok(d), [])
      case None =>
        var r := LoadTeam(c, teamId, getTeam);
        Run(r.cache, if r.result.Ok? then Ok(r.result.value) else Err(FetchFailed(r.result.error)), r.fetched)
  }

  /** After a validated load succeeds, loading the same team again is
      answered from the cache: same value, same cache, no fetch. */
  lemma SecondValidatedLoadHitsCache<V, E>(c: Cache<V>, teamId: int, getTeam: int -> Result<V, E>)
    requires LoadTeamWithValidation(c, teamId, getTeam).result.Ok?
    ensures var r1 := LoadTeamWithValidation(c, teamId, getTeam);
      var r2 := LoadTeamWithValidation(r1.cache, teamId, getTeam);
      r2 == Run(r1.cache, r1.result, [])
  {
  }

  /** A plain `loadTeam` of an id that `useTeam` will then ask for leaves
      exactly the data the hook reads. */
  lemma LoadedTeamIsWhatHookReads<V, E>(c: Cache<V>, teamId: int, getTeam: int -> Result<V, E>)
    requires getTeam(teamId).Ok?
    ensures CachedData(LoadTeam(c, teamId, getTeam).cache, UseTeam(teamId).key) == Some(getTeam(teamId).value)
  {
  }

  /** The ids whose fetch rejects. */
  function Rejects<V, E>(getTeam: int -> Result<V, E>): int -> bool {
    (id: int) => getTeam(id).Err?
  }

  function TeamKeys(teamIds: seq<int>): set<Key> {
    set i | 0 <= i < |teamIds| :: TeamKey(teamIds[i])
  }

  /** `loadMultipleTeams(teamIds)`: all teams are fetched together; if any
      fetch rejects the batch rejects (with the first failing id's error,
      in id order) and nothing is cached; otherwise `teams[i]` is cached
      under `['team', teamIds[i]]` and the teams come back in id order. */
  method LoadMultipleTeams<V, E>(c: Cache<V>, teamIds: seq<int>, getTeam: int -> Result<V, E>)
    returns (c': Cache<V>, r: Result<seq<V>, E>)
    ensures r.Err? <==> exists i :: 0 <= i < |teamIds| && getTeam(teamIds[i]).Err?
    ensures r.Err? ==> c' == c
    ensures r.Err? ==> var k := FirstIndex(Rejects(getTeam), teamIds); k.Some? && r.error == getTeam(teamIds[k.value]).error
    ensures r.Ok? ==> |r.value| == |teamIds|
    ensures r.Ok? ==> forall i :: 0 <= i < |teamIds| ==> getTeam(teamIds[i]) == Ok(r.value[i])
    ensures r.Ok? ==> forall i :: 0 <= i < |teamIds| ==> CachedData(c', TeamKey(teamIds[i])) == Some(r.value[i])
    ensures r.Ok? ==> SameExcept(c, c', TeamKeys(teamIds))
  {
    r := FetchAllTeams(teamIds, getTeam);
    if r.Err? {
      return c, r;
    }
    c' := CacheTeams(c, teamIds, r.value);
  }

  /** `Promise.all(teamIds.map(getTeam))`: the teams in id order, or the
      error of the first id, by position, whose fetch rejects. */
  method FetchAllTeams<V, E>(teamIds: seq<int>, getTeam: int -> Result<V, E>) returns (r: Result<seq<V>, E>)
    ensures r.Err? <==> exists i :: 0 <= i < |teamIds| && getTeam(teamIds[i]).Err?
    ensures r.Err? ==> var k := FirstIndex(Rejects(getTeam), teamIds); k.Some? && r.error == getTeam(teamIds[k.value]).error
    ensures r.Ok? ==> |r.value| == |teamIds|
    ensures r.Ok? ==> forall i :: 0 <= i < |teamIds| ==> getTeam(teamIds[i]) == Ok(r.value[i])
  {
    var teams: seq<V> := [];
    var i := 0;
    while i < |teamIds|
      invariant 0 <= i <= |teamIds| && |teams| == i
      invariant forall j :: 0 <= j < i ==> getTeam(teamIds[j]) == Ok(teams[j])
    {
      match getTeam(teamIds[i])
      case Err(e) =>
        assert FirstIndex(Rejects(getTeam), teamIds) == Some(i) by {
          assert Rejects(getTeam)(teamIds[i]);
        }
        return Err(e);
      case Ok(t) =>
        teams := teams + [t];
      i := i + 1;
    }
    r := Ok(teams);
  }

  /** `teams.forEach((team, index) => setQueryData(['team', teamIds[index]], team))`:
      every team ends up under its id's key and no other key changes. Ids
      that repeat carry the same team. */
  method CacheTeams<V>(c: Cache<V>, teamIds: seq<int>, teams: seq<V>) returns (c': Cache<V>)
    requires |teams| == |teamIds|
    requires forall i, j :: 0 <= i < |teamIds| && 0 <= j < |teamIds| && teamIds[i] == teamIds[j] ==> teams[i] == teams[j]
    ensures forall i :: 0 <= i < |teamIds| ==> CachedData(c', TeamKey(teamIds[i])) == Some(teams[i])
    ensures SameExcept(c, c', TeamKeys(teamIds))
  {
    c' := c;
    var i := 0;
    while i < |teams|
      invariant 0 <= i <= |teams|
      invariant forall j :: 0 <= j < i ==> CachedData(c', TeamKey(teamIds[j])) == Some(teams[j])
      invariant SameExcept(c, c', TeamKeys(teamIds[..i]))
    {
      c' := SetQueryData(c', TeamKey(teamIds[i]), Some(teams[i]));
      TeamKeysSnoc(teamIds, i);
      i := i + 1;
    }
    assert teamIds[..|teamIds|] == teamIds;
  }

  lemma TeamKeysSnoc(teamIds: seq<int>, i: nat)
    requires i < |teamIds|
    ensures TeamKeys(teamIds[..i + 1]) == TeamKeys(teamIds[..i]) + {TeamKey(teamIds[i])}
  {
    assert forall j :: 0 <= j < i ==> teamIds[..i + 1][j] == teamIds[..i][j];
    assert teamIds[..i + 1][i] == teamIds[i];
  }
}

=== FILE: teams_mock.dfy ===
/** `teams.mock.ts`: lookup in the bundled team dataset. `getAllTeams` is
    the dataset itself. */
module TeamsMock {
  import opened Basics
  import opened Seqs
  import opened Domain

  function TeamHasId(id: string): MockTeam -> bool { (t: MockTeam) => t.id == id }

  /** `getTeamById(id)`: the first team with that id, or `undefined`. */
  function GetTeamById(ts: seq<MockTeam>, id: string): (r: Option<MockTeam>)
    ensures r.None? <==> forall i :: 0 <= i < |ts| ==> ts[i].id != id
    ensures r.Some? ==> r.value.id == id
    ensures r.Some? ==> exists i :: 0 <= i < |ts| && ts[i] == r.value && forall j :: 0 <= j < i ==> ts[j].id != id
  {
    var r := Find(TeamHasId(id), ts);
    assert r.Some? ==> TeamHasId(id)(r.value);
    r
  }
}

=== FILE: theme.dfy ===
/** The theme provider (`contexts/theme_context.tsx`): the chosen mode
    ("light", "dark" or "system"), the effective theme it resolves to, the
    `dark` class on the root element, and the OS-preference listener. The
    stored mode is read without validation, so the mode is any string. The
    OS preference and whether local storage accepts a write are
    parameters. */
module Theme {
  import opened Basics

  const Light: string := "light"
  const Dark: string := "dark"
  const System: string := "system"

  /** The initial mode: "system" outside a browser, else the stored mode
      unless it is missing or empty. */
  function InitialTheme(hasWindow: bool, stored: Option<string>): (t: string)
    ensures t == System <==> !hasWindow || stored.None? || stored.value == "" || stored.value == System
    ensures t != System ==> stored.Some? && t == stored.value
  {
    if hasWindow && stored.Some? && stored.value != "" then stored.value else System
  }

  /** `calculateEffectiveTheme`: "system" follows the OS preference, any
      other mode is its own effective theme. */
  function EffectiveTheme(theme: string, prefersDark: bool): (e: string)
    ensures e != System
    ensures theme == System ==> (e == Dark <==> prefersDark) && (e == Light <==> !prefersDark)
    ensures theme != System ==> e == theme
  {
    if theme == System then (if prefersDark then Dark else Light) else theme
  }

  /** The provider's state: mode, effective theme, whether the root has
      the `dark` class, whether the OS listener is registered, and the
      stored mode. */
  datatype State = State(theme: string, effective: string, darkClass: bool, listening: bool, stored: Option<string>)

  /** The effect that runs whenever the mode changes: resolve the
      effective theme, set the class to match, and listen to the OS only in
      "system" mode. */
  function ApplyTheme(st: State, prefersDark: bool): (st': State)
    ensures st'.theme == st.theme && st'.stored == st.stored
    ensures st'.effective == EffectiveTheme(st.theme, prefersDark)
    ensures st'.darkClass <==> st'.effective == Dark
    ensures st'.listening <==> st.theme == System
  {
    var e := EffectiveTheme(st.theme, prefersDark);
    State(st.theme, e, e == Dark, st.theme == System, st.stored)
  }

  /** The state on mount, after the first effect; before it the effective
      theme is "dark". */
  function Mount(hasWindow: bool, stored: Option<string>, prefersDark: bool): (st: State)
    ensures st.theme == InitialTheme(hasWindow, stored)
    ensures st.darkClass <==> st.effective == Dark
    ensures st.effective != System
  {
    ApplyTheme(State(InitialTheme(hasWindow, stored), Dark, false, false, stored), prefersDark)
  }

  /** `setTheme(mode)`: the state gets the mode, then the mode is written
      to local storage, then the effect runs. When the storage refuses the
      write (`setItem` throws) the stored value stays as it was; the state
      update was already queued, so the mode still changes. */
  function SetTheme(st: State, mode: string, prefersDark: bool, storageWritable: bool): (st': State)
    ensures st'.theme == mode
    ensures st'.stored == if storageWritable then Some(mode) else st.stored
    ensures st'.effective == EffectiveTheme(mode, prefersDark)
    ensures st'.darkClass <==> st'.effective == Dark
    ensures st'.listening <==> mode == System
  {
    var stored := if storageWritable then Some(mode) else st.stored;
    ApplyTheme(st.(theme := mode, stored := stored), prefersDark)
  }

  /** An OS preference change: only a registered listener re-runs the
      update; otherwise nothing changes. */
  function OsPreferenceChanged(st: State, prefersDark: bool): (st': State)
    ensures !st.listening ==> st' == st
    ensures st.listening ==> st'.effective == EffectiveTheme(st.theme, prefersDark)
  {
    if st.listening then ApplyTheme(st, prefersDark) else st
  }

  /** After the effect has run, an explicit mode is immune to the OS: a
      preference change leaves the state exactly as it is; in "system" mode
      the effective theme follows the new preference. */
  lemma ExplicitModeIgnoresOs(st: State, before: bool, after: bool)
    ensures var applied := ApplyTheme(st, before);
      && (st.theme != System ==> OsPreferenceChanged(applied, after) == applied)
      && (st.theme == System ==> (OsPreferenceChanged(applied, after).effective == Dark <==> after))
  {
  }

  /** A mode set and then reloaded is the mode the page starts with, when
      the storage accepted it; otherwise the reload sees the old stored
      mode. */
  lemma SetThemeSurvivesReload(st: State, mode: string, prefersDark: bool, storageWritable: bool)
    requires mode != ""
    ensures storageWritable ==> InitialTheme(true, SetTheme(st, mode, prefersDark, storageWritable).stored) == mode
    ensures !storageWritable ==>
      InitialTheme(true, SetTheme(st, mode, prefersDark, storageWritable).stored) == InitialTheme(true, st.stored)
  {
  }
}

=== FILE: today_matches.dfy ===
/** The "today's matches" accordion of the home page
    (`today_matches_section.tsx`): one collapsible panel per league, whose
    matches query runs only while the panel is open. The current instant is
    a parameter (its ISO-8601 text); the query's loading, error and data
    are parameters as the hook reports them. */
module TodayMatches {
  import opened Basics
  import opened Domain
  import opened QueryKeys

  // ---------------------------------------------------------------------
  // Today's date

  /** `new Date().toISOString().split('T')[0]`: everything before the first
      'T'. */
  function TodayOf(iso: string): (day: string)
    ensures 'T' !in day
    ensures IsPrefix(day, iso)
    ensures |day| < |iso| ==> iso[|day|] == 'T'
  {
    SplitFirst(iso, 'T');
    Split(iso, 'T')[0]
  }

  /** The first part of a split is the longest separator-free prefix. */
  lemma {:induction false} SplitFirst(s: string, sep: char)
    ensures IsPrefix(Split(s, sep)[0], s)
    ensures |Split(s, sep)[0]| < |s| ==> s[|Split(s, sep)[0]|] == sep
  {
    if |s| > 0 && s[0] != sep {
      SplitFirst(s[1..], sep);
      var rest := Split(s[1..], sep);
      assert Split(s, sep)[0] == [s[0]] + rest[0];
      assert s[..|rest[0]| + 1] == [s[0]] + s[1..][..|rest[0]|];
    }
  }

  /** On an ISO timestamp `date + "T" + time` the date part is today. */
  lemma TodayOfTimestamp(date: string, time: string)
    requires 'T' !in date
    ensures TodayOf(date + "T" + time) == date
  {
    SplitHeadFree(date, time, 'T');
  }

  // ---------------------------------------------------------------------
  // Which panels are open

  /** `toggleLeague(id)`: the id leaves the set if it was in it and joins
      it otherwise; no other id changes. */
  function Toggle(expanded: set<int>, id: int): (r: set<int>)
    ensures id in r <==> id !in expanded
    ensures forall x :: x != id ==> (x in r <==> x in expanded)
  {
    if id in expanded then expanded - {id} else expanded + {id}
  }

  /** Clicking a header twice leaves every panel as it was. */
  lemma ToggleTwice(expanded: set<int>, id: int)
    ensures Toggle(Toggle(expanded, id), id) == expanded
  {
    var once := Toggle(expanded, id);
    var twice := Toggle(once, id);
    assert forall x :: x in twice <==> x in expanded;
  }

  /** Clicks on different headers commute. */
  lemma ToggleCommutes(expanded: set<int>, a: int, b: int)
    ensures Toggle(Toggle(expanded, a), b) == Toggle(Toggle(expanded, b), a)
  {
    var ab := Toggle(Toggle(expanded, a), b);
    var ba := Toggle(Toggle(expanded, b), a);
    assert forall x :: x in ab <==> x in ba;
  }

  // ---------------------------------------------------------------------
  // One panel

  /** The matches query a panel issues: for today, on both ends of the
      range, enabled exactly while the panel is open. */
  function PanelQuery(league: Competition, today: string, expanded: set<int>): (q: QuerySpec)
    ensures q.enabled <==> league.id in expanded
    ensures q.key == MatchesKey(league.code, Some(today), Some(today))
  {
    UseCompetitionMatches(league.code, Some(today), Some(today), Some(league.id in expanded))
  }

  /** The status cell text; SCHEDULED and TIMED share one label, other
      statuses without a label are shown raw. */
  datatype StatusText = Scheduled | Live | Paused | Finished | Postponed | Cancelled | Raw(status: string)

  const LabelledStatuses: set<string> :=
    {"SCHEDULED", "TIMED", "IN_PLAY", "PAUSED", "FINISHED", "POSTPONED", "CANCELLED"}

  function StatusTextOf(status: string): (t: StatusText)
    ensures t.Raw? <==> status !in LabelledStatuses
    ensures t.Raw? ==> t.status == status
    ensures t == Scheduled <==> status == "SCHEDULED" || status == "TIMED"
  {
    match status
    case "SCHEDULED" => Scheduled
    case "TIMED" => Scheduled
    case "IN_PLAY" => Live
    case "PAUSED" => Paused
    case "FINISHED" => Finished
    case "POSTPONED" => Postponed
    case "CANCELLED" => Cancelled
    case _ => Raw(status)
  }

  /** Two statuses shown alike are equal, or are SCHEDULED and TIMED. */
  lemma StatusTextDetermines(a: string, b: string)
    requires StatusTextOf(a) == StatusTextOf(b)
    ensures a == b || ({a, b} == {"SCHEDULED", "TIMED"})
  {
  }

  /** The status cell colour. */
  datatype StatusColor = Green | Yellow | Gray | Red | Muted

  function StatusColorOf(status: string): (c: StatusColor)
    ensures c == Green <==> status == "IN_PLAY"
    ensures c == Yellow <==> status == "PAUSED"
    ensures c == Gray <==> status == "FINISHED"
    ensures c == Red <==> status == "POSTPONED" || status == "CANCELLED"
  {
    match status
    case "IN_PLAY" => Green
    case "PAUSED" => Yellow
    case "FINISHED" => Gray
    case "POSTPONED" => Red
    case "CANCELLED" => Red
    case _ => Muted
  }

  /** Colour and text agree: a live, paused or finished match has its own
      colour, and a cancelled or postponed one is red; everything else,
      scheduled matches included, is muted. */
  lemma ColorFollowsText(status: string)
    ensures StatusColorOf(status) == Muted <==> StatusTextOf(status) == Scheduled || StatusTextOf(status).Raw?
    ensures StatusColorOf(status) == Red <==> StatusTextOf(status) in {Postponed, Cancelled}
  {
  }

  /** `team.shortName || team.name`. */
  function DisplayName(t: TeamRef): (shown: string)
    ensures t.shortName != "" ==> shown == t.shortName
    ensures t.shortName == "" ==> shown == t.name
  {
    if t.shortName != "" then t.shortName else t.name
  }

  /** One table row (the kick-off time is locale formatting and left out);
      the score is shown only when both halves of the full-time score are
      known, otherwise "-:-". */
  datatype Row = Row(home: string, score: Option<(int, int)>, away: string, status: StatusText, color: StatusColor)

  function RowOf(m: Match): (r: Row)
    ensures r.score.Some? <==> m.score.fullTime.home.Some? && m.score.fullTime.away.Some?
    ensures r.score.Some? ==> r.score.value == (m.score.fullTime.home.value, m.score.fullTime.away.value)
    ensures r.status == StatusTextOf(m.status) && r.color == StatusColorOf(m.status)
    ensures r.home == DisplayName(m.homeTeam) && r.away == DisplayName(m.awayTeam)
  {
    var ft := m.score.fullTime;
    Row(
      DisplayName(m.homeTeam),
      if ft.home.Some? && ft.away.Some? then Some((ft.home.value, ft.away.value)) else None,
      DisplayName(m.awayTeam),
      StatusTextOf(m.status),
      StatusColorOf(m.status))
  }

  function Rows(matches: seq<Match>): (rows: seq<Row>)
    ensures |rows| == |matches|
    ensures forall i :: 0 <= i < |rows| ==> rows[i] == RowOf(matches[i])
  {
    if |matches| == 0 then [] else [RowOf(matches[0])] + Rows(matches[1..])
  }

  /** What the open panel body shows. The loading and error lines are
      independent of each other; the empty message and the table each need
      neither. */
  datatype Body = Body(loading: bool, error: bool, noMatches: bool, table: Option<seq<Row>>)

  /** A panel: its header always, its body only while open. `data` is the
      query's matches response, `None` while there is none; a response
      without a `matches` array counts as no matches. */
  function Panel(isExpanded: bool, isLoading: bool, hasError: bool, data: Option<Option<seq<Match>>>): (b: Option<Body>)
    ensures b.Some? <==> isExpanded
    ensures b.Some? ==> b.value.loading == isLoading && b.value.error == hasError
    ensures b.Some? ==> (b.value.noMatches <==> !isLoading && !hasError && MatchesOf(data) == [])
    ensures b.Some? ==> (b.value.table.Some? <==> !isLoading && !hasError && MatchesOf(data) != [])
    ensures b.Some? && b.value.table.Some? ==> b.value.table.value == Rows(MatchesOf(data))
  {
    if !isExpanded then None
    else
      var matches := MatchesOf(data);
      var settled := !isLoading && !hasError;
      Some(Body(isLoading, hasError, settled && |matches| == 0,
        if settled && |matches| > 0 then Some(Rows(matches)) else None))
  }

  /** `data?.matches || []`. */
  function MatchesOf(data: Option<Option<seq<Match>>>): seq<Match> {
    if data.Some? && data.value.Some? then data.value.value else []
  }

  /** Once the query has settled without error, an open panel shows exactly
      one of the empty message and the table. */
  lemma SettledPanelShowsOne(isLoading: bool, hasError: bool, data: Option<Option<seq<Match>>>)
    requires !isLoading && !hasError
    ensures var b := Panel(true, isLoading, hasError, data).value;
      b.noMatches != b.table.Some?
  {
  }

  /** The section: one panel per league, each querying today's matches and
      enabled exactly when its league is expanded. */
  function Section(leagues: seq<Competition>, iso: string, expanded: set<int>): (qs: seq<QuerySpec>)
    ensures |qs| == |leagues|
    ensures forall i :: 0 <= i < |qs| ==>
      && (qs[i].enabled <==> leagues[i].id in expanded)
      && qs[i].key == MatchesKey(leagues[i].code, Some(TodayOf(iso)), Some(TodayOf(iso)))
  {
    if |leagues| == 0 then []
    else [PanelQuery(leagues[0], TodayOf(iso), expanded)] + Section(leagues[1..], iso, expanded)
  }

  /** A freshly mounted section starts with every panel closed, so it
      issues no request at all. */
  lemma NothingFetchedInitially(leagues: seq<Competition>, iso: string)
    ensures forall q :: q in Section(leagues, iso, {}) ==> !q.enabled
  {
  }

  /** Toggling one league's header changes whether that league's query is
      enabled and leaves every other league's query as it was. */
  lemma ToggleAffectsOnlyThatLeague(leagues: seq<Competition>, iso: string, expanded: set<int>, id: int)
    ensures var before := Section(leagues, iso, expanded);
      var after := Section(leagues, iso, Toggle(expanded, id));
      forall i :: 0 <= i < |leagues| ==>
        && after[i].key == before[i].key
        && (leagues[i].id != id ==> after[i] == before[i])
        && (leagues[i].id == id ==> after[i].enabled != before[i].enabled)
  {
  }
}

=== FILE: uri.dfy ===
/** Text-to-URL encodings the client relies on: UTF-8 (RFC 3629),
    `encodeURIComponent` (percent-encoding as in section 2.1 of RFC 3986,
    keeping the ECMAScript "uriUnreserved" marks), and the
    application/x-www-form-urlencoded serializer and parser of sections 5.1
    and 5.2 of the WHATWG URL Standard, which `URLSearchParams` and the
    server's query parsing follow. */
module Uri {
  import opened Basics
  import opened Seqs

  // ---------------------------------------------------------------------
  // UTF-8

  predicate IsCont(b: Byte) { 0x80 <= b < 0xC0 }

  /** UTF-8 encoding of one scalar value (section 3 of RFC 3629). */
  function Utf8Char(c: char): (bs: seq<Byte>)
    ensures 1 <= |bs| <= 4
    ensures (c as int < 0x80) == (|bs| == 1)
    ensures |bs| == 1 ==> bs[0] == c as int
    ensures bs[0] < 0x80 || 0xC2 <= bs[0] < 0xF5
    ensures forall i :: 1 <= i < |bs| ==> IsCont(bs[i])
  {
    var v := c as int;
    if v < 0x80 then [v]
    else if v < 0x800 then [0xC0 + v / 0x40, 0x80 + v % 0x40]
    else if v < 0x1_0000 then [0xE0 + v / 0x1000, 0x80 + v / 0x40 % 0x40, 0x80 + v % 0x40]
    else [0xF0 + v / 0x4_0000, 0x80 + v / 0x1000 % 0x40, 0x80 + v / 0x40 % 0x40, 0x80 + v % 0x40]
  }

  function Utf8(s: string): (bs: seq<Byte>)
    ensures |bs| >= |s|
  {
    if |s| == 0 then [] else Utf8Char(s[0]) + Utf8(s[1..])
  }

  lemma {:induction false} Utf8Concat(a: string, b: string)
    ensures Utf8(a + b) == Utf8(a) + Utf8(b)
  {
    if |a| == 0 {
      assert a + b == b;
    } else {
      assert (a + b)[0] == a[0];
      assert (a + b)[1..] == a[1..] + b;
      Utf8Concat(a[1..], b);
    }
  }

  /** Reads one encoded scalar value at the front of `bs`, returning it with
      the number of bytes it took; overlong forms, surrogates and values
      past U+10FFFF are rejected. */
  function DecodeChar(bs: seq<Byte>): (r: Option<(char, nat)>)
    ensures r.Some? ==> 1 <= r.value.1 <= |bs|
  {
    if |bs| == 0 then None
    else if bs[0] < 0x80 then Some((bs[0] as char, 1))
    else if 0xC2 <= bs[0] < 0xE0 then
      if |bs| >= 2 && IsCont(bs[1]) then
        Some((((bs[0] as int - 0xC0) * 0x40 + (bs[1] as int - 0x80)) as char, 2))
      else None
    else if 0xE0 <= bs[0] < 0xF0 then
      if |bs| >= 3 && IsCont(bs[1]) && IsCont(bs[2]) then
        var v := (bs[0] as int - 0xE0) * 0x1000 + (bs[1] as int - 0x80) * 0x40 + (bs[2] as int - 0x80);
        if 0x800 <= v && !(0xD800 <= v < 0xE000) then Some((v as char, 3)) else None
      else None
    else if 0xF0 <= bs[0] < 0xF5 then
      if |bs| >= 4 && IsCont(bs[1]) && IsCont(bs[2]) && IsCont(bs[3]) then
        var v := (bs[0] as int - 0xF0) * 0x4_0000 + (bs[1] as int - 0x80) * 0x1000
          + (bs[2] as int - 0x80) * 0x40 + (bs[3] as int - 0x80);
        if 0x1_0000 <= v <= 0x10_FFFF then Some((v as char, 4)) else None
      else None
    else None
  }

  /** Strict UTF-8 decoding: nothing on a malformed sequence. */
  function Utf8Decode(bs: seq<Byte>): Option<string>
    decreases |bs|
  {
    if |bs| == 0 then Some("")
    else match DecodeChar(bs)
      case None => None
      case Some((c, n)) =>
        match Utf8Decode(bs[n..])
        case None => None
        case Some(rest) => Some([c] + rest)
  }

  lemma DecodeTwo(c: char, rest: seq<Byte>)
    requires 0x80 <= c as int < 0x800
    ensures DecodeChar(Utf8Char(c) + rest) == Some((c, 2))
  {
    var v := c as int;
    var bs := Utf8Char(c) + rest;
    assert bs[0] == 0xC0 + v / 0x40 && bs[1] == 0x80 + v % 0x40;
    assert (v / 0x40) * 0x40 + v % 0x40 == v;
  }

  /** Base-64 digits of a code point: three digits below 0x1_0000. */
  lemma ThreeDigits(v: int)
    requires 0 <= v
    ensures (v / 0x1000) * 0x1000 + (v / 0x40 % 0x40) * 0x40 + v % 0x40 == v
  {
    var q1, r0 := v / 0x40, v % 0x40;
    var q2, r1 := q1 / 0x40, q1 % 0x40;
    assert v == q1 * 0x40 + r0 && q1 == q2 * 0x40 + r1;
    assert v == q2 * 0x1000 + (r1 * 0x40 + r0);
    assert v / 0x1000 == q2;
  }

  /** Base-64 digits of a code point: four digits from 0x1_0000 on. */
  lemma FourDigits(v: int)
    requires 0 <= v
    ensures (v / 0x4_0000) * 0x4_0000 + (v / 0x1000 % 0x40) * 0x1000 + (v / 0x40 % 0x40) * 0x40 + v % 0x40 == v
  {
    var q1, r0 := v / 0x40, v % 0x40;
    var q2, r1 := q1 / 0x40, q1 % 0x40;
    var q3, r2 := q2 / 0x40, q2 % 0x40;
    assert v == q1 * 0x40 + r0 && q1 == q2 * 0x40 + r1 && q2 == q3 * 0x40 + r2;
    assert v == q2 * 0x1000 + (r1 * 0x40 + r0);
    assert v / 0x1000 == q2;
    assert v == q3 * 0x4_0000 + (r2 * 0x1000 + r1 * 0x40 + r0);
    assert v / 0x4_0000 == q3;
  }

  lemma DecodeThree(c: char, rest: seq<Byte>)
    requires 0x800 <= c as int < 0x1_0000
    ensures DecodeChar(Utf8Char(c) + rest) == Some((c, 3))
  {
    var v := c as int;
    var bs := Utf8Char(c) + rest;
    assert bs[0] == 0xE0 + v / 0x1000 && bs[1] == 0x80 + v / 0x40 % 0x40 && bs[2] == 0x80 + v % 0x40;
    ThreeDigits(v);
  }

  lemma DecodeFour(c: char, rest: seq<Byte>)
    requires 0x1_0000 <= c as int
    ensures DecodeChar(Utf8Char(c) + rest) == Some((c, 4))
  {
    var v := c as int;
    var bs := Utf8Char(c) + rest;
    assert bs[0] == 0xF0 + v / 0x4_0000 && bs[1] == 0x80 + v / 0x1000 % 0x40;
    assert bs[2] == 0x80 + v / 0x40 % 0x40 && bs[3] == 0x80 + v % 0x40;
    FourDigits(v);
  }

  lemma DecodeUtf8Char(c: char, rest: seq<Byte>)
    ensures DecodeChar(Utf8Char(c) + rest) == Some((c, |Utf8Char(c)|))
  {
    var v := c as int;
    if v < 0x80 {
    } else if v < 0x800 {
      DecodeTwo(c, rest);
    } else if v < 0x1_0000 {
      DecodeThree(c, rest);
    } else {
      DecodeFour(c, rest);
    }
  }

  /** Decoding what was encoded gives the text back. */
  lemma {:induction false} Utf8RoundTrip(s: string)
    ensures Utf8Decode(Utf8(s)) == Some(s)
  {
    if |s| > 0 {
      var bs := Utf8(s);
      DecodeUtf8Char(s[0], Utf8(s[1..]));
      assert bs[|Utf8Char(s[0])|..] == Utf8(s[1..]);
      Utf8RoundTrip(s[1..]);
      assert [s[0]] + s[1..] == s;
    }
  }

  // ---------------------------------------------------------------------
  // Percent-encoding

  /** `encodeURIComponent` (Component) or the form serializer (Form). */
  datatype Scheme = Component | Form

  predicate IsAsciiAlnum(b: int) {
    0x30 <= b <= 0x39 || 0x41 <= b <= 0x5A || 0x61 <= b <= 0x7A
  }

  /** Bytes written as themselves. For `encodeURIComponent` these are the
      alphanumerics and `- _ . ! ~ * ' ( )`; for the form serializer the
      alphanumerics and `* - . _`. */
  predicate Unreserved(scheme: Scheme, b: int) {
    IsAsciiAlnum(b) ||
    match scheme
    case Component =>
      b == 0x2D || b == 0x5F || b == 0x2E || b == 0x21 || b == 0x7E || b == 0x2A || b == 0x27 || b == 0x28 || b == 0x29
    case Form =>
      b == 0x2A || b == 0x2D || b == 0x2E || b == 0x5F
  }

  /** Upper-case hexadecimal digit. */
  function HexDigit(d: int): (c: char)
    requires 0 <= d < 16
    ensures c as int < 0x80
  {
    if d < 10 then ('0' as int + d) as char else ('A' as int + d - 10) as char
  }

  predicate IsHexByte(b: Byte) {
    0x30 <= b <= 0x39 || 0x41 <= b <= 0x46 || 0x61 <= b <= 0x66
  }

  function HexValue(b: Byte): (d: int)
    requires IsHexByte(b)
    ensures 0 <= d < 16
  {
    if b <= 0x39 then b - 0x30 else if b <= 0x46 then b - 0x41 + 10 else b - 0x61 + 10
  }

  lemma HexDigitValue(d: int)
    requires 0 <= d < 16
    ensures IsHexByte(HexDigit(d) as int) && HexValue(HexDigit(d) as int) == d
  {
  }

  /** How one byte is written. */
  function EncodeByte(scheme: Scheme, b: Byte): (t: string)
    ensures forall i :: 0 <= i < |t| ==> t[i] as int < 0x80
  {
    if Unreserved(scheme, b) then [b as char]
    else if scheme == Form && b == 0x20 then "+"
    else ['%', HexDigit(b / 16), HexDigit(b % 16)]
  }

  function EncodeBytes(scheme: Scheme, bs: seq<Byte>): (t: string)
    ensures forall i :: 0 <= i < |t| ==> t[i] as int < 0x80
  {
    if |bs| == 0 then "" else EncodeByte(scheme, bs[0]) + EncodeBytes(scheme, bs[1..])
  }

  /** Percent-encoding of the UTF-8 bytes of `s`. */
  function Encode(scheme: Scheme, s: string): string {
    EncodeBytes(scheme, Utf8(s))
  }

  /** Characters that can appear in an encoded string. */
  predicate EncodedChar(scheme: Scheme, c: char) {
    Unreserved(scheme, c as int) || c == '%' || (scheme == Form && c == '+')
  }

  lemma {:induction false} EncodeBytesChars(scheme: Scheme, bs: seq<Byte>)
    ensures forall c :: c in EncodeBytes(scheme, bs) ==> EncodedChar(scheme, c)
  {
    if |bs| > 0 {
      EncodeBytesChars(scheme, bs[1..]);
      var b := bs[0];
      if !Unreserved(scheme, b) && !(scheme == Form && b == 0x20) {
        HexDigitValue(b / 16);
        HexDigitValue(b % 16);
      }
    }
  }

  /** An encoded string never holds a query delimiter (`&`, `=`, `#`), and
      `encodeURIComponent` output never holds `+`. */
  lemma EncodeAvoidsDelimiters(scheme: Scheme, s: string)
    ensures '&' !in Encode(scheme, s) && '=' !in Encode(scheme, s) && '#' !in Encode(scheme, s)
    ensures scheme == Component ==> '+' !in Encode(scheme, s)
  {
    EncodeBytesChars(scheme, Utf8(s));
  }

  /** Letters, digits and the scheme's marks are left alone, so such text
      encodes to itself. */
  lemma {:induction false} EncodeUnreservedIdentity(scheme: Scheme, s: string)
    requires forall i :: 0 <= i < |s| ==> Unreserved(scheme, s[i] as int)
    ensures Encode(scheme, s) == s
  {
    if |s| > 0 {
      EncodeUnreservedIdentity(scheme, s[1..]);
      assert Utf8(s) == [s[0] as int] + Utf8(s[1..]);
      assert Utf8(s)[1..] == Utf8(s[1..]);
      assert [s[0]] + s[1..] == s;
    }
  }

  // ---------------------------------------------------------------------
  // Decoding

  /** The form parser's first step: every `+` byte stands for a space. */
  function PlusToSpace(bs: seq<Byte>): (r: seq<Byte>)
    ensures |r| == |bs|
    ensures forall i :: 0 <= i < |bs| ==> r[i] == (if bs[i] == 0x2B then 0x20 else bs[i])
  {
    if |bs| == 0 then [] else [if bs[0] == 0x2B then 0x20 else bs[0]] + PlusToSpace(bs[1..])
  }

  /** Percent-decoding (section 1.3 of the WHATWG URL Standard): `%` with two
      hexadecimal digits becomes that byte; anything else is kept. */
  function PercentDecode(bs: seq<Byte>): seq<Byte>
    decreases |bs|
  {
    if |bs| == 0 then []
    else if bs[0] == 0x25 && |bs| >= 3 && IsHexByte(bs[1]) && IsHexByte(bs[2]) then
      [HexValue(bs[1]) * 16 + HexValue(bs[2])] + PercentDecode(bs[3..])
    else [bs[0]] + PercentDecode(bs[1..])
  }

  /** Decoding of one name or value by the form parser. */
  function FormDecode(t: string): Option<string> {
    Utf8Decode(PercentDecode(PlusToSpace(Utf8(t))))
  }

  lemma Utf8Ascii(t: string)
    requires forall i :: 0 <= i < |t| ==> t[i] as int < 0x80
    ensures Utf8(t) == Map((c: char) => c as int, t)
  {
    if |t| > 0 {
      Utf8Ascii(t[1..]);
    }
  }

  lemma PlusToSpaceConcat(a: seq<Byte>, b: seq<Byte>)
    ensures PlusToSpace(a + b) == PlusToSpace(a) + PlusToSpace(b)
  {
  }

  lemma DecodeEncodedByte(scheme: Scheme, b: Byte, rest: seq<Byte>)
    ensures PercentDecode(PlusToSpace(Utf8(EncodeByte(scheme, b))) + rest) == [b] + PercentDecode(rest)
  {
    var e := EncodeByte(scheme, b);
    Utf8Ascii(e);
    if Unreserved(scheme, b) {
      assert PlusToSpace(Utf8(e)) == [b];
    } else if scheme == Form && b == 0x20 {
      assert PlusToSpace(Utf8(e)) == [0x20];
    } else {
      HexDigitValue(b / 16);
      HexDigitValue(b % 16);
      var bs := PlusToSpace(Utf8(e)) + rest;
      assert bs[0] == 0x25 && bs[1] == HexDigit(b / 16) as int && bs[2] == HexDigit(b % 16) as int;
      assert bs[3..] == rest;
    }
  }

  lemma {:induction false} DecodeEncodedBytes(scheme: Scheme, bs: seq<Byte>)
    ensures PercentDecode(PlusToSpace(Utf8(EncodeBytes(scheme, bs)))) == bs
  {
    if |bs| > 0 {
      var e := EncodeByte(scheme, bs[0]);
      var t := EncodeBytes(scheme, bs[1..]);
      Utf8Concat(e, t);
      PlusToSpaceConcat(Utf8(e), Utf8(t));
      DecodeEncodedByte(scheme, bs[0], PlusToSpace(Utf8(t)));
      DecodeEncodedBytes(scheme, bs[1..]);
      assert [bs[0]] + bs[1..] == bs;
    }
  }

  /** The form parser recovers any text from either encoding of it. */
  lemma EncodeRoundTrip(scheme: Scheme, s: string)
    ensures FormDecode(Encode(scheme, s)) == Some(s)
  {
    DecodeEncodedBytes(scheme, Utf8(s));
    Utf8RoundTrip(s);
  }

  /** Text made of unreserved characters decodes to itself. */
  lemma FormDecodeUnreserved(s: string)
    requires forall i :: 0 <= i < |s| ==> Unreserved(Form, s[i] as int)
    ensures FormDecode(s) == Some(s)
  {
    EncodeUnreservedIdentity(Form, s);
    EncodeRoundTrip(Form, s);
  }

  // ---------------------------------------------------------------------
  // Query strings

  datatype Param = Param(name: string, value: string)

  function SerializeParam(p: Param): string {
    Encode(Form, p.name) + "=" + Encode(Form, p.value)
  }

  /** `URLSearchParams.toString()`: the pairs in order, joined by `&`. */
  function SerializeQuery(ps: seq<Param>): string {
    Join(Map(SerializeParam, ps), "&")
  }

  /** Position of the first `c` in `t`. */
  function IndexOfChar(t: string, c: char): (r: Option<nat>)
    ensures r.Some? ==> r.value < |t| && t[r.value] == c && c !in t[..r.value]
    ensures r.None? ==> c !in t
  {
    if |t| == 0 then None
    else if t[0] == c then Some(0)
    else match IndexOfChar(t[1..], c)
      case None => None
      case Some(i) =>
        assert t[..i + 1] == [t[0]] + t[1..][..i];
        Some(i + 1)
  }

  /** One `&`-separated piece: name before the first `=`, value after it
      (empty when there is no `=`), both form-decoded. */
  function ParseParam(t: string): Option<Param> {
    var (n, v) := match IndexOfChar(t, '=')
      case None => (t, "")
      case Some(i) => (t[..i], t[i + 1..]);
    match (FormDecode(n), FormDecode(v))
    case (Some(name), Some(value)) => Some(Param(name, value))
    case _ => None
  }

  function ParseParams(pieces: seq<string>): Option<seq<Param>> {
    if |pieces| == 0 then Some([])
    else match ParseParams(pieces[1..])
      case None => None
      case Some(rest) =>
        if pieces[0] == "" then Some(rest)
        else match ParseParam(pieces[0])
          case None => None
          case Some(p) => Some([p] + rest)
  }

  /** The application/x-www-form-urlencoded parser: split on `&`, skip empty
      pieces, parse each. */
  function ParseQuery(t: string): Option<seq<Param>> {
    ParseParams(Split(t, '&'))
  }

  lemma {:induction false} IndexOfCharAfter(a: string, c: char, b: string)
    requires c !in a
    ensures IndexOfChar(a + [c] + b, c) == Some(|a|)
  {
    if |a| > 0 {
      assert (a + [c] + b)[1..] == a[1..] + [c] + b;
      IndexOfCharAfter(a[1..], c, b);
    }
  }

  lemma ParseSerializedParam(p: Param)
    ensures SerializeParam(p) != ""
    ensures '&' !in SerializeParam(p)
    ensures ParseParam(SerializeParam(p)) == Some(p)
  {
    var n := Encode(Form, p.name);
    var v := Encode(Form, p.value);
    var t := SerializeParam(p);
    EncodeAvoidsDelimiters(Form, p.name);
    EncodeAvoidsDelimiters(Form, p.value);
    EncodeRoundTrip(Form, p.name);
    EncodeRoundTrip(Form, p.value);
    IndexOfCharAfter(n, '=', v);
    assert t == n + ['='] + v;
    assert t[..|n|] == n && t[|n| + 1..] == v;
  }

  lemma {:induction false} ParseSerializedParams(ps: seq<Param>)
    ensures ParseParams(Map(SerializeParam, ps)) == Some(ps)
  {
    if |ps| > 0 {
      ParseSerializedParam(ps[0]);
      var pieces := Map(SerializeParam, ps);
      assert pieces == [SerializeParam(ps[0])] + Map(SerializeParam, ps[1..]);
      ConcatTail([SerializeParam(ps[0])], Map(SerializeParam, ps[1..]));
      ParseSerializedParams(ps[1..]);
      HeadSplit(ps);
    }
  }

  /** Parsing a serialized parameter list gives the same names and values,
      in the same order. */
  lemma QueryRoundTrip(ps: seq<Param>)
    ensures ParseQuery(SerializeQuery(ps)) == Some(ps)
  {
    var pieces := Map(SerializeParam, ps);
    if |ps| == 0 {
      assert SerializeQuery(ps) == "";
    } else {
      forall i | 0 <= i < |pieces|
        ensures '&' !in pieces[i]
      {
        ParseSerializedParam(ps[i]);
      }
      SplitJoin(pieces, '&');
      ParseSerializedParams(ps);
    }
  }
}
